=== FILE: README.md ===
# vue-api-kit request core, in Dafny

This project models the request-shaping and dispatch core of vue-api-kit, a TypeScript
toolkit for typed API calls, and proves properties of it. The model covers four groups.

- **Dispatch.** Placeholder extraction and parameter splitting (`PathParams`). The two
  `callApi` pipelines: the generic one (`CoreDispatch`) and the table-driven legacy one
  (`LegacyDispatch`). The two error hierarchies (`CoreErrors`, `ApiErrors`).
- **The response cache.** `Cache` is a map with lazy expiry, prefix invalidation and a sweep.
- **The URL layer.**
  - the validators (`UrlValidators`) and the segment-based `UrlBuilder`;
  - the tagged-state method chain (`MethodChain`) and the resource-definition builder
    (`ResourceBuilder`);
  - the preset-tree path chain (`PresetUrl`) and the preset registry (`UrlBuilderFactory`);
  - the fetch-based `HttpClient`: URL building, header merging, interceptor folding,
    response handling and error recovery.
- **Mock pagination arithmetic.** `MockData` covers the page count, the clamp and the item count.

JavaScript objects are ordered key/value sequences (`Js.Entries`): `Object.entries` order
decides query-string order and which error is reported. `undefined`, `null`, strings, whole
numbers, booleans, arrays and objects form `Js.JsValue`. A thrown exception is the `Err` side of
a `Result`.

Everything the core calls but does not define is a function-valued parameter:
- the schema validator (zod);
- the HTTP transport (axios or `fetch`);
- `encodeURIComponent` and `JSON.stringify`;
- the clock (`Date.now()` becomes `now`);
- the random mock generator.

The transport's rejections are `Transport.Thrown` values. Besides plain objects and
primitives, they include the core's own error classes (`Thrown.Typed`), which is how an axios
response interceptor rejects. The legacy transport's interceptor in `src/api/interceptors.ts`
is modelled by `LegacyDispatch.Intercepted`. The core transport's interceptor in
`src/core/axios/interceptors.ts` rejects with the `ApiError` of `src/types/apiCall.ts`, which
is a plain `Error` to the core's catch block and is rethrown (`Thrown.ObjectThrown` with
`isError` and not `isAxiosError`).

Builders are immutable state records returned by each step.

## Model

| member | source | states |
|---|---|---|
| PathParams.ExtractPathParamNames | src/core/api/utils.ts:32-35 | no contract of its own; `PathParams.NamesAreValid`, `TemplateNames`, `LettersOnlyStopsAtDigit` and `LettersOnlyIsPrefix` state which names it finds |
| PathParams.RunLength | src/core/api/utils.ts:7 | the name after a ':' is the longest run of name characters: every character inside the run continues a name and the one after it does not |
| PathParams.NameLen | src/core/api/utils.ts:33 | at a ':' followed by a letter, the matched name is non-empty, valid for the pattern, and maximal |
| PathParams.NamesAreValid | src/core/api/utils.ts:32-35 | every name the global match extracts is a letter followed by characters the pattern allows |
| PathParams.TemplateNames | src/core/api/utils.ts:32-35 | `/users` has no placeholders and `/users/:id` has exactly `id` |
| PathParams.LettersOnlyStopsAtDigit | src/core/api/utils.ts:22-35 | `extractPathParams(":id2")` is `["id"]` while `extractPathParamNames(":id2")` is `["id2"]` |
| PathParams.LettersOnlyIsPrefix | src/core/api/utils.ts:22-35 | on every path the two extractors find the same number of placeholders, and each letters-only name is a prefix of the letter-and-digit name |
| PathParams.NamesSkipNoColon | src/core/api/utils.ts:33 | text without ':' before a position contributes no placeholder names |
| PathParams.ReplacePathParams | src/core/api/utils.ts:6-15 | no contract of its own; `PathParams.SubstituteOutcome`, `SubstituteKeepsText`, `SubstituteNoPlaceholders` and `ReplaceUsersId` state its result |
| PathParams.SubstituteOutcome | src/core/api/utils.ts:6-15 | substitution succeeds iff every placeholder has a defined value, and on failure it names the leftmost placeholder whose value is undefined |
| PathParams.SubstituteKeepsText | src/core/api/utils.ts:6-15 | when every placeholder maps to its own text the path comes back unchanged, so nothing but placeholders is rewritten |
| PathParams.SubstituteNoPlaceholders | src/core/api/utils.ts:6-15 | a path without placeholders is returned unchanged whatever the parameters |
| PathParams.SubstituteLiteralPrefix | src/core/api/utils.ts:7 | a prefix without ':' is copied through unchanged, in front of the substituted rest or of the same error |
| PathParams.ReplaceUsersId | src/core/api/utils.ts:3-6 | `/users/:id` with id 1 gives `/users/1` |
| PathParams.FirstMissing | src/core/api/utils.ts:66-70 | no name is reported iff every placeholder name is a key; otherwise the first absent name in template order is reported |
| PathParams.RouteFailsOnFirstBad | src/core/api/utils.ts:50-63 | the routing loop fails iff some placeholder-named entry is undefined, and it names the first such entry in entry order |
| PathParams.RoutePathParams | src/core/api/utils.ts:50-55 | after the loop a placeholder name maps to the value of its entry, when the object has one |
| PathParams.RoutePathKeys | src/core/api/utils.ts:50-55 | the path part holds only placeholder names, each with a defined value |
| PathParams.PathKeyIffEntry | src/core/api/utils.ts:51-55 | a placeholder name is a path key after the loop iff the object had an entry for it |
| PathParams.SeparateParams | src/core/api/utils.ts:43-73 | no contract of its own; `PathParams.SeparateParamsOkIff`, `SeparateParamsError`, `SeparateParamsPathPart`, `SeparateParamsFlat` and `QueryEntryMerges` state its result |
| PathParams.SeparateParamsOkIff | src/core/api/utils.ts:43-73 | `separateParams` succeeds iff no placeholder-named entry is undefined and every placeholder has an entry |
| PathParams.SeparateParamsError | src/core/api/utils.ts:50-70 | the reported name is a placeholder: the first undefined placeholder entry if there is one, otherwise the first placeholder without an entry |
| PathParams.SeparateParamsPathPart | src/core/api/utils.ts:43-73 | on success the path keys are exactly the template's placeholder names, each with the caller's value |
| PathParams.SeparateThenReplace | src/core/api/utils.ts:6-73 | whenever `separateParams` succeeds, `replacePathParams` on its path part cannot fail |
| PathParams.SeparateParamsFlat | src/core/api/utils.ts:56-62 | without `query` or `body` keys, every non-placeholder entry goes to the query part in entry order, whatever the method, and the body part stays empty |
| PathParams.QueryEntryMerges | src/core/api/utils.ts:56-57 | a `query` entry is merged into the query part and overrides an earlier key of the same name |
| PathParams.DottedNames | src/core/api/callApi.ts:35 | on `/:id.json` the substitution pattern finds `id` while the second check's pattern finds `id.json` |
| CoreDispatch.CallApi | src/core/api/callApi.ts:24-140 | an unknown key fails with 404 and sends nothing; a request is sent iff splitting, checking and validating succeed, and it is the prepared request; a call that sends nothing fails with an error raised before sending; after sending, a transport failure is classified and a response goes through the response schema when there is one |
| CoreDispatch.MissingRequired | src/core/api/callApi.ts:35-36 | the missing list holds exactly the names matched by `/:[^/]+/` that are not keys of the path part |
| CoreDispatch.Absent | src/core/api/callApi.ts:36 | the filter keeps exactly the names not present as keys |
| CoreDispatch.Classify | src/core/api/callApi.ts:117-138 | the core's own error classes and any `Error` that is not an axios error are rethrown unchanged; an axios error with a response becomes `ApiError` with the response data's `message` (or "Not Found") and the response's status; one without a response becomes `ApiError` with its own message (or "API Error") and 500; any other value becomes `ApiError("Unexpected API error", 500)` carrying the value's text as `originalError` |
| CoreDispatch.RaisedStatus | src/core/api/callApi.ts:124-138 | an error the catch block raises has the axios response's status when there is a response, and 500 otherwise |
| CoreDispatch.TransportErrorPassesThrough | src/core/api/callApi.ts:117-136 | a core error class or a plain `Error` that the transport throws reaches the caller unchanged |
| CoreDispatch.UnknownKey | src/core/api/callApi.ts:25-28 | an unknown key fails with `ApiError` status 404 before anything is sent |
| CoreDispatch.MissingPlaceholderIsPlainError | src/core/api/utils.ts:66-70 | as written, when `separateParams` fails nothing is sent and the caller gets a plain `Error` naming the placeholder, not `MissingPathParamError` |
| CoreDispatch.CorrectedMissingPlaceholder | src/core/api/callApi.ts:35-39 | in the corrected dispatcher a failed split is reported as `MissingPathParamError` for one of the template's placeholders, before anything is sent |
| CoreDispatch.RequiredCheckPasses | src/core/api/callApi.ts:35-39 | when both placeholder patterns agree on a path, the second placeholder check never fires after a successful split |
| CoreDispatch.ApiMapPatternsAgree | src/definitions/apiMap.ts:14-80 | for every path of the API map the two placeholder patterns agree, so the second check is unreachable there |
| CoreDispatch.DottedPlaceholderRejected | src/core/api/callApi.ts:35-39 | on a template like `/:id.json` the second check rejects the call even though `id` was supplied |
| CoreDispatch.RequestRejected | src/core/api/callApi.ts:42-54 | when the request schema rejects the parameters the result is `RequestValidationError` with the validator's error and nothing is sent |
| CoreDispatch.SentRequest | src/core/api/callApi.ts:56-74 | once the checks pass the spec's method is sent to the substituted path; GET sends the query part as params and `{}` as data, other methods send the whole parameter object as data and no params |
| CoreDispatch.AfterSending | src/core/api/callApi.ts:74-103 | a transport failure is classified; a response is validated by the response schema when there is one (value returned, or `ResponseValidationError` with the raw data), otherwise returned raw |
| CoreDispatch.AxiosNotFound | src/core/api/callApi.ts:125-129 | an axios error whose response is 404 with message "Not Found" becomes `ApiError("Not Found", 404)` |
| CoreDispatch.SeparateUsersId | src/core/api/utils.ts:43-73 | splitting `{id: 1}` against `/users/:id` puts `id` in the path part and nothing elsewhere |
| CoreDispatch.SeparateUsersIdEmpty | src/core/api/utils.ts:66-70 | splitting `{}` against `/users/:id` fails naming `id` |
| CoreDispatch.GetUserSendsPath | src/core/api/__tests__/callApi.test.ts:36-57 | `getUser` with id 1 sends GET `/users/1` with empty params and data |
| CoreDispatch.GetUserWithoutIdAsWritten | src/core/api/callApi.ts:30-39 | as written, `getUser` with `{}` fails with the plain "Missing required path parameter: id" error |
| CoreDispatch.GetUserWithoutIdCorrected | src/core/api/__tests__/callApi.test.ts:62-64 | the corrected dispatcher fails `getUser` with `{}` with `MissingPathParamError("id")`, as the test expects |
| LegacyDispatch.CallApi | src/api/callApi.ts:58-128 | an unknown key fails with the catch-all error and sends nothing; whatever is sent uses the configured method and the endpoint's URL, a parameterised endpoint is reached only with a truthy `id`, and truthy parameters are sent only when the request schema accepts them; a call that sends nothing fails; after sending, a transport failure is classified and a response is parsed by the response schema |
| LegacyDispatch.TablesAgree | src/api/callApi.ts:19-54 | the endpoint table and the config table have the same keys |
| LegacyDispatch.Classify | src/api/callApi.ts:106-126 | the four core error classes are rethrown unchanged; an object with a `response` property becomes `ApiError` with its own message, the response's status (500 when that is falsy) and the response's data; anything else, a plain `Error` included, becomes the catch-all status-500 `ApiError` |
| LegacyDispatch.Intercepted | src/api/interceptors.ts:23-36 | the transport's response interceptor rejects a failed call with an `ApiError` carrying the catch-all text, the response status (500 when missing or zero) and the response data's `message` as details |
| LegacyDispatch.TypedRejectionPassesThrough | src/api/callApi.ts:106-114 | an `ApiError` or another core error class that the transport rejects with reaches the caller unchanged |
| LegacyDispatch.InterceptedNotFound | src/api/interceptors.ts:30-34 | a 404 rejection from the interceptor reaches the caller as an `ApiError` with status 404 and the response's message as details |
| LegacyDispatch.UnknownKey | src/api/callApi.ts:62-126 | a key missing from the tables ends in the generic `ApiError` with status 500 and nothing is sent |
| LegacyDispatch.FalsyIdRejected | src/api/callApi.ts:66-70 | for a function endpoint a falsy `params.id` fails with `MissingPathParamError("id")` carrying the Korean message, and nothing is sent |
| LegacyDispatch.RequestRejected | src/api/callApi.ts:73-82 | truthy parameters that the request schema rejects fail with `RequestValidationError` carrying the schema's error, and nothing is sent |
| LegacyDispatch.FalsyParamsSkipValidation | src/api/callApi.ts:73-95 | with falsy parameters the request schema is not consulted and the fixed endpoint is called directly |
| LegacyDispatch.SentRequest | src/api/callApi.ts:84-95 | whatever is sent uses the configured method; GET sends the parameters as params and others as data; a function endpoint is reached only with a truthy id and calls `/users/<id>` |
| LegacyDispatch.AfterSending | src/api/callApi.ts:97-105 | the response is always validated: the parsed value is returned, or `ResponseValidationError` with the raw data; a transport failure is classified |
| LegacyDispatch.GetUserExample | src/api/__tests__/callApi.test.ts:54-76 | `getUser` with id 1 sends GET `/users/1` with the parameters as params |
| LegacyDispatch.NotFoundExample | src/api/__tests__/callApi.test.ts:135-150 | an error carrying a 404 response becomes an `ApiError` with status 404 |
| CoreErrors.NewApiError | src/core/errors/index.ts:3-12 | an `ApiError` keeps its message and details, and an omitted status is 500 |
| CoreErrors.NameIdentifiesClass | src/core/errors/index.ts:3-37 | two errors with the same `name` are of the same class |
| CoreErrors.MissingParamMessage | src/core/errors/index.ts:32-37 | the message starts with the fixed Korean prefix and the parameter name can be read back from it |
| CoreErrors.ValidationMessages | src/core/errors/index.ts:14-30 | a request validation error reuses the validation message; a response validation message starts with `API '<key>` and ends with the validation message |
| ErrorText.MissingParamName | src/core/errors/index.ts:34 | reading the name after the prefix inverts building the message |
| ApiErrors.FormatIssueEndsWithMessage | src/core/api/errors.ts:57-63 | each rendered issue ends with the issue's own message |
| ApiErrors.FormatZodError | src/core/api/errors.ts:57-65 | no contract of its own; `ApiErrors.FormatIssueEndsWithMessage` and `FormatZodErrorLines` state its text |
| ApiErrors.FormatZodErrorLines | src/core/api/errors.ts:57-65 | splitting the formatted error on newlines gives back one line per issue, in issue order |
| ApiErrors.ResponseMessageLines | src/core/api/errors.ts:32-42 | the response validation message is the `API '<key>'` header line followed by the formatted issue lines |
| ApiErrors.SubclassesHaveNoStatus | src/core/api/errors.ts:7-52 | only a directly built `ApiError` carries a status; the missing-parameter message names its parameter |
| Cache.New | src/core/cache/apiCache.ts:8-30 | a new cache is empty, and an omitted TTL or interval takes the default 3000 or 60000 |
| Cache.Set | src/core/cache/apiCache.ts:43-46 | the key then holds the new data, overwriting an earlier entry; every other key and the config are untouched |
| Cache.Get | src/core/cache/apiCache.ts:51-61 | a hit happens iff the key is present and unexpired and returns the stored data with the cache unchanged; a miss removes that key and nothing else |
| Cache.CacheKey | src/core/cache/apiCache.ts:35-37 | every cache key of an API key starts with that key followed by ':' |
| Cache.Delete | src/core/cache/apiCache.ts:66-69 | only the entry at the composed cache key is removed |
| Cache.DeleteByKey | src/core/cache/apiCache.ts:74-81 | exactly the entries whose key starts with `key:` are removed, and the rest keep their items |
| Cache.Clear | src/core/cache/apiCache.ts:86-88 | every lookup misses afterwards, at any time |
| Cache.Cleanup | src/core/cache/apiCache.ts:93-100 | as written, an entry survives the sweep iff `now` is below its expiry, with a missing expiry counted as 0 |
| Cache.CleanupCorrected | src/core/cache/apiCache.ts:93-100 | the corrected sweep keeps exactly the entries `get` would still return |
| Cache.SetCorrected | src/core/cache/apiCache.ts:41-46 | with TTL 0 nothing is stored under the key, as the doc comment says; any other TTL behaves like `set` |
| Cache.SetThenGet | src/core/cache/apiCache.ts:43-61 | with a positive TTL the data is returned up to and including the expiry instant, and not after |
| Cache.NoTtlNeverExpires | src/core/cache/apiCache.ts:44 | without a TTL, or with TTL 0, the data is returned at every later time |
| Cache.SetKeepsOtherKeys | src/core/cache/apiCache.ts:43-61 | storing under one key does not change what another key returns |
| Cache.GetIdempotent | src/core/cache/apiCache.ts:51-61 | a second lookup at the same time returns what the first did |
| Cache.CleanupCorrectedAgreesWithGet | src/core/cache/apiCache.ts:51-100 | a key survives the corrected sweep iff a lookup at that time hits |
| Cache.CleanupDropsPermanentItem | src/core/cache/apiCache.ts:93-100 | as written, the sweep removes an entry stored without TTL that `get` still returns |
| Cache.CleanupDropsAtExpiryInstant | src/core/cache/apiCache.ts:93-100 | as written, at the expiry instant `get` still hits but the sweep removes the entry |
| Cache.ZeroTtlCachesForever | src/core/cache/apiCache.ts:41-45 | as written, data stored with TTL 0 is returned at every time |
| Cache.SetCorrectedZeroTtl | src/core/cache/apiCache.ts:41-46 | after the corrected store with TTL 0 a lookup misses |
| HttpMethods.Parse | src/builders/url/validators.ts:12-17 | a method name is accepted iff it is one of GET, POST, PUT, DELETE, PATCH |
| HttpMethods.ParseName | src/builders/url/validators.ts:13 | every method's name parses back to that method |
| HttpMethods.ValidMethodsListed | src/builders/url/validators.ts:15 | the list in the error message reads `GET, POST, PUT, DELETE, PATCH` |
| UrlValidators.MethodAllowed | src/builders/url/validators.ts:6-10 | a method is accepted iff the resource lists it |
| UrlValidators.MethodExists | src/builders/url/validators.ts:12-17 | a name is accepted iff it parses as one of the five methods |
| UrlValidators.MethodExistsMessage | src/builders/url/validators.ts:12-17 | an unknown method is rejected with the message naming it and the five valid ones |
| UrlValidators.ValidateMethod | src/builders/url/validators.ts:85-88 | accepted iff the method exists and the resource allows it; the existence check reports first |
| UrlValidators.Outside | src/builders/url/validators.ts:25 | the filter keeps exactly the elements not in the allowed list |
| UrlValidators.BadParamValue | src/builders/url/validators.ts:39-46 | no offending entry is found iff no value is null, undefined or the empty string |
| UrlValidators.ValidateParams | src/builders/url/validators.ts:22-47 | no contract of its own; `UrlValidators.ValidateParamsIff` and `MissingReportedFirst` state when it accepts and what it reports |
| UrlValidators.ValidateParamsIff | src/builders/url/validators.ts:22-47 | params are accepted iff every placeholder is a key, every key is declared when params are declared, and no value is null, undefined or empty |
| UrlValidators.MissingReportedFirst | src/builders/url/validators.ts:24-28 | a missing placeholder is reported before any other problem, listing every missing name |
| UrlValidators.BadQueryValue | src/builders/url/validators.ts:72-79 | no offending entry is found iff no value is undefined or an empty array |
| UrlValidators.ValidateQuery | src/builders/url/validators.ts:57-80 | no contract of its own; `UrlValidators.ValidateQueryIff` states when it accepts |
| UrlValidators.ValidateQueryIff | src/builders/url/validators.ts:57-80 | with no declared query keys only the empty query passes; otherwise a query passes iff its keys are declared and no value is undefined or an empty array |
| UrlValidators.ValidateAll | src/builders/url/validators.ts:98-102 | accepted iff all three checks accept, and the first failing check, in order method, params, query, supplies the rejection |
| UrlValidators.UserResourceExamples | src/builders/url/__tests__/validators.test.ts:116-160 | for `/users/:id` with GET and PUT, a good request passes while POST, an undeclared parameter and an undeclared query key are rejected |
| UrlBuilder.New | src/builders/url/UrlBuilder.ts:9-15 | one trailing '/' is stripped from the base; a nullish version and a missing prefix become empty; the builder starts with no segments, params or query |
| UrlBuilder.Param | src/builders/url/UrlBuilder.ts:30-33 | the key then maps to the value; every other key keeps its value; a new key is appended after the old ones and an existing key keeps its place; segments, query and config are unchanged |
| UrlBuilder.SetParams | src/builders/url/UrlBuilder.ts:36-39 | keys not in the argument keep their values and the other parts are unchanged |
| UrlBuilder.SetParamsOverrides | src/builders/url/UrlBuilder.ts:36-39 | a key of the argument takes the argument's value |
| UrlBuilder.Query | src/builders/url/UrlBuilder.ts:42-45 | the key then maps to the value; every other key keeps its value; a new key is appended after the old ones and an existing key keeps its place; segments, params and config are unchanged |
| UrlBuilder.Queries | src/builders/url/UrlBuilder.ts:48-51 | keys not in the argument keep their values and the other parts are unchanged |
| UrlBuilder.QueriesOverride | src/builders/url/UrlBuilder.ts:48-51 | a key of the argument takes the argument's value |
| UrlBuilder.Reset | src/builders/url/UrlBuilder.ts:125-130 | segments, params and query are emptied and the config is kept |
| UrlBuilder.Rendering | src/builders/url/UrlBuilder.ts:78 | each segment is rendered on its own, position by position |
| UrlBuilder.Head | src/builders/url/UrlBuilder.ts:64-79 | the assembled URL always starts with the base |
| UrlBuilder.HeadJoinsPieces | src/builders/url/UrlBuilder.ts:64-79 | the URL is the base, then '/' and the pieces joined by '/' when there are any: `v<version>` when the version is truthy, the prefix when it is non-empty, then the rendered segments, in that order |
| UrlBuilder.HeadSplits | src/builders/url/UrlBuilder.ts:64-79 | when no piece contains '/', splitting the URL after the base's '/' gives back exactly the version, prefix and segment pieces |
| UrlBuilder.ReplaceParam | src/builders/url/UrlBuilder.ts:83-86 | a key whose `:key` does not occur leaves the URL unchanged; otherwise only the first `:key` is replaced by the value, together with a '?' right after it when there is one |
| UrlBuilder.OptionalMarkConsumed | src/builders/url/UrlBuilder.ts:85 | at the first `:key?` the value replaces the placeholder together with its '?' |
| UrlBuilder.QueryParts | src/builders/url/UrlBuilder.ts:104-122 | no empty part survives and there are at most as many parts as entries |
| UrlBuilder.QueryPartsAppend | src/builders/url/UrlBuilder.ts:104-122 | the parts of concatenated entries are the parts of each, in order |
| UrlBuilder.SilentEntryIgnored | src/builders/url/UrlBuilder.ts:106-119 | a null, undefined or empty-array entry anywhere leaves the query string unchanged |
| UrlBuilder.QueryStringEmptyIff | src/builders/url/UrlBuilder.ts:104-122 | the query string is empty iff every entry is null, undefined or an empty array |
| UrlBuilder.QueryFollowsOneMark | src/builders/url/UrlBuilder.ts:89-93 | a non-empty query string ends the URL and is preceded by exactly one '?' |
| UrlBuilder.Build | src/builders/url/UrlBuilder.ts:54-101 | with `trailingSlash` the URL ends in '/'; the full URL on every input, query and slash included, is stated by `UrlBuilder.BuildAssembles` |
| UrlBuilder.BuildAssembles | src/builders/url/UrlBuilder.ts:54-101 | the whole URL on every input: each parameter substituted into the base (the option's or the config's) joined with the version, prefix and segment pieces; with a non-empty query string, trailing '?'s removed and then '?' and the query string appended; then '/' when asked for and not already last |
| UrlBuilder.TrailingSlashAfterQuery | src/builders/url/UrlBuilder.ts:96-98 | `trailingSlash` appends '/' after everything else, and only when the URL does not already end in '/' |
| MethodChain.SelectResource | src/builders/url/MethodChainImpl.ts:28-34 | succeeds iff the map has the name, records it, and otherwise throws `Resource "<name>" not found` |
| MethodChain.SelectMethod | src/builders/url/MethodChainImpl.ts:36-46 | succeeds iff a resource is selected and its definition allows the method; without a resource it throws the selection error |
| MethodChain.WithParams | src/builders/url/MethodChainImpl.ts:54-64 | succeeds iff resource and method are selected and the params validate, and then stores them |
| MethodChain.WithQuery | src/builders/url/MethodChainImpl.ts:66-81 | succeeds iff resource and method are selected and the query validates; keys not in the new query keep their earlier values |
| MethodChain.LaterQueryWins | src/builders/url/MethodChainImpl.ts:75-78 | a key of the new query takes the new value |
| MethodChain.NonEmpty | src/builders/url/MethodChainImpl.ts:104 | exactly the non-empty path pieces are kept |
| MethodChain.Prepared | src/builders/url/MethodChainImpl.ts:100-115 | the builder is reset to the resource's path segments, keeping its config, with params and query only when the chain set them |
| MethodChain.Build | src/builders/url/MethodChainImpl.ts:83-118 | succeeds iff resource and method are selected and the final check passes, yielding the prepared builder's URL |
| MethodChain.BuildForgetsEarlierBuilds | src/builders/url/MethodChainImpl.ts:100-101 | whatever an earlier build left in the shared builder does not affect the URL |
| MethodChain.UncheckedWithoutParams | src/builders/url/MethodChainImpl.ts:91-98 | with neither params nor query set, build succeeds without validating the path's placeholders |
| MethodChain.StepsKeepConsistent | src/builders/url/MethodChainImpl.ts:28-81 | every step keeps the selected resource inside the map |
| MethodChain.ConsistentNeverUndefined | src/builders/url/MethodChainImpl.ts:41-88 | from a consistent state no step reads the definition of a missing resource |
| MethodChain.SampleRejections | src/builders/url/__tests__/MethodChainImpl.test.ts:48-142 | an unknown resource, PUT or DELETE on `users`, and params, query or build before their prerequisites are all rejected |
| MethodChain.UsersSecondQuery | src/builders/url/__tests__/MethodChainImpl.test.ts:146-156 | a second `withQuery` adds its key after the first's |
| MethodChain.UsersChainExample | src/builders/url/__tests__/MethodChainImpl.test.ts:146-156 | `users`, GET and two queries build `https://api.example.com/v1/api/users?fields=name&include=profile` |
| ResourceBuilder.Dedup | src/builders/url/ResourceBuilder.ts:16 | the result has the same elements as the input and no duplicates |
| ResourceBuilder.DedupKeepsOrder | src/builders/url/ResourceBuilder.ts:16 | elements appear in the order of their first occurrence |
| ResourceBuilder.DedupIdentity | src/builders/url/ResourceBuilder.ts:16 | deduplication leaves a list unchanged iff it had no duplicates |
| ResourceBuilder.RepeatedMethodsCollapse | src/builders/url/ResourceBuilder.ts:16 | `GET, GET, POST` becomes `GET, POST` |
| ResourceBuilder.Normalise | src/builders/url/ResourceBuilder.ts:11 | the path starts with '/', is unchanged when it already did, and otherwise gains one '/' |
| ResourceBuilder.NormaliseIdempotent | src/builders/url/ResourceBuilder.ts:11 | normalising twice is normalising once, and the empty path becomes `/` |
| ResourceBuilder.Build | src/builders/url/ResourceBuilder.ts:30-44 | fails first on a missing path, then on no methods; otherwise keeps path and methods and leaves empty params or query lists undefined |
| ResourceBuilder.PathCallSatisfiesCheck | src/builders/url/ResourceBuilder.ts:10-36 | after `path()` the path check passes, so build succeeds iff methods are set |
| ResourceBuilder.SettersReplace | src/builders/url/ResourceBuilder.ts:15-28 | a second call of a list setter replaces the first call's list |
| ResourceBuilder.HelpersBuild | src/builders/url/ResourceBuilder.ts:55-68 | the three helpers build resources with the normalised path and GET, POST, or GET/POST/PUT/DELETE |
| ResourceBuilder.BuiltAllowsGivenMethods | src/builders/url/ResourceBuilder.ts:15-44 | the built resource allows a method iff it was passed to `methods()` |
| PresetUrl.ParamName | src/builders/url/PresetUrlBuilder.ts:34 | a placeholder without ':' is its own name |
| PresetUrl.Call | src/builders/url/PresetUrlBuilder.ts:25-65 | a call fails iff the node lacks the key; otherwise a terminal pushes only the key, while a placeholder or nested node pushes the key and, when given, the argument; only a placeholder with an argument records it under the name without ':', and only a nested node moves the chain to its child |
| PresetUrl.PlaceholderRecords | src/builders/url/PresetUrlBuilder.ts:31-38 | a placeholder with an argument pushes the key and the argument and records the argument under the name without ':' |
| PresetUrl.TerminalIgnoresArgument | src/builders/url/PresetUrlBuilder.ts:44-49 | a terminal pushes only its key, ignores its argument and stays on the node |
| PresetUrl.RunAppend | src/builders/url/PresetUrlBuilder.ts:25-65 | running two call sequences in turn is running their concatenation |
| PresetUrl.Run | src/builders/url/PresetUrlBuilder.ts:33-58 | no contract of its own; `PresetUrl.RunStep`, `RunAppend` and `RunExtendsStack` state how calls compose and that the stack only grows |
| PresetUrl.RunExtendsStack | src/builders/url/PresetUrlBuilder.ts:33-58 | the stack only grows, by at least one entry per call |
| PresetUrl.Build | src/builders/url/PresetUrlBuilder.ts:13-21 | the path starts with '/' and the params are the recorded map |
| PresetUrl.PathSplitsIntoStack | src/builders/url/PresetUrlBuilder.ts:15-17 | when no entry renders with '/', splitting the path after its leading '/' gives back the rendered stack |
| PresetUrl.Reset | src/builders/url/PresetUrlBuilder.ts:78-82 | the stack and the map are emptied, so a build right after yields `/` and no params |
| PresetUrl.Chain | src/builders/url/PresetUrlBuilder.ts:71-75 | a chain succeeds iff its calls run from a cleared trail, and then its result is what `build()` gives for the trail those calls leave, whatever the builder held before |
| PresetUrl.ChainForgetsEarlier | src/builders/url/PresetUrlBuilder.ts:71-82 | what an earlier chain or a reset left behind does not affect a new chain |
| PresetUrl.ParamNames | src/builders/url/chainTypes.ts:110-122 | the default preset's placeholders record under `userId` and `postId` |
| PresetUrl.UserByIdExample | src/builders/url/__tests__/PresetUrlBuilder.test.ts:10-18 | `user().byId(1)` builds `/user/byId/1` with `userId` 1 |
| PresetUrl.NestedExample | src/builders/url/__tests__/PresetUrlBuilder.test.ts:20-34 | the nested chain builds `/user/byId/1/posts/byId/2/comments` with `userId` 1 and `postId` 2 |
| PresetUrl.LoginExample | src/builders/url/__tests__/PresetUrlBuilder.test.ts:36-43 | `auth().login()` builds `/auth/login` with no params |
| PresetUrl.LogoutExample | src/builders/url/__tests__/PresetUrlBuilder.test.ts:45-51 | `auth().logout()` builds `/auth/logout` with no params |
| PresetUrl.UserPostsExample | src/builders/url/__tests__/PresetUrlBuilder.test.ts:69-77 | `user().posts()` builds `/user/posts` with no params |
| PresetUrl.MissingKeyExample | src/builders/url/PresetUrlBuilder.ts:25-65 | `auth().byId(1)` names a key the auth node lacks, so the chain fails |
| UrlBuilderFactory.GetPreset | src/builders/url/UrlBuilderFactory.ts:31-33 | a preset is found iff its name is registered |
| UrlBuilderFactory.RegisterPreset | src/builders/url/UrlBuilderFactory.ts:19-21 | the name then maps to the config and other names are untouched; a new name is appended to the name list and an existing one keeps its place |
| UrlBuilderFactory.RegisterOverwrites | src/builders/url/UrlBuilderFactory.ts:19-21 | registering a name twice keeps the second config at the first registration's position |
| UrlBuilderFactory.RegisterPresets | src/builders/url/UrlBuilderFactory.ts:24-28 | registering a record keeps every name unique |
| UrlBuilderFactory.RegisterPresetsAssigns | src/builders/url/UrlBuilderFactory.ts:24-28 | registering a record entry by entry is `Object.assign` of the record onto the registry |
| UrlBuilderFactory.RegisterPresetsGet | src/builders/url/UrlBuilderFactory.ts:24-28 | afterwards a name of the record has the record's config and every other name keeps its own |
| UrlBuilderFactory.Create | src/builders/url/UrlBuilderFactory.ts:36-42 | fails iff the name is not registered, with `Preset "<name>" not found`; otherwise builds from the registered config |
| UrlBuilderFactory.CreateWithConfig | src/builders/url/UrlBuilderFactory.ts:45-47 | the new builder has no segments, params or query and takes the config's prefix |
| UrlBuilderFactory.CreateAfterRegister | src/builders/url/UrlBuilderFactory.ts:19-57 | a registered name can be created from, and after removal or clearing it cannot |
| UrlBuilderFactory.RemovePreset | src/builders/url/UrlBuilderFactory.ts:50-52 | reports whether the name was registered; afterwards it is absent and every other name is untouched |
| UrlBuilderFactory.RemoveTwice | src/builders/url/UrlBuilderFactory.ts:50-52 | a second removal of the same name reports false and changes nothing |
| UrlBuilderFactory.ClearPresets | src/builders/url/UrlBuilderFactory.ts:55-62 | the name list is empty and no preset is found |
| UrlBuilderFactory.GetInstance | src/builders/url/UrlBuilderFactory.ts:11-16 | the first call stores a new empty factory in the slot, and later calls return the stored one |
| UrlBuilderFactory.InstanceStable | src/builders/url/UrlBuilderFactory.ts:11-16 | calling again returns the same factory and leaves the slot as it was |
| HttpClient.NewClient | src/client/HttpClient.ts:45-49 | a new client keeps its config and has no interceptors |
| HttpClient.AddRequestInterceptor | src/client/HttpClient.ts:52-54 | the interceptor is appended after the earlier ones and nothing else changes |
| HttpClient.AddResponseInterceptor | src/client/HttpClient.ts:56-58 | the interceptor is appended after the earlier ones and nothing else changes |
| HttpClient.NotFoundMessage | src/client/HttpClient.ts:39 | a 404 "Not Found" response gives `HTTP Error 404: Not Found` |
| HttpClient.MergeHeaders | src/client/HttpClient.ts:89-97 | the merged headers name each header once |
| HttpClient.MergeHeadersPrecedence | src/client/HttpClient.ts:89-97 | a per-request header beats a client header, which beats the default `Content-Type: application/json` |
| HttpClient.Body | src/client/HttpClient.ts:100-102 | a body is set iff the data is truthy, and it is the data's JSON |
| HttpClient.BuildUrl | src/client/HttpClient.ts:142-166 | no contract of its own; `HttpClient.BuildUrlWithoutQuery`, `BuildUrlQuerySeparated` and `BuildUrlExtendsQuery` state the URL it builds |
| HttpClient.BuildUrlWithoutQuery | src/client/HttpClient.ts:142-149 | with no query the URL is the base and path with the params substituted |
| HttpClient.BuildUrlQuerySeparated | src/client/HttpClient.ts:152-166 | with a non-empty query string and no '?' before it, splitting on '?' gives the substituted URL and the query string |
| HttpClient.BuildUrlExtendsQuery | src/client/HttpClient.ts:164-166 | when the URL already has a '?', the query string follows an '&' |
| HttpClient.QueryStringParts | src/client/HttpClient.ts:153-162 | for scalar values, splitting on '&' gives one `key=value` part per entry, in entry order |
| HttpClient.ArrayParts | src/client/HttpClient.ts:155-158 | an array value yields one part per element |
| HttpClient.ArrayValueParts | src/client/HttpClient.ts:155-158 | splitting an array value's part on '&' gives the `key[]=element` parts |
| HttpClient.ScalarPart | src/client/HttpClient.ts:160 | a scalar entry renders as `key=value` |
| HttpClient.EmptyArrayLeavesEmptyPart | src/client/HttpClient.ts:153-162 | an empty array leaves an empty part, so `{a: 1, ids: [], b: 2}` gives `a=1&&b=2` |
| HttpClient.PathParamExample | src/client/__tests__/HttpClient.test.ts:66-80 | `/users/:id` with id `123` calls `<base>/users/123` |
| HttpClient.ScalarQueryExample | src/client/__tests__/HttpClient.test.ts:82-96 | the query `page=1, limit=10` gives `<base>/users?page=1&limit=10` |
| HttpClient.ArrayQueryExample | src/client/__tests__/HttpClient.test.ts:98-112 | the array query gives `<base>/users?ids[]=1&ids[]=2&ids[]=3` |
| HttpClient.RequestInterceptorsCompose | src/client/HttpClient.ts:109-114 | request interceptors fold in registration order, and a rejection stops the fold |
| HttpClient.RequestInterceptorsIdle | src/client/HttpClient.ts:109-114 | interceptors without `onRequest` pass the config through |
| HttpClient.LastResponseInterceptorWins | src/client/HttpClient.ts:123-127 | each response interceptor sees the original response, and the last one's result is returned |
| HttpClient.ResponseInterceptorsIdle | src/client/HttpClient.ts:123-127 | interceptors without `onResponse` leave the handled result as is |
| HttpClient.HandleResponse | src/client/HttpClient.ts:198-227 | a non-ok response rejects with `HttpError` carrying its JSON when there is any; otherwise `raw` returns the response and a body that is not JSON rejects; a JSON body without a schema is returned as is, and with a schema it is the schema's parsed value or a rejection with the schema's error |
| HttpClient.RequestErrorHandlers | src/client/HttpClient.ts:232-240 | there is at most one error handler per request interceptor |
| HttpClient.ResponseErrorHandlers | src/client/HttpClient.ts:243-251 | there is at most one error handler per response interceptor |
| HttpClient.RecoverCompose | src/client/HttpClient.ts:230-254 | the first handler that resolves supplies the result; otherwise each later handler sees the error the previous one threw |
| HttpClient.RecoverRejects | src/client/HttpClient.ts:230-254 | if every handler rethrows, the chain rejects with the error the last handler threw for what the earlier ones left, or with the original error when there are no handlers |
| HttpClient.HandleError | src/client/HttpClient.ts:230-254 | no contract of its own; `HttpClient.RequestHooksFirst` and `NoRequestErrorHooks`/`NoResponseErrorHooks` state the order and the pass-through |
| HttpClient.RequestHooksFirst | src/client/HttpClient.ts:230-254 | request-interceptor error hooks run before response-interceptor ones |
| HttpClient.NoRequestErrorHooks | src/client/HttpClient.ts:232-240 | interceptors without `onRequestError` contribute no handler |
| HttpClient.NoResponseErrorHooks | src/client/HttpClient.ts:243-251 | interceptors without `onResponseError` contribute no handler |
| HttpClient.ErrorPropagates | src/client/HttpClient.ts:253 | with no error hooks the original error is thrown |
| HttpClient.Request | src/client/HttpClient.ts:82-134 | fetch is called iff the request interceptors resolve, and then with the built URL and the interceptors' output; otherwise the error goes to the error hooks; after fetching, a rejection, a failed response handling or a response-interceptor rejection goes to the error hooks, and otherwise the response interceptors' result is returned |
| HttpClient.PlainClientSends | src/client/HttpClient.ts:89-117 | a client without interceptors fetches the built URL with the method, the merged headers and the body |
| HttpClient.FetchFailurePropagates | src/client/HttpClient.ts:117-133 | a fetch rejection reaches the caller unchanged when there are no hooks |
| HttpClient.HttpErrorReachesCaller | src/client/HttpClient.ts:198-211 | a non-ok response reaches the caller as `HttpError` with its parsed body |
| HttpClient.ResponseHookReplacesBody | src/client/__tests__/HttpClient.test.ts:230-256 | a response interceptor's result replaces the parsed body |
| MockData.CeilDiv | src/mocks/utils/generateMockData.ts:48 | the page count is the least `q` with `totalItems <= q * perPage` |
| MockData.MockArray | src/mocks/utils/generateMockData.ts:19-24 | the array has `count` items (3 by default, none for a negative count), each generated for its position |
| MockData.CurrentPage | src/mocks/utils/generateMockData.ts:49 | the page never exceeds the page count, is at least 1 when there are pages, and a page in range is kept |
| MockData.ItemsToGenerate | src/mocks/utils/generateMockData.ts:50 | the count is at most a page and at most what the earlier pages leave, and equals one of the two |
| MockData.Paginate | src/mocks/utils/generateMockData.ts:34-61 | `perPage` and `totalItems` are echoed, the page count is the ceiling, the page is clamped, and the items number what is left for that page |
| MockData.NonEmptyPageBounds | src/mocks/utils/generateMockData.ts:48-50 | with items to show, the page lies in range and holds between 1 and `perPage` items |
| MockData.FullPagesBeforeLast | src/mocks/utils/generateMockData.ts:48-50 | every page before the last is full |
| MockData.PagesCoverTotal | src/mocks/utils/generateMockData.ts:48-50 | walking pages 1 to the page count generates exactly `totalItems` items |
| MockData.ThirteenItemsExample | src/mocks/utils/__tests__/generateMockData.test.ts:44-82 | 13 items at 5 per page: page 2 has 5 items, page 3 has 3, and page 9 is clamped to 3 |
| MockData.DefaultsExample | src/mocks/utils/generateMockData.ts:36-38 | by default, page 1 of 10 pages with 10 items, and a mock array of 3 |
| MockData.EmptyCollectionAsWritten | src/mocks/utils/generateMockData.ts:48-50 | as written, an empty collection reports page 0 and still generates 10 items |
| MockData.PaginateCorrected | src/mocks/utils/generateMockData.ts:48-50 | the corrected page is at least 1 and never holds more than `totalItems` or `perPage` items |
| MockData.CorrectedAgrees | src/mocks/utils/generateMockData.ts:48-50 | the corrected version generates nothing for an empty collection and agrees with the written one otherwise |
| Js.NatToString | src/core/api/utils.ts:13 | `String(n)` of a whole number is a non-empty digit string without a leading zero |
| Js.ParseNatToString | src/core/api/utils.ts:13 | reading the digits of `String(n)` gives `n` back |
| Js.Set | src/builders/url/UrlBuilder.ts:31 | assigning a property overwrites it in place or appends it, and changes no other property |
| Js.Assign | src/builders/url/UrlBuilder.ts:37 | `Object.assign` leaves keys the source lacks unchanged |
| Js.AssignOverrides | src/builders/url/UrlBuilder.ts:37 | a key of the source takes the source's value |
| Strs.ReplaceFirst | src/client/HttpClient.ts:147 | a string-pattern `replace` rewrites only the first occurrence, and nothing when there is none |
| Strs.IndexOf | src/client/HttpClient.ts:147 | the position found is an occurrence and no earlier position is |
| Strs.Split | src/builders/url/MethodChainImpl.ts:104 | the pieces of a split contain no separator |
| Strs.SplitJoin | src/builders/url/MethodChainImpl.ts:104 | splitting a join on a separator no element contains gives the list back |
| Strs.JoinSplit | src/builders/url/MethodChainImpl.ts:104 | joining the pieces of a split with the same separator gives the string back |
| Strs.TrimTrailing | src/builders/url/UrlBuilder.ts:91 | removing trailing '?' leaves a prefix that no longer ends in '?', having dropped only '?' |

## Left out

- Timers: `fetchWithTimeout`'s `AbortController` and timer. A timeout reaches the model
  only as a fetch rejection.
- Body decoding: `response.json()` is modelled only as "the body parses to a value or does
  not"; there is no JSON decoding.
- `HttpClient.MergedInit`: request fields other than method, headers and body are not carried.
  A `Headers` object passed as headers is not spread.
- `ApiCache`'s `setInterval`/`clearInterval` sweep timer. The sweep is `Cache.Cleanup` called
  with an explicit `now`.
- The clock, the schema validator (zod), the HTTP transport, `encodeURIComponent`,
  `JSON.stringify` and the random mock generator are function parameters with no behaviour
  of their own. The transport's possible rejections are spelled out as `Transport.Thrown`.
- `console` logging in both dispatchers.
- The module-level cache in `src/core/api/callApi.ts`: it is never read or written, and the
  dispatcher model does not have one.
- Floating-point numbers, `NaN` and `Infinity`: numbers are whole.
  - `String(x)` is modelled for whole numbers only.
  - `MockData.Paginate`: requires `perPage > 0`. A `perPage` of 0 gives `Infinity` or `NaN`
    page counts in JavaScript. A negative `perPage` gives finite but negative page counts and
    pages, and an empty item list; it is excluded as meaningless for a page size, and the
    model's whole-number ceiling is defined for positive divisors only.
- Regular-expression replacement patterns (`$&`, `$1`) in replacement strings. Keys holding
  regular-expression metacharacters in `UrlBuilder`'s `new RegExp(":" + key)` are modelled
  as a literal match.
- Prototype-inherited property names (`constructor`, `toString`) in `in` checks and lookups.
- JavaScript's ordering of integer-like object keys before other keys. Entries keep
  insertion order.
- `MethodChainImpl.create`, the constructor copy and the receiver mutation. Each step
  returns the new state, which is equally the receiver's state afterwards.
- `PresetUrl.Call`: a preset node with a key named `build`, which collides with the chain
  object's own `build` property, is not modelled.
- `UrlBuilderFactory.GetInstance`: the static `instance` field is an explicit slot argument.
- `UrlBuilderFactory.Names` (`getPresetNames`) has no contract of its own. Its behaviour is
  stated through the contracts of `RegisterPreset`, `RemovePreset` and `ClearPresets`.
- `UrlBuilder.Segment` and `UrlBuilder.AddSegments` only append to the segment list. Their
  effect on the URL is stated by `UrlBuilder.Rendering` and `UrlBuilder.Head`.
- `ResourceBuilder`'s setters are record updates. Their meaning is stated by
  `ResourceBuilder.SettersReplace`, `Normalise`, `Dedup` and `Build`.
- Out of scope: Vue composables, the mock-network layer, documentation generation, axios
  instances, and zod schema definitions. Of the axios interceptors only the rejections they
  produce are modelled: the token header, the 401 token removal and the logging are not. The method/path table of
  `src/definitions/apiMap.ts` is transcribed as a constant.

## Findings

| source | as written | input that shows it | evidently intended | confidence | as-written member | corrected member |
|---|---|---|---|---|---|---|
| src/core/api/callApi.ts:32-39 | `separateParams` throws a plain `Error` for a missing placeholder. The catch block rethrows it unchanged, so the `MissingPathParamError` branch is never reached. | `callApi('getUser', {})` | `MissingPathParamError('id')`, as src/core/api/__tests__/callApi.test.ts:62-64 expects | not executed | CoreDispatch.GetUserWithoutIdAsWritten | CoreDispatch.GetUserWithoutIdCorrected |
| src/core/cache/apiCache.ts:93-100 | The sweep deletes when `now >= expiry`. A `null` expiry compares as 0, and the boundary is `>=` while `get` uses `>`. | an item set without TTL, then `cleanup` at any `now >= 0`; or TTL 1000 at time 0 and `cleanup` at 1000 | the sweep removes exactly what `get` treats as expired | not executed | Cache.CleanupDropsPermanentItem | Cache.CleanupCorrectedAgreesWithGet |
| src/core/cache/apiCache.ts:41-45 | `ttl ? … : null` treats TTL 0 as "no expiry" and caches forever. | `set('k', 1, 0)`, then `get('k')` at any later time | the doc comment's "TTL 0 means do not cache" | not executed | Cache.ZeroTtlCachesForever | Cache.SetCorrectedZeroTtl |
| src/mocks/utils/generateMockData.ts:48-50 | With no items the page count is 0, so the page is clamped to 0 and `itemsToGenerate` is a full page. | `generateMockPagination(schema, 1, 10, 0)` | page 1 with no items | not executed | MockData.EmptyCollectionAsWritten | MockData.CorrectedAgrees |

=== FILE: apierrors.dfy ===
/** The error classes of `src/core/api/errors.ts`: every class extends `ApiError`, and
    validation messages are rendered from the issues by `formatZodError`. */
module ApiErrors {
  import opened Wrappers
  import opened Js
  import opened Zod
  import opened ErrorText
  import Strs

  datatype ApiErr =
    | ApiError(message: string, statusCode: Option<int>, response: JsValue)
    | RequestValidationError(zodError: ZodError)
    | ResponseValidationError(apiKey: string, zodError: ZodError, rawData: JsValue)
      /** The class keeps only the message; the name is what the message is built from. */
    | MissingPathParamError(paramName: string)

  /** One issue: `a.b.0: message`, or just the message when the path renders empty. */
  function FormatIssue(i: Issue): string
  {
    var path := Strs.Join(seq(|i.path|, k requires 0 <= k < |i.path| =>
      if IsNullish(i.path[k]) then "" else ToJsString(i.path[k])), ".");
    if path != "" then path + ": " + i.message else i.message
  }

  /** `formatZodError`: one line per issue, in issue order. */
  function FormatZodError(z: ZodError): string
  {
    Strs.Join(IssueLines(z), "\n")
  }

  function IssueLines(z: ZodError): seq<string>
  {
    seq(|z.issues|, k requires 0 <= k < |z.issues| => FormatIssue(z.issues[k]))
  }

  /** The `message` property. */
  function Message(e: ApiErr): string
  {
    match e
    case ApiError(m, _, _) => m
    case RequestValidationError(z) => FormatZodError(z)
    case ResponseValidationError(k, z, _) => "API '" + k + ResponseMismatch + FormatZodError(z)
    case MissingPathParamError(n) => MissingParamPrefix + n
  }

  /** `statusCode`: the subclasses call `super(message)` and so carry none. */
  function StatusCode(e: ApiErr): Option<int>
  {
    if e.ApiError? then e.statusCode else None
  }

  /** An issue's line ends with the issue's own message. */
  lemma FormatIssueEndsWithMessage(i: Issue)
    ensures |i.message| <= |FormatIssue(i)|
    ensures FormatIssue(i)[|FormatIssue(i)| - |i.message|..] == i.message
  {
  }

  /** When no issue line contains a newline, the formatted text splits back into the lines,
      one per issue and in order. */
  lemma FormatZodErrorLines(z: ZodError)
    requires |z.issues| > 0
    requires forall k :: 0 <= k < |z.issues| ==> '\n' !in FormatIssue(z.issues[k])
    ensures Strs.Split(FormatZodError(z), '\n') == IssueLines(z)
  {
    Strs.SplitJoin(IssueLines(z), '\n');
  }

  /** A response validation message is a header line naming the API key, then the issue lines. */
  lemma ResponseMessageLines(k: string, z: ZodError, d: JsValue)
    requires '\n' !in k
    requires |z.issues| > 0
    requires forall j :: 0 <= j < |z.issues| ==> '\n' !in FormatIssue(z.issues[j])
    ensures Strs.Split(Message(ResponseValidationError(k, z, d)), '\n')
      == ["API '" + k + ResponseMismatch[..|ResponseMismatch| - 1]] + IssueLines(z)
  {
    var head := "API '" + k + ResponseMismatch[..|ResponseMismatch| - 1];
    ResponseHeader(k, FormatZodError(z));
    Strs.SplitFirst(head, FormatZodError(z), '\n');
    FormatZodErrorLines(z);
  }

  /** The response message is its header line, a newline, and the formatted issues. */
  lemma ResponseHeader(k: string, rest: string)
    requires '\n' !in k
    ensures '\n' !in "API '" + k + ResponseMismatch[..|ResponseMismatch| - 1]
    ensures "API '" + k + ResponseMismatch + rest
      == "API '" + k + ResponseMismatch[..|ResponseMismatch| - 1] + ['\n'] + rest
  {
    assert ResponseMismatch == ResponseMismatch[..|ResponseMismatch| - 1] + "\n";
    assert '\n' !in ResponseMismatch[..|ResponseMismatch| - 1];
  }

  /** Only the base class carries a status code; a missing parameter message names it. */
  lemma SubclassesHaveNoStatus(e: ApiErr)
    ensures StatusCode(e).Some? ==> e.ApiError?
    ensures e.MissingPathParamError? ==> MissingParamName(Message(e)) == e.paramName
  {
  }
}

=== FILE: cache.dfy ===
/** The response cache (`src/core/cache/apiCache.ts`): a map from cache key to an item
    with an optional absolute expiry time. The clock is an explicit `now` argument and the
    periodic sweep timer is not modelled; `JSON.stringify` is a parameter. */
module Cache {
  import opened Wrappers
  import opened Js

  /** A cached item; `expiry` is `None` for the source's `null` (never expires). */
  datatype CacheItem = CacheItem(data: JsValue, expiry: Option<int>)

  datatype Config = Config(defaultTTL: int, cleanupInterval: int)

  /** Three seconds default TTL, one minute between sweeps. */
  const DefaultConfig := Config(3000, 60000)

  datatype ApiCache = ApiCache(items: map<string, CacheItem>, config: Config)

  /** `get`'s result and the cache after it (an expired item is evicted). */
  datatype Lookup = Lookup(value: Option<JsValue>, cache: ApiCache)

  /** `new ApiCache(config)`: the given settings override the defaults; the cache is empty. */
  function New(defaultTTL: Option<int>, cleanupInterval: Option<int>): (c: ApiCache)
    ensures c.items == map[]
    ensures c.config.defaultTTL == (if defaultTTL.Some? then defaultTTL.value else 3000)
    ensures c.config.cleanupInterval == (if cleanupInterval.Some? then cleanupInterval.value else 60000)
  {
    ApiCache(map[], Config(defaultTTL.GetOr(DefaultConfig.defaultTTL), cleanupInterval.GetOr(DefaultConfig.cleanupInterval)))
  }

  /** `ttl ? now + ttl : null`: an omitted or zero TTL means no expiry. */
  function ExpiryFor(now: int, ttl: Option<int>): Option<int>
  {
    if ttl.Some? && ttl.value != 0 then Some(now + ttl.value) else None
  }

  /** `set(key, data, ttl)`. */
  function Set(c: ApiCache, key: string, data: JsValue, ttl: Option<int>, now: int): (r: ApiCache)
    ensures key in r.items && r.items[key].data == data
    ensures forall k :: k != key ==> (k in r.items <==> k in c.items)
    ensures forall k :: k != key && k in c.items ==> r.items[k] == c.items[k]
    ensures r.config == c.config
  {
    c.(items := c.items[key := CacheItem(data, ExpiryFor(now, ttl))])
  }

  /** `item.expiry && now > item.expiry`: a zero expiry is falsy and never expires. */
  predicate Expired(item: CacheItem, now: int)
  {
    item.expiry.Some? && item.expiry.value != 0 && now > item.expiry.value
  }

  /** `get(key)`: the data of a live item; an expired item is evicted. */
  function Get(c: ApiCache, key: string, now: int): (r: Lookup)
    ensures r.value.Some? <==> key in c.items && !Expired(c.items[key], now)
    ensures r.value.Some? ==> r.value.value == c.items[key].data && r.cache == c
    ensures r.value.None? ==> r.cache.items == c.items - {key} && r.cache.config == c.config
  {
    if key !in c.items then Lookup(None, c)
    else if Expired(c.items[key], now) then Lookup(None, c.(items := c.items - {key}))
    else Lookup(Some(c.items[key].data), c)
  }

  /** `createKey` / `getCacheKey`: the API key, a colon, and the serialised parameters. */
  function CacheKey(key: string, params: JsValue, stringify: JsValue -> string): (r: string)
    ensures key + ":" <= r
  {
    key + ":" + stringify(params)
  }

  /** `getCacheKey`, exported for callers. */
  function GetCacheKey(key: string, params: JsValue, stringify: JsValue -> string): string
  {
    CacheKey(key, params, stringify)
  }

  /** `delete(key, params)`: removes the one item for these parameters. */
  function Delete(c: ApiCache, key: string, params: JsValue, stringify: JsValue -> string): (r: ApiCache)
    ensures CacheKey(key, params, stringify) !in r.items
    ensures forall k :: k != CacheKey(key, params, stringify) ==>
      (k in r.items <==> k in c.items) && (k in r.items ==> r.items[k] == c.items[k])
  {
    c.(items := c.items - {CacheKey(key, params, stringify)})
  }

  /** `deleteByKey(key)`: removes every item whose cache key starts with `key:`. */
  function DeleteByKey(c: ApiCache, key: string): (r: ApiCache)
    ensures forall k :: k in r.items <==> k in c.items && !(key + ":" <= k)
    ensures forall k :: k in r.items ==> r.items[k] == c.items[k]
  {
    c.(items := map k | k in c.items && !(key + ":" <= k) :: c.items[k])
  }

  /** `clear()`. */
  function Clear(c: ApiCache): (r: ApiCache)
    ensures forall k, now :: Get(r, k, now).value.None?
  {
    c.(items := map[])
  }

  /** `cleanup()` as written: `now >= value.expiry`, where a `null` expiry compares as 0. */
  function Cleanup(c: ApiCache, now: int): (r: ApiCache)
    ensures forall k :: k in r.items <==> k in c.items && now < c.items[k].expiry.GetOr(0)
    ensures forall k :: k in r.items ==> r.items[k] == c.items[k]
  {
    c.(items := map k | k in c.items && !(now >= c.items[k].expiry.GetOr(0)) :: c.items[k])
  }

  /** The sweep as `get` judges expiry: only items `get` would treat as expired go. */
  function CleanupCorrected(c: ApiCache, now: int): (r: ApiCache)
    ensures forall k :: k in r.items <==> k in c.items && !Expired(c.items[k], now)
    ensures forall k :: k in r.items ==> r.items[k] == c.items[k]
  {
    c.(items := map k | k in c.items && !Expired(c.items[k], now) :: c.items[k])
  }

  /** `set` as its doc comment describes it: a zero TTL caches nothing. */
  function SetCorrected(c: ApiCache, key: string, data: JsValue, ttl: Option<int>, now: int): (r: ApiCache)
    ensures ttl == Some(0) ==> key !in r.items
    ensures ttl != Some(0) ==> r == Set(c, key, data, ttl, now)
    ensures forall k :: k != key ==> (k in r.items <==> k in c.items)
  {
    if ttl == Some(0) then c.(items := c.items - {key}) else Set(c, key, data, ttl, now)
  }

  /** A value just stored is read back, and stays readable exactly until its TTL has passed. */
  lemma SetThenGet(c: ApiCache, key: string, data: JsValue, ttl: int, t0: int, t1: int)
    requires ttl > 0 && t0 + ttl != 0
    ensures Get(Set(c, key, data, Some(ttl), t0), key, t1).value == (if t1 <= t0 + ttl then Some(data) else None)
  {
  }

  /** Without a TTL an item never expires. */
  lemma NoTtlNeverExpires(c: ApiCache, key: string, data: JsValue, t0: int, t1: int)
    ensures Get(Set(c, key, data, None, t0), key, t1).value == Some(data)
    ensures Get(Set(c, key, data, Some(0), t0), key, t1).value == Some(data)
  {
  }

  /** Storing under one key does not change what another key reads. */
  lemma SetKeepsOtherKeys(c: ApiCache, key: string, other: string, data: JsValue, ttl: Option<int>, t0: int, t1: int)
    requires other != key
    ensures Get(Set(c, key, data, ttl, t0), other, t1).value == Get(c, other, t1).value
  {
  }

  /** `get` is repeatable: a second read at the same time returns the same value. */
  lemma GetIdempotent(c: ApiCache, key: string, now: int)
    ensures Get(Get(c, key, now).cache, key, now).value == Get(c, key, now).value
  {
  }

  /** The two expiry readings agree: the corrected sweep keeps exactly what `get` returns. */
  lemma CleanupCorrectedAgreesWithGet(c: ApiCache, now: int, k: string)
    ensures k in CleanupCorrected(c, now).items <==> Get(c, k, now).value.Some?
  {
  }

  /** The sweep as written drops an item without expiry that `get` still returns. */
  lemma CleanupDropsPermanentItem(now: int)
    requires now >= 0
    ensures var c := Set(New(None, None), "k", Num(1), None, 0);
      Get(c, "k", now).value == Some(Num(1)) && "k" !in Cleanup(c, now).items
  {
  }

  /** The sweep as written drops an item at its expiry instant, when `get` still returns it. */
  lemma CleanupDropsAtExpiryInstant()
    ensures var c := Set(New(None, None), "k", Num(1), Some(1000), 0);
      Get(c, "k", 1000).value == Some(Num(1)) && "k" !in Cleanup(c, 1000).items
  {
  }

  /** As written, a zero TTL caches the value for good. */
  lemma ZeroTtlCachesForever(t1: int)
    ensures Get(Set(New(None, None), "k", Num(1), Some(0), 0), "k", t1).value == Some(Num(1))
  {
  }

  /** Corrected, a zero TTL leaves nothing to read. */
  lemma SetCorrectedZeroTtl(c: ApiCache, key: string, data: JsValue, t0: int, t1: int)
    ensures Get(SetCorrected(c, key, data, Some(0), t0), key, t1).value.None?
  {
  }
}

=== FILE: coreerrors.dfy ===
/** Message texts shared by the two error hierarchies. */
module ErrorText {
  /** Follows `API '<key>` in a response validation message; the issues come after the newline. */
  const ResponseMismatch: string := "' 응답이 스키마와 일치하지 않습니다:\n"

  /** Precedes the parameter name in a missing path parameter message. */
  const MissingParamPrefix: string := "필수 경로 파라미터가 누락되었습니다: "

  /** The name a missing path parameter message carries, read back from the text. */
  function MissingParamName(message: string): (r: string)
    requires MissingParamPrefix <= message
    ensures MissingParamPrefix + r == message
  {
    message[|MissingParamPrefix|..]
  }
}

/** The error classes of `src/core/errors/index.ts`; all of them extend `Error`, none
    extends another. */
module CoreErrors {
  import opened Wrappers
  import opened Js
  import opened Zod
  import opened ErrorText

  datatype CoreError =
    | ApiError(message: string, statusCode: int, details: JsValue)
    | RequestValidationError(error: ZodError)
    | ResponseValidationError(apiKey: string, error: ZodError, data: JsValue)
    | MissingPathParamError(paramName: string)
      /** A plain `Error` raised by the core itself. */
    | PlainError(message: string)

  /** `new ApiError(message, statusCode?, details?)`: an omitted status is 500, omitted
      details are undefined. */
  function NewApiError(message: string, statusCode: Option<int>, details: JsValue): (e: CoreError)
    ensures e.ApiError? && e.message == message && e.details == details
    ensures e.statusCode == statusCode.GetOr(500)
  {
    ApiError(message, statusCode.GetOr(500), details)
  }

  /** The `message` property. */
  function Message(e: CoreError): string
  {
    match e
    case ApiError(m, _, _) => m
    case RequestValidationError(z) => z.message
    case ResponseValidationError(k, z, _) => "API '" + k + ResponseMismatch + z.message
    case MissingPathParamError(n) => MissingParamPrefix + n
    case PlainError(m) => m
  }

  /** The `name` property. */
  function Name(e: CoreError): string
  {
    match e
    case ApiError(_, _, _) => "ApiError"
    case RequestValidationError(_) => "RequestValidationError"
    case ResponseValidationError(_, _, _) => "ResponseValidationError"
    case MissingPathParamError(_) => "MissingPathParamError"
    case PlainError(_) => "Error"
  }

  /** The `name` property tells the classes apart. */
  lemma NameIdentifiesClass(a: CoreError, b: CoreError)
    requires Name(a) == Name(b)
    ensures a.ApiError? == b.ApiError? && a.PlainError? == b.PlainError?
    ensures a.RequestValidationError? == b.RequestValidationError?
    ensures a.ResponseValidationError? == b.ResponseValidationError?
    ensures a.MissingPathParamError? == b.MissingPathParamError?
  {
  }

  /** A missing path parameter message names the parameter, and the name can be read back. */
  lemma MissingParamMessage(n: string)
    ensures MissingParamPrefix <= Message(MissingPathParamError(n))
    ensures MissingParamName(Message(MissingPathParamError(n))) == n
  {
  }

  /** A request validation error carries the schema library's message unchanged; a response
      validation error names the API key first and ends with that message. */
  lemma ValidationMessages(k: string, z: ZodError, d: JsValue)
    ensures Message(RequestValidationError(z)) == z.message
    ensures "API '" + k <= Message(ResponseValidationError(k, z, d))
    ensures var m := Message(ResponseValidationError(k, z, d));
      m[|m| - |z.message|..] == z.message
  {
    var m := Message(ResponseValidationError(k, z, d));
    assert m == ("API '" + k + ResponseMismatch) + z.message;
  }
}

=== FILE: dispatch.dfy ===
/** The generic dispatcher of `src/core/api/callApi.ts`: look up the API spec, split the
    parameters, check placeholders, validate the request, substitute the path, send,
    validate the response, and classify whatever the transport throws. Logging and the
    unused cache instance are not modelled. */
module CoreDispatch {
  import opened Wrappers
  import opened Js
  import opened Zod
  import opened Transport
  import opened CoreErrors
  import opened PathParams

  /** An entry of the API map (`src/definitions/apiMap.ts`). */
  datatype ApiSpec = ApiSpec(httpMethod: string, path: string, requestSchema: Option<Schema>, responseSchema: Option<Schema>)

  type Registry = map<string, ApiSpec>

  /** The registry's `getUser` entry. */
  const GetUserSpec := ApiSpec("GET", "/users/:id", Some(Schema("getUser.request")), Some(Schema("user")))

  /** The API map's method/path table; the schemas are opaque. */
  const ApiMap: Registry := map[
    "getUsers" := ApiSpec("GET", "/users", Some(Schema("getUsers.request")), Some(Schema("getUsers.response"))),
    "getUser" := GetUserSpec,
    "createUser" := ApiSpec("POST", "/users", Some(Schema("createUser.request")), Some(Schema("user"))),
    "updateUser" := ApiSpec("PUT", "/users/:id", Some(Schema("updateUser.request")), Some(Schema("user"))),
    "deleteUser" := ApiSpec("DELETE", "/users/:id", Some(Schema("deleteUser.request")), Some(Schema("deleteUser.response")))
  ]

  /** What leaves `callApi`: an error it raised itself, or a transport error rethrown unchanged. */
  datatype Failure = Raised(error: CoreError) | Rethrown(thrown: Thrown)

  /** The call's result and the request it sent, if it got that far. */
  datatype Outcome = Outcome(result: Result<JsValue, Failure>, sent: Option<Request>)

  /** The plain `Error` `separateParams` and `replacePathParams` throw. */
  function MissingMessage(name: string): string
  {
    "Missing required path parameter: " + name
  }

  /** `params || {}` */
  function ParamsOrEmpty(params: JsValue): JsValue
  {
    if Truthy(params) then params else Obj([])
  }

  /** Placeholders of the second check, `/:[^/]+/g`, that the path part lacks, in template order. */
  function MissingRequired(path: string, pathParams: Entries<JsValue>): (r: seq<string>)
    ensures forall n :: n in r <==> n in Names(NonSlash, path) && n !in Keys(pathParams)
  {
    Absent(Names(NonSlash, path), pathParams)
  }

  function Absent(ns: seq<string>, present: Entries<JsValue>): (r: seq<string>)
    ensures forall n :: n in r <==> n in ns && n !in Keys(present)
  {
    if |ns| == 0 then []
    else if ns[0] in Keys(present) then Absent(ns[1..], present)
    else [ns[0]] + Absent(ns[1..], present)
  }

  /** Everything before the request is sent: split, check, validate, substitute, and build
      the request config. `corrected` selects what a missing placeholder raises. */
  function Prepare(spec: ApiSpec, params: JsValue, validate: Validator, corrected: bool): Result<Request, CoreError>
  {
    match SeparateParams(spec.path, EntriesOf(ParamsOrEmpty(params)))
    case Err(n) => Err(if corrected then MissingPathParamError(n) else PlainError(MissingMessage(n)))
    case Ok(parts) =>
      var missing := MissingRequired(spec.path, parts.pathParams);
      if |missing| > 0 then Err(MissingPathParamError(missing[0]))
      else if spec.requestSchema.Some? && validate(spec.requestSchema.value, params).Invalid? then
        Err(RequestValidationError(validate(spec.requestSchema.value, params).error))
      else
        match ReplacePathParams(spec.path, parts.pathParams)
        case Err(n) => Err(if corrected then MissingPathParamError(n) else PlainError(MissingMessage(n)))
        case Ok(url) =>
          Ok(Request(spec.httpMethod, url,
            if spec.httpMethod != "GET" then params else Obj([]),
            if spec.httpMethod == "GET" then Obj(parts.queryParams) else Undefined))
  }

  /** The response: the validated value, the schema's error, or the raw data when no schema. */
  function Finish(key: string, spec: ApiSpec, resp: Response, validate: Validator): Result<JsValue, Failure>
  {
    if spec.responseSchema.None? then Ok(resp.data)
    else
      match validate(spec.responseSchema.value, resp.data)
      case Valid(v) => Ok(v)
      case Invalid(z) => Err(Raised(ResponseValidationError(key, z, resp.data)))
  }

  /** The `catch` block applied to what the transport threw: the core's own errors and any
      other `Error` that is not an axios error are rethrown; an axios error becomes an
      `ApiError` from its response, or from its message when there is none; anything else
      becomes the catch-all `ApiError` carrying the thrown value as text. */
  function Classify(t: Thrown): (f: Failure)
    ensures f.Rethrown? <==> t.Typed? || (t.ObjectThrown? && t.isError && !t.isAxiosError)
    ensures f.Rethrown? ==> f.thrown == t
    ensures f.Raised? ==> f.error.ApiError?
    ensures t.ObjectThrown? && t.isAxiosError && t.response.HasResponse? ==>
      f == Raised(ApiError(MessageOr(GetProp(t.response.response.data, "message"), "Not Found"),
                           t.response.response.status, Undefined))
    ensures t.ObjectThrown? && t.isAxiosError && !t.response.HasResponse? ==>
      f == Raised(ApiError(MessageOr(t.message, "API Error"), 500, Undefined))
    ensures t.ObjectThrown? && !t.isAxiosError && !t.isError ==>
      f == Raised(ApiError("Unexpected API error", 500, Obj([("originalError", Str("[object Object]"))])))
    ensures t.Primitive? ==>
      f == Raised(ApiError("Unexpected API error", 500, Obj([("originalError", Str(ToJsString(t.value)))])))
  {
    match t
    case Typed(_) => Rethrown(t)
    case ObjectThrown(isError, isAxiosError, message, response) =>
      if isAxiosError then
        if response.HasResponse? then
          Raised(ApiError(MessageOr(GetProp(response.response.data, "message"), "Not Found"), response.response.status, Undefined))
        else Raised(ApiError(MessageOr(message, "API Error"), 500, Undefined))
      else if isError then Rethrown(t)
      else Raised(ApiError("Unexpected API error", 500, Obj([("originalError", Str("[object Object]"))])))
    case Primitive(v) =>
      Raised(ApiError("Unexpected API error", 500, Obj([("originalError", Str(ToJsString(v)))])))
  }

  function Call(registry: Registry, key: string, params: JsValue, validate: Validator, client: Client, corrected: bool): Outcome
  {
    if key !in registry then Outcome(Err(Raised(ApiError("API \"" + key + "\" not found", 404, Undefined))), None)
    else
      var spec := registry[key];
      match Prepare(spec, params, validate, corrected)
      case Err(e) => Outcome(Err(Raised(e)), None)
      case Ok(req) =>
        match client(req)
        case Threw(t) => Outcome(Err(Classify(t)), Some(req))
        case Responded(resp) => Outcome(Finish(key, spec, resp, validate), Some(req))
  }

  /** `callApi(key, params)` as written: an unknown key fails with 404; a request is sent
      exactly when the preparation succeeds, and then what the transport returns decides the
      result; a call that sends nothing fails with an error of its own. */
  function CallApi(registry: Registry, key: string, params: JsValue, validate: Validator, client: Client): (o: Outcome)
    ensures key !in registry ==> o == Outcome(Err(Raised(ApiError("API \"" + key + "\" not found", 404, Undefined))), None)
    ensures key in registry ==>
      var prepared := Prepare(registry[key], params, validate, false);
      (o.sent.Some? <==> prepared.Ok?) && (o.sent.Some? ==> o.sent.value == prepared.value)
    ensures o.sent.None? ==> o.result.Err? && o.result.error.Raised?
    ensures o.sent.Some? && client(o.sent.value).Threw? ==> o.result == Err(Classify(client(o.sent.value).thrown))
    ensures o.sent.Some? && client(o.sent.value).Responded? ==>
      o.result == Finish(key, registry[key], client(o.sent.value).response, validate)
  {
    Call(registry, key, params, validate, client, false)
  }

  /** `callApi` with a missing placeholder reported as `MissingPathParamError`, as its
      error handling and its test expect. */
  function CallApiCorrected(registry: Registry, key: string, params: JsValue, validate: Validator, client: Client): Outcome
  {
    Call(registry, key, params, validate, client, true)
  }

  /** An unknown key fails with a 404 `ApiError` before anything is sent. */
  lemma UnknownKey(registry: Registry, key: string, params: JsValue, validate: Validator, client: Client, corrected: bool)
    requires key !in registry
    ensures var o := Call(registry, key, params, validate, client, corrected);
      o.sent.None? && o.result.Err? && o.result.error.Raised?
      && o.result.error.error.ApiError? && o.result.error.error.statusCode == 404
  {
  }

  /** As written: a missing or undefined placeholder escapes as the plain `Error` thrown by
      `separateParams`, not as `MissingPathParamError`, and nothing is sent. */
  lemma MissingPlaceholderIsPlainError(registry: Registry, key: string, params: JsValue, validate: Validator, client: Client)
    requires key in registry
    requires SeparateParams(registry[key].path, EntriesOf(ParamsOrEmpty(params))).Err?
    ensures var o := CallApi(registry, key, params, validate, client);
      var n := SeparateParams(registry[key].path, EntriesOf(ParamsOrEmpty(params))).error;
      o.sent.None? && o.result == Err(Raised(PlainError(MissingMessage(n))))
      && !o.result.error.error.MissingPathParamError?
  {
  }

  /** Corrected: the same failure is a `MissingPathParamError` naming the leftmost
      placeholder without a usable value, and nothing is sent. */
  lemma CorrectedMissingPlaceholder(registry: Registry, key: string, params: JsValue, validate: Validator, client: Client)
    requires key in registry
    requires SeparateParams(registry[key].path, EntriesOf(ParamsOrEmpty(params))).Err?
    ensures var o := CallApiCorrected(registry, key, params, validate, client);
      o.sent.None? && o.result.Err? && o.result.error.Raised?
      && o.result.error.error.MissingPathParamError?
      && o.result.error.error.paramName in ExtractPathParamNames(registry[key].path)
  {
    SeparateParamsError(registry[key].path, EntriesOf(ParamsOrEmpty(params)));
  }

  /** Templates whose placeholders the two patterns read alike. */
  predicate PatternsAgree(path: string)
  {
    forall n :: n in Names(NonSlash, path) ==> n in ExtractPathParamNames(path)
  }

  /** For such templates the second placeholder check never fires: after `separateParams`
      succeeds every placeholder is in the path part. */
  lemma RequiredCheckPasses(path: string, params: Entries<JsValue>)
    requires PatternsAgree(path)
    requires SeparateParams(path, params).Ok?
    ensures MissingRequired(path, SeparateParams(path, params).value.pathParams) == []
  {
    var names := ExtractPathParamNames(path);
    var s := SeparateParams(path, params).value;
    AbsentEmpty(Names(NonSlash, path), s.pathParams);
  }

  lemma {:induction false} AbsentEmpty(ns: seq<string>, present: Entries<JsValue>)
    requires forall n :: n in ns ==> n in Keys(present)
    ensures Absent(ns, present) == []
  {
    if |ns| > 0 {
      assert ns[0] in ns;
      AbsentEmpty(ns[1..], present);
    }
  }

  /** A request that passes the checks is always sent (no caching), and it carries the
      spec's method, the substituted path, and the parameters where the method wants them. */
  lemma SentRequest(registry: Registry, key: string, params: JsValue, validate: Validator, client: Client, corrected: bool)
    requires key in registry
    requires var spec := registry[key];
      SeparateParams(spec.path, EntriesOf(ParamsOrEmpty(params))).Ok?
      && MissingRequired(spec.path, SeparateParams(spec.path, EntriesOf(ParamsOrEmpty(params))).value.pathParams) == []
      && (spec.requestSchema.Some? ==> validate(spec.requestSchema.value, params).Valid?)
    ensures var spec := registry[key];
      var parts := SeparateParams(spec.path, EntriesOf(ParamsOrEmpty(params))).value;
      var o := Call(registry, key, params, validate, client, corrected);
      o.sent.Some? && o.sent.value.httpMethod == spec.httpMethod
      && Ok(o.sent.value.url) == ReplacePathParams(spec.path, parts.pathParams)
      && (spec.httpMethod == "GET" ==> o.sent.value.params == Obj(parts.queryParams) && o.sent.value.data == Obj([]))
      && (spec.httpMethod != "GET" ==> o.sent.value.params == Undefined && o.sent.value.data == params)
  {
    var spec := registry[key];
    SeparateThenReplace(spec.path, EntriesOf(ParamsOrEmpty(params)));
  }

  /** Once sent, the result is the validated response, a `ResponseValidationError` carrying
      the raw data, or the classified transport error. */
  lemma AfterSending(registry: Registry, key: string, params: JsValue, validate: Validator, client: Client, corrected: bool)
    requires Call(registry, key, params, validate, client, corrected).sent.Some?
    ensures var o := Call(registry, key, params, validate, client, corrected);
      var spec := registry[key];
      match client(o.sent.value)
      case Threw(t) => o.result == Err(Classify(t))
      case Responded(resp) =>
        if spec.responseSchema.None? then o.result == Ok(resp.data)
        else match validate(spec.responseSchema.value, resp.data)
          case Valid(v) => o.result == Ok(v)
          case Invalid(z) => o.result == Err(Raised(ResponseValidationError(key, z, resp.data)))
  {
  }

  /** A rejected request is never sent. */
  lemma RequestRejected(registry: Registry, key: string, params: JsValue, validate: Validator, client: Client, corrected: bool)
    requires key in registry
    requires var spec := registry[key];
      SeparateParams(spec.path, EntriesOf(ParamsOrEmpty(params))).Ok?
      && MissingRequired(spec.path, SeparateParams(spec.path, EntriesOf(ParamsOrEmpty(params))).value.pathParams) == []
      && spec.requestSchema.Some? && validate(spec.requestSchema.value, params).Invalid?
    ensures var o := Call(registry, key, params, validate, client, corrected);
      o.sent.None?
      && o.result == Err(Raised(RequestValidationError(validate(registry[key].requestSchema.value, params).error)))
  {
  }

  /** The HTTP error of the test: an axios error with a 404 response whose data carries a
      message becomes an `ApiError` with that status and message. */
  lemma AxiosNotFound()
    ensures Classify(ObjectThrown(false, true, Str("Request failed with status code 404"),
        HasResponse(Response(404, Obj([("message", Str("Not Found"))])))))
      == Raised(ApiError("Not Found", 404, Undefined))
  {
  }

  /** Every template of the API map reads the same under both patterns, so for the shipped
      table the second placeholder check is dead code. */
  lemma ApiMapPatternsAgree()
    ensures forall key :: key in ApiMap ==> PatternsAgree(ApiMap[key].path)
  {
    TemplateNames(NonSlash);
    TemplateNames(LetterAlnum);
  }

  /** `separateParams` on `/users/:id` with `{id: 1}`: everything goes to the path part. */
  lemma SeparateUsersId()
    ensures SeparateParams("/users/:id", [("id", Num(1))]) == Ok(Separated([("id", Num(1))], [], []))
  {
    TemplateNames(LetterAlnum);
    var e := [("id", Num(1))];
    assert e[1..] == [];
    assert Route(["id"], e, Separated([], [], [])) == Ok(Separated([("id", Num(1))], [], []));
    assert Keys([("id", Num(1))]) == ["id"];
  }

  /** The success case of the test: `getUser` with `{id: 1}` sends a GET to `/users/1` with
      empty query and body objects, and returns the validated response. */
  lemma GetUserSendsPath(validate: Validator, client: Client)
    requires validate(Schema("getUser.request"), Obj([("id", Num(1))])).Valid?
    ensures CallApi(ApiMap, "getUser", Obj([("id", Num(1))]), validate, client).sent
      == Some(Request("GET", "/users/1", Obj([]), Obj([])))
  {
    var spec := GetUserSpec;
    assert "getUser" in ApiMap && ApiMap["getUser"] == spec;
    PrepareGetUser(validate);
  }

  /** Preparing `getUser` with `{id: 1}`: no parameter is missing and the path becomes `/users/1`. */
  lemma PrepareGetUser(validate: Validator)
    requires validate(Schema("getUser.request"), Obj([("id", Num(1))])).Valid?
    ensures Prepare(GetUserSpec, Obj([("id", Num(1))]), validate, false)
      == Ok(Request("GET", "/users/1", Obj([]), Obj([])))
  {
    SeparateUsersId();
    TemplateNames(NonSlash);
    ReplaceUsersId();
    assert Keys([("id", Num(1))]) == ["id"];
    assert MissingRequired("/users/:id", [("id", Num(1))]) == [];
  }

  /** `separateParams` on `/users/:id` with `{}` reports `id`. */
  lemma SeparateUsersIdEmpty()
    ensures SeparateParams("/users/:id", []) == Err("id")
  {
    TemplateNames(LetterAlnum);
  }

  /** The failing test as written: `getUser` with `{}` raises a plain `Error`. */
  lemma GetUserWithoutIdAsWritten(validate: Validator, client: Client)
    ensures CallApi(ApiMap, "getUser", Obj([]), validate, client)
      == Outcome(Err(Raised(PlainError("Missing required path parameter: id"))), None)
  {
    SeparateUsersIdEmpty();
    var spec := ApiMap["getUser"];
    assert spec.path == "/users/:id";
    assert EntriesOf(ParamsOrEmpty(Obj([]))) == [];
    assert MissingMessage("id") == "Missing required path parameter: id";
    assert Prepare(spec, Obj([]), validate, false) == Err(PlainError(MissingMessage("id")));
  }

  /** Corrected, the same call raises `MissingPathParamError('id')`, as the test expects. */
  lemma GetUserWithoutIdCorrected(validate: Validator, client: Client)
    ensures CallApiCorrected(ApiMap, "getUser", Obj([]), validate, client)
      == Outcome(Err(Raised(MissingPathParamError("id"))), None)
  {
    SeparateUsersIdEmpty();
    var spec := ApiMap["getUser"];
    assert spec.path == "/users/:id";
    assert EntriesOf(ParamsOrEmpty(Obj([]))) == [];
    assert Prepare(spec, Obj([]), validate, true) == Err(MissingPathParamError("id"));
  }

  /** Where the two patterns disagree the second check does fire: with `/:id.json` and
      `{id: 1}` the call fails on a placeholder named `id.json`, although `id` was given. */
  lemma DottedPlaceholderRejected(validate: Validator, client: Client)
    ensures var registry := map["getFile" := ApiSpec("GET", "/:id.json", None, None)];
      CallApi(registry, "getFile", Obj([("id", Num(1))]), validate, client)
        == Outcome(Err(Raised(MissingPathParamError("id.json"))), None)
  {
    var path := "/:id.json";
    DottedNames();
    var e := [("id", Num(1))];
    assert e[1..] == [];
    assert Route(["id"], e, Separated([], [], [])) == Ok(Separated(e, [], []));
    assert Keys(e) == ["id"];
    assert SeparateParams(path, e) == Ok(Separated(e, [], []));
    assert MissingRequired(path, e) == ["id.json"];
    var spec := ApiSpec("GET", path, None, None);
    assert EntriesOf(ParamsOrEmpty(Obj(e))) == e;
    assert Prepare(spec, Obj(e), validate, false) == Err(MissingPathParamError("id.json"));
  }

  /** An `Error` the transport rejects with, the core's own classes included, reaches the
      caller unchanged. */
  lemma TransportErrorPassesThrough(registry: Registry, key: string, params: JsValue, validate: Validator,
                                    client: Client, corrected: bool)
    requires Call(registry, key, params, validate, client, corrected).sent.Some?
    requires var c := client(Call(registry, key, params, validate, client, corrected).sent.value);
      c.Threw? && (c.thrown.Typed? || (c.thrown.ObjectThrown? && c.thrown.isError && !c.thrown.isAxiosError))
    ensures Call(registry, key, params, validate, client, corrected).result
      == Err(Rethrown(client(Call(registry, key, params, validate, client, corrected).sent.value).thrown))
  {
    AfterSending(registry, key, params, validate, client, corrected);
  }

  /** A raised error carries the response's status when axios received one, and 500
      otherwise. */
  lemma RaisedStatus(t: Thrown)
    requires Classify(t).Raised?
    ensures Classify(t).error.statusCode ==
      if t.ObjectThrown? && t.isAxiosError && t.response.HasResponse? then t.response.response.status else 500
  {
  }
}

=== FILE: factory.dfy ===
/** The preset registry (`src/builders/url/UrlBuilderFactory.ts`): a JavaScript `Map` from
    preset names to `UrlPresetConfig`s, kept in insertion order, from which URL builders are
    created. */
module UrlBuilderFactory {
  import opened Wrappers
  import opened Js
  import UrlBuilder

  type PresetConfig = UrlBuilder.PresetConfig

  /** The factory's `presets` map. */
  datatype Factory = Factory(presets: Entries<PresetConfig>)

  /** A freshly constructed factory. */
  const Empty: Factory := Factory([])

  /** A `Map` holds each name once. */
  predicate Valid(f: Factory)
  {
    UniqueKeys(f.presets)
  }

  /** `getPresetNames()`: the names in insertion order. */
  function Names(f: Factory): seq<string>
  {
    Keys(f.presets)
  }

  /** `getPreset(name)`. */
  function GetPreset(f: Factory, name: string): (r: Option<PresetConfig>)
    ensures r.Some? <==> name in Names(f)
  {
    Get(f.presets, name)
  }

  /** `registerPreset(name, config)`: `Map.prototype.set` keeps an existing name's position. */
  function RegisterPreset(f: Factory, name: string, config: PresetConfig): (r: Factory)
    ensures GetPreset(r, name) == Some(config)
    ensures forall n :: n != name ==> GetPreset(r, n) == GetPreset(f, n)
    ensures Names(r) == if name in Names(f) then Names(f) else Names(f) + [name]
    ensures Valid(f) ==> Valid(r)
  {
    Factory(Set(f.presets, name, config))
  }

  /** `registerPresets(presets)`: each entry of the record registered in turn. */
  function RegisterPresets(f: Factory, presets: Entries<PresetConfig>): (r: Factory)
    ensures Valid(f) ==> Valid(r)
    decreases |presets|
  {
    if |presets| == 0 then f
    else RegisterPresets(RegisterPreset(f, presets[0].0, presets[0].1), presets[1..])
  }

  /** `create(presetName)`: a builder configured by the preset, or the error for an unknown
      name. */
  function Create(f: Factory, presetName: string): (r: Result<UrlBuilder.Builder, string>)
    ensures r.Err? <==> presetName !in Names(f)
    ensures r.Err? ==> r.error == "Preset \"" + presetName + "\" not found"
    ensures r.Ok? ==> r.value == CreateWithConfig(GetPreset(f, presetName).value)
  {
    match GetPreset(f, presetName)
    case None => Err("Preset \"" + presetName + "\" not found")
    case Some(preset) => Ok(UrlBuilder.New(preset))
  }

  /** `createWithConfig(config)`: a builder for a configuration that need not be registered. */
  function CreateWithConfig(config: PresetConfig): (b: UrlBuilder.Builder)
    ensures b.segments == [] && b.params == [] && b.query == []
    ensures b.config.prefix == config.prefix.GetOr("")
  {
    UrlBuilder.New(config)
  }

  /** Every entry of `o` except those named `k`. */
  function Without(o: Entries<PresetConfig>, k: string): (r: Entries<PresetConfig>)
    ensures k !in Keys(r)
    ensures forall n :: n != k ==> Get(r, n) == Get(o, n)
    ensures forall n :: n in Keys(r) <==> n in Keys(o) && n != k
    ensures UniqueKeys(o) ==> UniqueKeys(r)
    ensures k !in Keys(o) ==> r == o
  {
    if |o| == 0 then []
    else if o[0].0 == k then Without(o[1..], k)
    else
      var rest := Without(o[1..], k);
      assert ([o[0]] + rest)[1..] == rest;
      [o[0]] + rest
  }

  /** `removePreset(name)`: whether the name was registered, and the factory without it. */
  function RemovePreset(f: Factory, name: string): (r: (bool, Factory))
    ensures r.0 <==> name in Names(f)
    ensures GetPreset(r.1, name) == None
    ensures forall n :: n != name ==> GetPreset(r.1, n) == GetPreset(f, n)
    ensures forall n :: n in Names(r.1) <==> n in Names(f) && n != name
    ensures Valid(f) ==> Valid(r.1)
  {
    (name in Names(f), Factory(Without(f.presets, name)))
  }

  /** `clearPresets()`. */
  function ClearPresets(f: Factory): (r: Factory)
    ensures Names(r) == []
    ensures forall n :: GetPreset(r, n) == None
  {
    Empty
  }

  /** `getInstance()`, with the static `instance` slot made explicit: the slot's factory, or a
      new one stored into it. */
  function GetInstance(slot: Option<Factory>): (r: (Factory, Option<Factory>))
    ensures r.1 == Some(r.0)
    ensures slot.Some? ==> r.0 == slot.value
    ensures slot.None? ==> r.0 == Empty
  {
    match slot
    case Some(f) => (f, slot)
    case None => (Empty, Some(Empty))
  }

  // ---------------------------------------------------------------- properties

  /** `registerPresets` is `Object.assign` of the record onto the map. */
  lemma {:induction false} RegisterPresetsAssigns(f: Factory, presets: Entries<PresetConfig>)
    ensures RegisterPresets(f, presets) == Factory(Assign(f.presets, presets))
    decreases |presets|
  {
    if |presets| > 0 {
      RegisterPresetsAssigns(RegisterPreset(f, presets[0].0, presets[0].1), presets[1..]);
    }
  }

  /** After `registerPresets`, a name of the record maps to the record's config and every
      other name keeps what it had. */
  lemma RegisterPresetsGet(f: Factory, presets: Entries<PresetConfig>, n: string)
    requires UniqueKeys(presets)
    ensures GetPreset(RegisterPresets(f, presets), n) == if n in Keys(presets) then Get(presets, n) else GetPreset(f, n)
  {
    RegisterPresetsAssigns(f, presets);
    if n in Keys(presets) {
      AssignOverrides(f.presets, presets, n);
    }
  }

  /** Registering a name twice keeps the second config, at the first registration's place. */
  lemma RegisterOverwrites(f: Factory, name: string, a: PresetConfig, b: PresetConfig)
    ensures GetPreset(RegisterPreset(RegisterPreset(f, name, a), name, b), name) == Some(b)
    ensures Names(RegisterPreset(RegisterPreset(f, name, a), name, b)) == Names(RegisterPreset(f, name, a))
  {
  }

  /** A name can be created from exactly when it is registered; once registered it stays
      creatable until removed or cleared. */
  lemma CreateAfterRegister(f: Factory, name: string, config: PresetConfig)
    ensures Create(RegisterPreset(f, name, config), name) == Ok(UrlBuilder.New(config))
    ensures Create(RemovePreset(RegisterPreset(f, name, config), name).1, name).Err?
    ensures Create(ClearPresets(f), name).Err?
  {
  }

  /** Removing reports `true` exactly once: a second removal finds nothing. */
  lemma RemoveTwice(f: Factory, name: string)
    ensures !RemovePreset(RemovePreset(f, name).1, name).0
    ensures RemovePreset(RemovePreset(f, name).1, name).1 == RemovePreset(f, name).1
  {
  }

  /** Every call of `getInstance` after the first returns the same factory. */
  lemma InstanceStable(slot: Option<Factory>)
    ensures GetInstance(GetInstance(slot).1).0 == GetInstance(slot).0
    ensures GetInstance(GetInstance(slot).1).1 == GetInstance(slot).1
  {
  }
}

=== FILE: http.dfy ===
/** The HTTP methods the builders accept (`src/builders/url/validators.ts`). */
module HttpMethods {
  import opened Wrappers
  import Strs

  datatype HttpMethod = GET | POST | PUT | DELETE | PATCH

  function Name(m: HttpMethod): string
  {
    match m
    case GET => "GET"
    case POST => "POST"
    case PUT => "PUT"
    case DELETE => "DELETE"
    case PATCH => "PATCH"
  }

  /** The list `validateMethodExists` checks against, in its order. */
  const ValidMethods: seq<string> := ["GET", "POST", "PUT", "DELETE", "PATCH"]

  /** Reads a method name; only the five upper-case names are methods. */
  function Parse(s: string): (r: Option<HttpMethod>)
    ensures r.Some? <==> s in ValidMethods
    ensures r.Some? ==> Name(r.value) == s
  {
    if s == "GET" then Some(GET)
    else if s == "POST" then Some(POST)
    else if s == "PUT" then Some(PUT)
    else if s == "DELETE" then Some(DELETE)
    else if s == "PATCH" then Some(PATCH)
    else None
  }

  /** Every method's name reads back as that method. */
  lemma ParseName(m: HttpMethod)
    ensures Parse(Name(m)) == Some(m)
    ensures Name(m) in ValidMethods
  {
  }

  /** The list as `validMethods.join(', ')` renders it. */
  lemma ValidMethodsListed()
    ensures Strs.Join(ValidMethods, ", ") == "GET, POST, PUT, DELETE, PATCH"
  {
    PostToPatchListed();
    assert ValidMethods[1..] == ["POST", "PUT", "DELETE", "PATCH"];
  }

  /** The last four names, joined. */
  lemma PostToPatchListed()
    ensures Strs.Join(["POST", "PUT", "DELETE", "PATCH"], ", ") == "POST, PUT, DELETE, PATCH"
  {
    PutToPatchListed();
    assert ["POST", "PUT", "DELETE", "PATCH"][1..] == ["PUT", "DELETE", "PATCH"];
  }

  /** The last three names, joined. */
  lemma PutToPatchListed()
    ensures Strs.Join(["PUT", "DELETE", "PATCH"], ", ") == "PUT, DELETE, PATCH"
  {
    assert ["DELETE", "PATCH"][1..] == ["PATCH"];
    assert ["PUT", "DELETE", "PATCH"][1..] == ["DELETE", "PATCH"];
  }
}

=== FILE: httpclient.dfy ===
/** The fetch-based client (`src/client/HttpClient.ts`): header merging, URL building,
    request and response interceptors, response handling and error recovery.
    `fetch`, `encodeURIComponent`, `JSON.stringify` and schema parsing are foreign code
    and enter the model through `Env`. */
module HttpClient {
  import opened Wrappers
  import opened Js
  import Strs
  import Zod
  import Transport
  import HttpMethods

  const ContentType: string := "Content-Type"
  const JsonMedia: string := "application/json"

  datatype ClientConfig = ClientConfig(baseURL: string, headers: Entries<string>, timeout: Option<int>)

  /** The per-call options; an absent field is the empty object or `undefined`. */
  datatype RequestConfig = RequestConfig(
    params: Entries<string>,
    query: Entries<JsValue>,
    data: JsValue,
    headers: Entries<string>)

  const NoConfig: RequestConfig := RequestConfig([], [], Undefined, [])

  datatype ResponseConfig = ResponseConfig(schema: Option<Zod.Schema>, raw: bool)

  const NoResponseConfig: ResponseConfig := ResponseConfig(None, false)

  /** The init object handed to the request interceptors and then to `fetch`. */
  datatype FetchInit = FetchInit(httpMethod: string, headers: Entries<string>, body: Option<string>)

  /** A `Response`; `json` is `None` when `response.json()` rejects. */
  datatype FetchResponse = FetchResponse(ok: bool, status: int, statusText: string, json: Option<JsValue>)

  /** What a call resolves with: parsed JSON (or an interceptor's value), or the raw response. */
  datatype Reply = JsonBody(value: JsValue) | RawResponse(response: FetchResponse)

  /** What a call can reject with. */
  datatype Failure =
    | HttpError(response: FetchResponse, data: JsValue)
    | SchemaError(error: Zod.ZodError)
    | BodyNotJson
    | Thrown(thrown: Transport.Thrown)

  /** A settled promise. */
  datatype Settled<T> = Resolved(value: T) | Rejected(error: Failure)

  type Handler = Failure -> Settled<Reply>

  datatype RequestInterceptor = RequestInterceptor(
    onRequest: Option<FetchInit -> Settled<FetchInit>>,
    onRequestError: Option<Handler>)

  datatype ResponseInterceptor = ResponseInterceptor(
    onResponse: Option<(FetchResponse, ResponseConfig) -> Settled<Reply>>,
    onResponseError: Option<Handler>)

  datatype Client = Client(
    config: ClientConfig,
    requestInterceptors: seq<RequestInterceptor>,
    responseInterceptors: seq<ResponseInterceptor>)

  /** The foreign functions a request depends on. */
  datatype Env = Env(
    fetch: (string, FetchInit) -> Settled<FetchResponse>,
    encode: string -> string,
    stringify: JsValue -> string,
    validate: Zod.Validator)

  /** What one call did: how it settled, and the URL and init it fetched, if it got that far. */
  datatype Exchange = Exchange(result: Settled<Reply>, fetched: Option<(string, FetchInit)>)

  function NewClient(config: ClientConfig): (c: Client)
    ensures c.config == config
    ensures |c.requestInterceptors| == 0 && |c.responseInterceptors| == 0
  {
    Client(config, [], [])
  }

  /** Registration appends: interceptors run in the order they were added. */
  function AddRequestInterceptor(c: Client, i: RequestInterceptor): (r: Client)
    ensures r.requestInterceptors == c.requestInterceptors + [i]
    ensures r.config == c.config && r.responseInterceptors == c.responseInterceptors
  {
    c.(requestInterceptors := c.requestInterceptors + [i])
  }

  function AddResponseInterceptor(c: Client, i: ResponseInterceptor): (r: Client)
    ensures r.responseInterceptors == c.responseInterceptors + [i]
    ensures r.config == c.config && r.requestInterceptors == c.requestInterceptors
  {
    c.(responseInterceptors := c.responseInterceptors + [i])
  }

  /** The message of an `HttpError`. */
  function HttpErrorMessage(response: FetchResponse): string
  {
    "HTTP Error " + IntToString(response.status) + ": " + response.statusText
  }

  lemma NotFoundMessage(response: FetchResponse)
    requires response.status == 404 && response.statusText == "Not Found"
    ensures HttpErrorMessage(response) == "HTTP Error 404: Not Found"
  {
    assert IntToString(404) == "404";
  }

  // ---------------------------------------------------------------- merged config

  /** `{'Content-Type': 'application/json', ...clientHeaders, ...callHeaders}`. */
  function MergeHeaders(clientHeaders: Entries<string>, callHeaders: Entries<string>): (h: Entries<string>)
    ensures UniqueKeys(h)
  {
    assert UniqueKeys([(ContentType, JsonMedia)]) by {
      assert Keys([(ContentType, JsonMedia)][1..]) == [];
    }
    Assign(Assign([(ContentType, JsonMedia)], clientHeaders), callHeaders)
  }

  /** A call's header wins over the client's, which wins over the JSON default. */
  lemma MergeHeadersPrecedence(clientHeaders: Entries<string>, callHeaders: Entries<string>, k: string)
    requires UniqueKeys(clientHeaders) && UniqueKeys(callHeaders)
    ensures Get(MergeHeaders(clientHeaders, callHeaders), k) ==
      if k in Keys(callHeaders) then Get(callHeaders, k)
      else if k in Keys(clientHeaders) then Get(clientHeaders, k)
      else if k == ContentType then Some(JsonMedia)
      else None
  {
    var base := Assign([(ContentType, JsonMedia)], clientHeaders);
    if k in Keys(callHeaders) {
      AssignOverrides(base, callHeaders, k);
    } else if k in Keys(clientHeaders) {
      AssignOverrides([(ContentType, JsonMedia)], clientHeaders, k);
    } else {
      assert Keys([(ContentType, JsonMedia)]) == [ContentType];
    }
  }

  /** The body is the serialised data, and there is one exactly when the data is truthy. */
  function Body(data: JsValue, stringify: JsValue -> string): (b: Option<string>)
    ensures b.Some? <==> Truthy(data)
    ensures b.Some? ==> b.value == stringify(data)
  {
    if Truthy(data) then Some(stringify(data)) else None
  }

  function MergedInit(c: Client, m: HttpMethods.HttpMethod, config: RequestConfig, stringify: JsValue -> string): FetchInit
  {
    FetchInit(HttpMethods.Name(m), MergeHeaders(c.config.headers, config.headers), Body(config.data, stringify))
  }

  // ---------------------------------------------------------------- URL building

  /** Each parameter in turn replaces the first `:key` left in the URL. */
  function ApplyParams(url: string, params: Entries<string>, encode: string -> string): string
    decreases |params|
  {
    if |params| == 0 then url
    else ApplyParams(Strs.ReplaceFirst(url, ":" + params[0].0, encode(params[0].1)), params[1..], encode)
  }

  /** `key[]=v` for each element of an array value, `key=String(value)` otherwise. */
  function QueryPart(key: string, value: JsValue, encode: string -> string): string
  {
    if value.Arr? then
      Strs.Join(ArrayParts(key, value.items, encode), "&")
    else
      encode(key) + "=" + encode(ToJsString(value))
  }

  function ArrayParts(key: string, items: seq<JsValue>, encode: string -> string): (parts: seq<string>)
    ensures |parts| == |items|
  {
    seq(|items|, j requires 0 <= j < |items| => encode(key) + "[]=" + encode(ToJsString(items[j])))
  }

  function QueryString(query: Entries<JsValue>, encode: string -> string): string
  {
    Strs.Join(seq(|query|, i requires 0 <= i < |query| => QueryPart(query[i].0, query[i].1, encode)), "&")
  }

  /** The query string is appended after '?', or after '&' when the URL already has a query. */
  function BuildUrl(baseURL: string, url: string, params: Entries<string>, query: Entries<JsValue>,
                    encode: string -> string): string
  {
    var withParams := ApplyParams(baseURL + url, params, encode);
    var qs := QueryString(query, encode);
    if qs == "" then withParams
    else withParams + (if '?' in withParams then "&" else "?") + qs
  }

  /** Without query entries the URL is the base joined to the path with the parameters substituted. */
  lemma BuildUrlWithoutQuery(baseURL: string, url: string, params: Entries<string>, encode: string -> string)
    ensures BuildUrl(baseURL, url, params, [], encode) == ApplyParams(baseURL + url, params, encode)
  {
  }

  /** With no '?' in the URL, splitting the result on '?' separates the path from the query string. */
  lemma BuildUrlQuerySeparated(baseURL: string, url: string, params: Entries<string>,
                               query: Entries<JsValue>, encode: string -> string)
    requires '?' !in ApplyParams(baseURL + url, params, encode)
    requires '?' !in QueryString(query, encode)
    requires QueryString(query, encode) != ""
    ensures Strs.Split(BuildUrl(baseURL, url, params, query, encode), '?') ==
      [ApplyParams(baseURL + url, params, encode), QueryString(query, encode)]
  {
    var p := ApplyParams(baseURL + url, params, encode);
    var qs := QueryString(query, encode);
    assert BuildUrl(baseURL, url, params, query, encode) == p + ['?'] + qs;
    Strs.SplitFirst(p, qs, '?');
    assert Strs.IndexOfChar(qs, '?') == None;
  }

  /** When the URL already carries a query, the new one is joined with '&' and the '?'-part is kept. */
  lemma BuildUrlExtendsQuery(baseURL: string, url: string, params: Entries<string>,
                             query: Entries<JsValue>, encode: string -> string)
    requires '?' in ApplyParams(baseURL + url, params, encode)
    requires QueryString(query, encode) != ""
    ensures BuildUrl(baseURL, url, params, query, encode) ==
      ApplyParams(baseURL + url, params, encode) + "&" + QueryString(query, encode)
  {
  }

  /** With scalar values and an encoder that leaves no '&', the query string splits back into
      one `key=value` part per entry, in entry order. */
  lemma {:induction false} QueryStringParts(query: Entries<JsValue>, encode: string -> string)
    requires |query| > 0
    requires forall i :: 0 <= i < |query| ==> !query[i].1.Arr?
    requires forall s :: '&' !in encode(s)
    ensures Strs.Split(QueryString(query, encode), '&') ==
      seq(|query|, i requires 0 <= i < |query| => encode(query[i].0) + "=" + encode(ToJsString(query[i].1)))
  {
    var parts := seq(|query|, i requires 0 <= i < |query| => QueryPart(query[i].0, query[i].1, encode));
    forall i | 0 <= i < |parts|
      ensures '&' !in parts[i]
    {
      var k := encode(query[i].0);
      var v := encode(ToJsString(query[i].1));
      assert parts[i] == k + "=" + v;
    }
    Strs.SplitJoin(parts, '&');
  }

  /** A non-empty array value expands to one `key[]=item` part per element. */
  lemma ArrayValueParts(key: string, items: seq<JsValue>, encode: string -> string)
    requires |items| > 0
    requires forall s :: '&' !in encode(s)
    ensures Strs.Split(QueryPart(key, Arr(items), encode), '&') == ArrayParts(key, items, encode)
  {
    var parts := ArrayParts(key, items, encode);
    forall j | 0 <= j < |parts|
      ensures '&' !in parts[j]
    {
      var k := encode(key);
      var v := encode(ToJsString(items[j]));
      assert parts[j] == k + "[]=" + v;
    }
    Strs.SplitJoin(parts, '&');
  }

  /** A scalar entry whose key and value the encoder leaves alone renders as `key=value`. */
  lemma ScalarPart(key: string, value: string, encode: string -> string)
    requires encode(key) == key && encode(value) == value
    ensures QueryPart(key, Str(value), encode) == key + "=" + value
  {
  }

  /** An empty array contributes an empty part, which still gets its '&' separators. */
  lemma EmptyArrayLeavesEmptyPart(encode: string -> string)
    requires encode("a") == "a" && encode("1") == "1" && encode("b") == "b" && encode("2") == "2"
    ensures QueryString([("a", Str("1")), ("ids", Arr([])), ("b", Str("2"))], encode) == "a=1&&b=2"
  {
    var q := [("a", Str("1")), ("ids", Arr([])), ("b", Str("2"))];
    ScalarPart("a", "1", encode);
    ScalarPart("b", "2", encode);
    assert "a" + "=" + "1" == "a=1";
    assert "b" + "=" + "2" == "b=2";
    assert QueryPart("ids", Arr([]), encode) == "";
    var parts := seq(|q|, i requires 0 <= i < |q| => QueryPart(q[i].0, q[i].1, encode));
    assert parts == ["a=1", "", "b=2"];
    assert Strs.Join(["b=2"], "&") == "b=2";
    assert Strs.Join(["", "b=2"], "&") == "" + "&" + "b=2";
    assert Strs.Join(parts, "&") == "a=1" + "&" + ("" + "&" + "b=2");
  }

  /** `/users?page=1&limit=10` with an encoder that leaves these characters alone. */
  lemma ScalarQueryExample(baseURL: string, encode: string -> string)
    requires '?' !in baseURL
    requires encode("page") == "page" && encode("1") == "1"
    requires encode("limit") == "limit" && encode("10") == "10"
    ensures BuildUrl(baseURL, "/users", [], [("page", Str("1")), ("limit", Str("10"))], encode) ==
      baseURL + "/users?page=1&limit=10"
  {
    var q := [("page", Str("1")), ("limit", Str("10"))];
    ScalarPart("page", "1", encode);
    ScalarPart("limit", "10", encode);
    assert "page" + "=" + "1" == "page=1";
    assert "limit" + "=" + "10" == "limit=10";
    var parts := seq(|q|, i requires 0 <= i < |q| => QueryPart(q[i].0, q[i].1, encode));
    assert parts == ["page=1", "limit=10"];
    assert Strs.Join(parts, "&") == "page=1" + "&" + "limit=10";
    assert QueryString(q, encode) == "page=1&limit=10";
    assert '?' !in "/users";
    assert '?' !in baseURL + "/users";
  }

  /** An array element the encoder leaves alone renders as `key[]=value`. */
  lemma ArrayElementPart(key: string, value: string, encode: string -> string)
    requires encode(key) == key && encode(value) == value
    ensures encode(key) + "[]=" + encode(ToJsString(Str(value))) == key + "[]=" + value
  {
  }

  /** `/users?ids[]=1&ids[]=2&ids[]=3` for an array value. */
  lemma ArrayQueryExample(baseURL: string, encode: string -> string)
    requires '?' !in baseURL
    requires encode("ids") == "ids" && encode("1") == "1" && encode("2") == "2" && encode("3") == "3"
    ensures BuildUrl(baseURL, "/users", [], [("ids", Arr([Str("1"), Str("2"), Str("3")]))], encode) ==
      baseURL + "/users?ids[]=1&ids[]=2&ids[]=3"
  {
    var q := [("ids", Arr([Str("1"), Str("2"), Str("3")]))];
    ArrayQueryString(encode);
    assert '?' !in baseURL + "/users" by {
      assert '?' !in "/users";
    }
    QueryAfterMark(baseURL, "/users", q, encode);
    assert baseURL + "/users" + "?" + "ids[]=1&ids[]=2&ids[]=3" == baseURL + "/users?ids[]=1&ids[]=2&ids[]=3";
  }

  /** The query string of the one array entry. */
  lemma ArrayQueryString(encode: string -> string)
    requires encode("ids") == "ids" && encode("1") == "1" && encode("2") == "2" && encode("3") == "3"
    ensures QueryString([("ids", Arr([Str("1"), Str("2"), Str("3")]))], encode) == "ids[]=1&ids[]=2&ids[]=3"
  {
    var items := [Str("1"), Str("2"), Str("3")];
    var q := [("ids", Arr(items))];
    ArrayJoinExample(encode);
    assert QueryPart("ids", Arr(items), encode) == "ids[]=1&ids[]=2&ids[]=3";
    var parts := seq(|q|, i requires 0 <= i < |q| => QueryPart(q[i].0, q[i].1, encode));
    assert parts == ["ids[]=1&ids[]=2&ids[]=3"];
  }

  /** The three element parts joined with '&'. */
  lemma ArrayJoinExample(encode: string -> string)
    requires encode("ids") == "ids" && encode("1") == "1" && encode("2") == "2" && encode("3") == "3"
    ensures Strs.Join(ArrayParts("ids", [Str("1"), Str("2"), Str("3")], encode), "&") == "ids[]=1&ids[]=2&ids[]=3"
  {
    ArrayPartsExample(encode);
    ArrayJoinText();
  }

  lemma ArrayPartsExample(encode: string -> string)
    requires encode("ids") == "ids" && encode("1") == "1" && encode("2") == "2" && encode("3") == "3"
    ensures ArrayParts("ids", [Str("1"), Str("2"), Str("3")], encode) == ["ids[]=1", "ids[]=2", "ids[]=3"]
  {
    ArrayElementPart("ids", "1", encode);
    ArrayElementPart("ids", "2", encode);
    ArrayElementPart("ids", "3", encode);
    assert "ids" + "[]=" + "1" == "ids[]=1" && "ids" + "[]=" + "2" == "ids[]=2" && "ids" + "[]=" + "3" == "ids[]=3";
  }

  lemma ArrayJoinText()
    ensures Strs.Join(["ids[]=1", "ids[]=2", "ids[]=3"], "&") == "ids[]=1&ids[]=2&ids[]=3"
  {
    Strs.JoinThree("ids[]=1", "ids[]=2", "ids[]=3", "&");
  }

  /** With no path parameters and no '?' in the URL, a non-empty query string follows one '?'. */
  lemma QueryAfterMark(baseURL: string, url: string, query: Entries<JsValue>, encode: string -> string)
    requires '?' !in baseURL + url
    requires QueryString(query, encode) != ""
    ensures BuildUrl(baseURL, url, [], query, encode) == baseURL + url + "?" + QueryString(query, encode)
  {
  }

  /** No `:id` starts before the placeholder of `base + "/users/:id"`. */
  lemma NoIdBefore(baseURL: string, j: nat)
    requires forall j :: 0 <= j ==> !Strs.OccursAt(baseURL, ":id", j)
    requires j < |baseURL| + 7
    ensures !Strs.OccursAt(baseURL + "/users/:id", ":id", j)
  {
    var s := baseURL + "/users/:id";
    var n := |baseURL|;
    if j + 3 <= n {
      assert s[j..j + 3] == baseURL[j..j + 3];
      assert !Strs.OccursAt(baseURL, ":id", j);
    } else if j <= n {
      assert s[j..j + 3][n - j] == s[n] == '/';
      assert '/' !in ":id";
    } else {
      assert s[n..n + 7] == "/users/";
      assert s[j] == s[n..n + 7][j - n];
      assert ':' !in "/users/";
      assert s[j..j + 3][0] == s[j] != ':';
    }
  }

  /** `/users/:id` with `id: '123'` becomes `/users/123`, for any base URL without `:id` in it. */
  lemma PathParamExample(baseURL: string, encode: string -> string)
    requires forall j :: 0 <= j ==> !Strs.OccursAt(baseURL, ":id", j)
    requires encode("123") == "123"
    ensures BuildUrl(baseURL, "/users/:id", [("id", "123")], [], encode) == baseURL + "/users/123"
  {
    ReplaceUsersIdText(baseURL);
    ApplyIdParam(baseURL + "/users/:id", encode);
    assert QueryString([], encode) == "";
  }

  /** Substituting the one `id` parameter is one `replace` of `:id`. */
  lemma ApplyIdParam(s: string, encode: string -> string)
    requires encode("123") == "123"
    ensures ApplyParams(s, [("id", "123")], encode) == Strs.ReplaceFirst(s, ":id", "123")
  {
    assert ":" + "id" == ":id";
  }

  /** The first `:id` of `baseURL + "/users/:id"` is the one the path ends with. */
  lemma ReplaceUsersIdText(baseURL: string)
    requires forall j :: 0 <= j ==> !Strs.OccursAt(baseURL, ":id", j)
    ensures Strs.ReplaceFirst(baseURL + "/users/:id", ":id", "123") == baseURL + "/users/123"
  {
    var s := baseURL + "/users/:id";
    var n := |baseURL|;
    assert Strs.OccursAt(s, ":id", n + 7) by {
      assert s[n + 7..n + 10] == ":id";
    }
    forall j: nat | j < n + 7
      ensures !Strs.OccursAt(s, ":id", j)
    {
      NoIdBefore(baseURL, j);
    }
    Strs.ReplaceFirstAt(s, ":id", "123", n + 7);
    assert s[..n + 7] + "123" + s[n + 10..] == baseURL + "/users/123";
  }

  // ---------------------------------------------------------------- interceptors

  /** The `onRequest` hooks in order, each on its predecessor's result; the first rejection stops the chain. */
  function RunRequestInterceptors(ints: seq<RequestInterceptor>, init: FetchInit): Settled<FetchInit>
    decreases |ints|
  {
    if |ints| == 0 then Resolved(init)
    else if ints[0].onRequest.None? then RunRequestInterceptors(ints[1..], init)
    else
      match ints[0].onRequest.value(init)
      case Rejected(e) => Rejected(e)
      case Resolved(next) => RunRequestInterceptors(ints[1..], next)
  }

  /** Interceptors added later see what the earlier ones produced. */
  lemma {:induction false} RequestInterceptorsCompose(a: seq<RequestInterceptor>, b: seq<RequestInterceptor>, init: FetchInit)
    ensures RunRequestInterceptors(a + b, init) ==
      match RunRequestInterceptors(a, init)
      case Rejected(e) => Rejected(e)
      case Resolved(mid) => RunRequestInterceptors(b, mid)
    decreases |a|
  {
    if |a| == 0 {
      assert a + b == b;
    } else {
      assert (a + b)[0] == a[0];
      assert (a + b)[1..] == a[1..] + b;
      if a[0].onRequest.None? {
        RequestInterceptorsCompose(a[1..], b, init);
      } else {
        match a[0].onRequest.value(init)
        case Rejected(e) =>
        case Resolved(next) => RequestInterceptorsCompose(a[1..], b, next);
      }
    }
  }

  /** Interceptors without `onRequest` pass the init through. */
  lemma {:induction false} RequestInterceptorsIdle(ints: seq<RequestInterceptor>, init: FetchInit)
    requires forall i :: 0 <= i < |ints| ==> ints[i].onRequest.None?
    ensures RunRequestInterceptors(ints, init) == Resolved(init)
    decreases |ints|
  {
    if |ints| > 0 {
      RequestInterceptorsIdle(ints[1..], init);
    }
  }

  /** Every `onResponse` hook receives the original response, and its value replaces the result. */
  function RunResponseInterceptors(ints: seq<ResponseInterceptor>, response: FetchResponse,
                                   config: ResponseConfig, result: Reply): Settled<Reply>
    decreases |ints|
  {
    if |ints| == 0 then Resolved(result)
    else if ints[0].onResponse.None? then RunResponseInterceptors(ints[1..], response, config, result)
    else
      match ints[0].onResponse.value(response, config)
      case Rejected(e) => Rejected(e)
      case Resolved(next) => RunResponseInterceptors(ints[1..], response, config, next)
  }

  /** When the hooks all resolve, the call resolves with the value of the last one registered:
      the parsed body and every earlier hook's value are discarded. */
  lemma {:induction false} LastResponseInterceptorWins(ints: seq<ResponseInterceptor>, response: FetchResponse,
                                                       config: ResponseConfig, result: Reply)
    requires |ints| > 0 && ints[|ints| - 1].onResponse.Some?
    requires RunResponseInterceptors(ints, response, config, result).Resolved?
    ensures RunResponseInterceptors(ints, response, config, result) ==
      ints[|ints| - 1].onResponse.value(response, config)
    decreases |ints|
  {
    if |ints| == 1 {
      match ints[0].onResponse.value(response, config)
      case Rejected(e) =>
      case Resolved(next) =>
    } else if ints[0].onResponse.None? {
      LastResponseInterceptorWins(ints[1..], response, config, result);
    } else {
      match ints[0].onResponse.value(response, config)
      case Rejected(e) =>
      case Resolved(next) => LastResponseInterceptorWins(ints[1..], response, config, next);
    }
  }

  /** With no `onResponse` hook the handled response is the result. */
  lemma {:induction false} ResponseInterceptorsIdle(ints: seq<ResponseInterceptor>, response: FetchResponse,
                                                    config: ResponseConfig, result: Reply)
    requires forall i :: 0 <= i < |ints| ==> ints[i].onResponse.None?
    ensures RunResponseInterceptors(ints, response, config, result) == Resolved(result)
    decreases |ints|
  {
    if |ints| > 0 {
      ResponseInterceptorsIdle(ints[1..], response, config, result);
    }
  }

  // ---------------------------------------------------------------- response and error handling

  /** A non-ok status rejects with an `HttpError` carrying the parsed body (or `undefined`);
      `raw` returns the response; otherwise the JSON body, parsed by the schema when there is one. */
  function HandleResponse(response: FetchResponse, config: ResponseConfig, validate: Zod.Validator): (r: Settled<Reply>)
    ensures !response.ok <==> r.Rejected? && r.error.HttpError?
    ensures r.Rejected? && r.error.HttpError? ==> r.error == HttpError(response, response.json.GetOr(Undefined))
    ensures r.Resolved? && r.value.RawResponse? <==> response.ok && config.raw
    ensures r.Rejected? && r.error.SchemaError? ==> config.schema.Some? && response.json.Some?
    ensures response.ok && !config.raw && response.json.None? ==> r == Rejected(BodyNotJson)
    ensures response.ok && !config.raw && response.json.Some? && config.schema.None? ==>
      r == Resolved(JsonBody(response.json.value))
    ensures response.ok && !config.raw && response.json.Some? && config.schema.Some? ==>
      match validate(config.schema.value, response.json.value)
      case Valid(v) => r == Resolved(JsonBody(v))
      case Invalid(z) => r == Rejected(SchemaError(z))
  {
    if !response.ok then Rejected(HttpError(response, response.json.GetOr(Undefined)))
    else if config.raw then Resolved(RawResponse(response))
    else if response.json.None? then Rejected(BodyNotJson)
    else if config.schema.Some? then
      match validate(config.schema.value, response.json.value)
      case Valid(v) => Resolved(JsonBody(v))
      case Invalid(z) => Rejected(SchemaError(z))
    else Resolved(JsonBody(response.json.value))
  }

  function RequestErrorHandlers(ints: seq<RequestInterceptor>): (hs: seq<Handler>)
    ensures |hs| <= |ints|
  {
    if |ints| == 0 then []
    else if ints[0].onRequestError.Some? then [ints[0].onRequestError.value] + RequestErrorHandlers(ints[1..])
    else RequestErrorHandlers(ints[1..])
  }

  function ResponseErrorHandlers(ints: seq<ResponseInterceptor>): (hs: seq<Handler>)
    ensures |hs| <= |ints|
  {
    if |ints| == 0 then []
    else if ints[0].onResponseError.Some? then [ints[0].onResponseError.value] + ResponseErrorHandlers(ints[1..])
    else ResponseErrorHandlers(ints[1..])
  }

  /** Handlers in order: the first to resolve answers; one that rejects passes its own error on. */
  function Recover(hs: seq<Handler>, e: Failure): Settled<Reply>
    decreases |hs|
  {
    if |hs| == 0 then Rejected(e)
    else
      match hs[0](e)
      case Resolved(v) => Resolved(v)
      case Rejected(e') => Recover(hs[1..], e')
  }

  /** Running two groups of handlers is running the first, then the second on whatever the first left. */
  lemma {:induction false} RecoverCompose(a: seq<Handler>, b: seq<Handler>, e: Failure)
    ensures Recover(a + b, e) ==
      match Recover(a, e)
      case Resolved(v) => Resolved(v)
      case Rejected(e') => Recover(b, e')
    decreases |a|
  {
    if |a| == 0 {
      assert a + b == b;
    } else {
      assert (a + b)[0] == a[0];
      assert (a + b)[1..] == a[1..] + b;
      match a[0](e)
      case Resolved(v) =>
      case Rejected(e') => RecoverCompose(a[1..], b, e');
    }
  }

  /** The error left when every handler rethrows: the original one when there are no handlers,
      otherwise what the last handler throws for the error the earlier ones left. */
  function LastThrown(hs: seq<Handler>, e: Failure): Failure
    requires forall i :: 0 <= i < |hs| ==> forall x :: hs[i](x).Rejected?
    decreases |hs|
  {
    if |hs| == 0 then e else hs[|hs| - 1](LastThrown(hs[..|hs| - 1], e)).error
  }

  /** A rejection ends the chain with the error the last handler threw, or the original one. */
  lemma {:induction false} RecoverRejects(hs: seq<Handler>, e: Failure)
    requires forall i :: 0 <= i < |hs| ==> forall x :: hs[i](x).Rejected?
    ensures Recover(hs, e) == Rejected(LastThrown(hs, e))
    decreases |hs|
  {
    if |hs| > 0 {
      var n := |hs|;
      var front, last := hs[..n - 1], hs[n - 1];
      RecoverRejects(front, e);
      RecoverCompose(front, [last], e);
      assert front + [last] == hs;
      assert [last][1..] == [];
    }
  }

  /** The request interceptors' `onRequestError` hooks first, then the response interceptors'
      `onResponseError` hooks; the last error is rethrown when none resolves. */
  function HandleError(c: Client, e: Failure): Settled<Reply>
  {
    Recover(RequestErrorHandlers(c.requestInterceptors) + ResponseErrorHandlers(c.responseInterceptors), e)
  }

  /** Request-side recovery answers before any response-side hook is consulted. */
  lemma RequestHooksFirst(c: Client, e: Failure)
    ensures HandleError(c, e) ==
      match Recover(RequestErrorHandlers(c.requestInterceptors), e)
      case Resolved(v) => Resolved(v)
      case Rejected(e') => Recover(ResponseErrorHandlers(c.responseInterceptors), e')
  {
    RecoverCompose(RequestErrorHandlers(c.requestInterceptors), ResponseErrorHandlers(c.responseInterceptors), e);
  }

  lemma {:induction false} NoRequestErrorHooks(ints: seq<RequestInterceptor>)
    requires forall i :: 0 <= i < |ints| ==> ints[i].onRequestError.None?
    ensures RequestErrorHandlers(ints) == []
    decreases |ints|
  {
    if |ints| > 0 {
      NoRequestErrorHooks(ints[1..]);
    }
  }

  lemma {:induction false} NoResponseErrorHooks(ints: seq<ResponseInterceptor>)
    requires forall i :: 0 <= i < |ints| ==> ints[i].onResponseError.None?
    ensures ResponseErrorHandlers(ints) == []
    decreases |ints|
  {
    if |ints| > 0 {
      NoResponseErrorHooks(ints[1..]);
    }
  }

  /** Without error hooks a failure propagates unchanged. */
  lemma ErrorPropagates(c: Client, e: Failure)
    requires forall i :: 0 <= i < |c.requestInterceptors| ==> c.requestInterceptors[i].onRequestError.None?
    requires forall i :: 0 <= i < |c.responseInterceptors| ==> c.responseInterceptors[i].onResponseError.None?
    ensures HandleError(c, e) == Rejected(e)
  {
    NoRequestErrorHooks(c.requestInterceptors);
    NoResponseErrorHooks(c.responseInterceptors);
    assert RequestErrorHandlers(c.requestInterceptors) + ResponseErrorHandlers(c.responseInterceptors) == [];
  }

  // ---------------------------------------------------------------- request

  /** `client.get/post/put/delete/patch(url, config, responseConfig)`. The URL is built before the
      interceptors run, so they can change the init but not the URL. */
  function Request(c: Client, m: HttpMethods.HttpMethod, url: string, config: RequestConfig,
                   responseConfig: ResponseConfig, env: Env): (x: Exchange)
    ensures x.fetched.Some? ==>
      x.fetched.value.0 == BuildUrl(c.config.baseURL, url, config.params, config.query, env.encode)
    ensures x.fetched.Some? <==>
      RunRequestInterceptors(c.requestInterceptors, MergedInit(c, m, config, env.stringify)).Resolved?
    ensures x.fetched.Some? ==>
      x.fetched.value.1 == RunRequestInterceptors(c.requestInterceptors, MergedInit(c, m, config, env.stringify)).value
    ensures x.fetched.None? ==>
      x.result == HandleError(c, RunRequestInterceptors(c.requestInterceptors, MergedInit(c, m, config, env.stringify)).error)
    ensures x.fetched.Some? ==>
      var fetched := env.fetch(x.fetched.value.0, x.fetched.value.1);
      (fetched.Rejected? ==> x.result == HandleError(c, fetched.error)) &&
      (fetched.Resolved? ==>
        var handled := HandleResponse(fetched.value, responseConfig, env.validate);
        (handled.Rejected? ==> x.result == HandleError(c, handled.error)) &&
        (handled.Resolved? ==>
          var replied := RunResponseInterceptors(c.responseInterceptors, fetched.value, responseConfig, handled.value);
          x.result == if replied.Rejected? then HandleError(c, replied.error) else replied))
  {
    var init := MergedInit(c, m, config, env.stringify);
    var fullUrl := BuildUrl(c.config.baseURL, url, config.params, config.query, env.encode);
    match RunRequestInterceptors(c.requestInterceptors, init)
    case Rejected(e) => Exchange(HandleError(c, e), None)
    case Resolved(fin) =>
      var sent := Some((fullUrl, fin));
      match env.fetch(fullUrl, fin)
      case Rejected(e) => Exchange(HandleError(c, e), sent)
      case Resolved(response) =>
        match HandleResponse(response, responseConfig, env.validate)
        case Rejected(e) => Exchange(HandleError(c, e), sent)
        case Resolved(result) =>
          match RunResponseInterceptors(c.responseInterceptors, response, responseConfig, result)
          case Rejected(e) => Exchange(HandleError(c, e), sent)
          case Resolved(r) => Exchange(Resolved(r), sent)
  }

  /** With no interceptors, the init fetched carries the method, the merged headers and a body
      exactly when the data is truthy. */
  lemma PlainClientSends(config: ClientConfig, m: HttpMethods.HttpMethod, url: string, rc: RequestConfig,
                         responseConfig: ResponseConfig, env: Env)
    ensures Request(NewClient(config), m, url, rc, responseConfig, env).fetched ==
      Some((BuildUrl(config.baseURL, url, rc.params, rc.query, env.encode),
            FetchInit(HttpMethods.Name(m), MergeHeaders(config.headers, rc.headers),
                      if Truthy(rc.data) then Some(env.stringify(rc.data)) else None)))
  {
  }

  /** A transport failure (network error, abort) reaches the caller unchanged when no hook recovers it. */
  lemma FetchFailurePropagates(config: ClientConfig, m: HttpMethods.HttpMethod, url: string, rc: RequestConfig,
                               responseConfig: ResponseConfig, env: Env, e: Failure)
    requires env.fetch(BuildUrl(config.baseURL, url, rc.params, rc.query, env.encode),
                       MergedInit(NewClient(config), m, rc, env.stringify)) == Rejected(e)
    ensures Request(NewClient(config), m, url, rc, responseConfig, env).result == Rejected(e)
  {
  }

  /** A non-ok status reaches a plain client's caller as an `HttpError` with the parsed body. */
  lemma HttpErrorReachesCaller(config: ClientConfig, m: HttpMethods.HttpMethod, url: string, rc: RequestConfig,
                               responseConfig: ResponseConfig, env: Env, response: FetchResponse)
    requires env.fetch(BuildUrl(config.baseURL, url, rc.params, rc.query, env.encode),
                       MergedInit(NewClient(config), m, rc, env.stringify)) == Resolved(response)
    requires !response.ok
    ensures Request(NewClient(config), m, url, rc, responseConfig, env).result ==
      Rejected(HttpError(response, response.json.GetOr(Undefined)))
  {
  }

  /** A single response hook replaces whatever the body parsed to. */
  lemma ResponseHookReplacesBody(config: ClientConfig, i: ResponseInterceptor, m: HttpMethods.HttpMethod, url: string,
                                 rc: RequestConfig, env: Env, response: FetchResponse, v: JsValue)
    requires i.onResponse.Some? && i.onResponse.value(response, NoResponseConfig) == Resolved(JsonBody(v))
    requires response.ok && response.json.Some?
    requires env.fetch(BuildUrl(config.baseURL, url, rc.params, rc.query, env.encode),
                       MergedInit(NewClient(config), m, rc, env.stringify)) == Resolved(response)
    ensures Request(AddResponseInterceptor(NewClient(config), i), m, url, rc, NoResponseConfig, env).result ==
      Resolved(JsonBody(v))
  {
    var c := AddResponseInterceptor(NewClient(config), i);
    var init := MergedInit(NewClient(config), m, rc, env.stringify);
    assert c.responseInterceptors == [i] && c.config == config && c.requestInterceptors == [];
    assert MergedInit(c, m, rc, env.stringify) == init;
    assert RunRequestInterceptors(c.requestInterceptors, init) == Resolved(init);
    assert HandleResponse(response, NoResponseConfig, env.validate) == Resolved(JsonBody(response.json.value));
    assert RunResponseInterceptors([], response, NoResponseConfig, JsonBody(v)) == Resolved(JsonBody(v));
    assert RunResponseInterceptors([i], response, NoResponseConfig, JsonBody(response.json.value)) == Resolved(JsonBody(v));
  }
}

=== FILE: js.dfy ===
/** The slice of JavaScript's value model the core depends on: values, truthiness,
    `String(value)` for integral numbers, and plain objects as ordered key/value
    entries whose order is the insertion order `Object.entries` reports. */
module Js {
  import opened Wrappers
  import Strs

  /** A JavaScript value. Numbers are integral; floating point is not modelled. */
  datatype JsValue =
    | Undefined
    | Null
    | Bool(b: bool)
    | Num(n: int)
    | Str(s: string)
    | Arr(items: seq<JsValue>)
    | Obj(entries: seq<(string, JsValue)>)

  /** A plain object as its own enumerable entries, in insertion order. */
  type Entries<V> = seq<(string, V)>

  /** JavaScript truthiness (`if (v)`, `v || d`, `!v`). */
  predicate Truthy(v: JsValue)
  {
    match v
    case Undefined => false
    case Null => false
    case Bool(b) => b
    case Num(n) => n != 0
    case Str(s) => s != ""
    case Arr(_) => true
    case Obj(_) => true
  }

  /** `v == null`: the loose comparison that matches both `null` and `undefined`. */
  predicate IsNullish(v: JsValue)
  {
    v.Undefined? || v.Null?
  }

  function DigitChar(d: nat): char
    requires d < 10
  {
    ('0' as int + d) as char
  }

  predicate IsDigit(c: char)
  {
    '0' <= c <= '9'
  }

  /** Decimal rendering of a natural number, most significant digit first. */
  function NatToString(n: nat): (s: string)
    ensures |s| > 0
    ensures forall i :: 0 <= i < |s| ==> IsDigit(s[i])
    ensures |s| > 1 ==> s[0] != '0'
    decreases n
  {
    if n < 10 then [DigitChar(n)] else NatToString(n / 10) + [DigitChar(n % 10)]
  }

  /** The value of a string of decimal digits. */
  function ParseDigits(s: string): nat
    requires forall i :: 0 <= i < |s| ==> IsDigit(s[i])
    decreases |s|
  {
    if |s| == 0 then 0
    else
      assert IsDigit(s[|s| - 1]);
      ParseDigits(s[..|s| - 1]) * 10 + (s[|s| - 1] as int - '0' as int)
  }

  /** Reading back the decimal rendering gives the number: distinct numbers render differently. */
  lemma {:induction false} ParseNatToString(n: nat)
    ensures ParseDigits(NatToString(n)) == n
    decreases n
  {
    if n >= 10 {
      var s := NatToString(n);
      assert s[..|s| - 1] == NatToString(n / 10);
      ParseNatToString(n / 10);
    }
  }

  /** `String(n)` for an integral number. */
  function IntToString(n: int): string
  {
    if n < 0 then "-" + NatToString(-n) else NatToString(n)
  }

  /** `String(v)`: arrays join their elements with ',' (null and undefined as empty),
      objects render as "[object Object]". */
  function ToJsString(v: JsValue): string
    decreases v
  {
    match v
    case Undefined => "undefined"
    case Null => "null"
    case Bool(b) => if b then "true" else "false"
    case Num(n) => IntToString(n)
    case Str(s) => s
    case Arr(items) =>
      Strs.Join(seq(|items|, i requires 0 <= i < |items| =>
        if IsNullish(items[i]) then "" else ToJsString(items[i])), ",")
    case Obj(_) => "[object Object]"
  }

  /** The keys of an object in entry order. */
  function Keys<V>(o: Entries<V>): seq<string>
  {
    if |o| == 0 then [] else [o[0].0] + Keys(o[1..])
  }

  /** `o[k]` for an own property: the first entry with key `k`. */
  function Get<V>(o: Entries<V>, k: string): (r: Option<V>)
    ensures r.Some? <==> k in Keys(o)
  {
    if |o| == 0 then None else if o[0].0 == k then Some(o[0].1) else Get(o[1..], k)
  }

  /** No key occurs twice: the representation invariant of a JavaScript object. */
  predicate UniqueKeys<V>(o: Entries<V>)
  {
    |o| == 0 || (o[0].0 !in Keys(o[1..]) && UniqueKeys(o[1..]))
  }

  /** `o[k] = v`: an existing key keeps its position, a new key is appended. */
  function Set<V>(o: Entries<V>, k: string, v: V): (r: Entries<V>)
    ensures Get(r, k) == Some(v)
    ensures forall k' :: k' != k ==> Get(r, k') == Get(o, k')
    ensures Keys(r) == if k in Keys(o) then Keys(o) else Keys(o) + [k]
    ensures UniqueKeys(o) ==> UniqueKeys(r)
  {
    if |o| == 0 then [(k, v)]
    else if o[0].0 == k then [(k, v)] + o[1..]
    else
      var rest := Set(o[1..], k, v);
      assert ([o[0]] + rest)[1..] == rest;
      [o[0]] + rest
  }

  /** `Object.assign(target, source)`: the entries of `source` are set on `target` in order. */
  function Assign<V>(target: Entries<V>, source: Entries<V>): (r: Entries<V>)
    ensures forall k :: k !in Keys(source) ==> Get(r, k) == Get(target, k)
    ensures UniqueKeys(target) ==> UniqueKeys(r)
    decreases |source|
  {
    if |source| == 0 then target
    else Assign(Set(target, source[0].0, source[0].1), source[1..])
  }

  /** With a well-formed source, every key the source carries takes the source's value. */
  lemma {:induction false} AssignOverrides<V>(target: Entries<V>, source: Entries<V>, k: string)
    requires UniqueKeys(source)
    requires k in Keys(source)
    ensures Get(Assign(target, source), k) == Get(source, k)
    decreases |source|
  {
    var t' := Set(target, source[0].0, source[0].1);
    if source[0].0 == k {
      assert k !in Keys(source[1..]);
    } else {
      AssignOverrides(t', source[1..], k);
    }
  }

  /** Setting a fresh key appends the entry. */
  lemma {:induction false} SetAppends<V>(o: Entries<V>, k: string, v: V)
    requires k !in Keys(o)
    ensures Set(o, k, v) == o + [(k, v)]
  {
    if |o| > 0 {
      SetAppends(o[1..], k, v);
      assert o == [o[0]] + o[1..];
    }
  }

  lemma {:induction false} KeysAppend<V>(a: Entries<V>, b: Entries<V>)
    ensures Keys(a + b) == Keys(a) + Keys(b)
  {
    if |a| > 0 {
      assert (a + b)[0] == a[0];
      assert (a + b)[1..] == a[1..] + b;
      KeysAppend(a[1..], b);
    } else {
      assert a + b == b;
    }
  }

  /** `Object.entries(v)` (equally, what `Object.assign` copies from `v`): an object's
      entries, an array's or a string's indexed elements, nothing for other values. */
  function EntriesOf(v: JsValue): Entries<JsValue>
  {
    match v
    case Obj(e) => e
    case Arr(xs) => seq(|xs|, i requires 0 <= i < |xs| => (NatToString(i), xs[i]))
    case Str(s) => seq(|s|, i requires 0 <= i < |s| => (NatToString(i), Str([s[i]])))
    case _ => []
  }

  /** `v.k` (or `v?.k`) for an own property of an object; any other value yields undefined. */
  function GetProp(v: JsValue, k: string): JsValue
  {
    match v
    case Obj(e) => Get(e, k).GetOr(Undefined)
    case _ => Undefined
  }
}

=== FILE: legacy.dfy ===
/** The table-driven dispatcher of `src/api/callApi.ts`: fixed endpoints, an `id` check
    for the parameterised ones, schema parsing of request and response, and a catch block
    that turns anything with a `response` property into an `ApiError`. */
module LegacyDispatch {
  import opened Wrappers
  import opened Js
  import opened Zod
  import opened Transport
  import opened CoreErrors

  /** An `API_ENDPOINTS` entry: a fixed path, or `(id) => `/users/${id}``. */
  datatype Endpoint = Fixed(path: string) | UserById

  /** An `API_CONFIG` entry. */
  datatype LegacyConfig = LegacyConfig(httpMethod: string, schema: Schema, responseSchema: Schema)

  const Endpoints: map<string, Endpoint> := map[
    "getUsers" := Fixed("/users"),
    "getUser" := UserById,
    "createUser" := Fixed("/users"),
    "updateUser" := UserById,
    "deleteUser" := UserById
  ]

  const Configs: map<string, LegacyConfig> := map[
    "getUsers" := LegacyConfig("GET", Schema("empty object"), Schema("getUsers.response")),
    "getUser" := LegacyConfig("GET", Schema("id"), Schema("user")),
    "createUser" := LegacyConfig("POST", Schema("createUser"), Schema("user")),
    "updateUser" := LegacyConfig("PUT", Schema("updateUser"), Schema("user")),
    "deleteUser" := LegacyConfig("DELETE", Schema("id"), Schema("empty object"))
  ]

  /** The message of the catch-all `ApiError`. */
  const UnexpectedMessage: string := "API 호출 중 예상치 못한 오류가 발생했습니다."

  datatype Outcome = Outcome(result: Result<JsValue, CoreError>, sent: Option<Request>)

  /** The endpoint for these parameters (the id rendered as by a template literal). */
  function EndpointUrl(e: Endpoint, params: JsValue): string
  {
    match e
    case Fixed(p) => p
    case UserById => "/users/" + ToJsString(GetProp(params, "id"))
  }

  /** `new Error(message)` for a value read off a thrown object: undefined gives "". */
  function ErrorText(v: JsValue): string
  {
    if v.Undefined? then "" else ToJsString(v)
  }

  /** The catch block for what the transport threw. The four core error classes are rethrown
      unchanged. An object with a `response` property becomes an `ApiError` with its own
      message, the response's status (500 when missing or zero) and the response's data.
      Anything else, a plain `Error` included, becomes the catch-all `ApiError`. */
  function Classify(t: Thrown): (e: CoreError)
    ensures t.Typed? && !t.error.PlainError? ==> e == t.error
    ensures !t.Typed? ==> e.ApiError? && e.statusCode != 0
    ensures t.ObjectThrown? && t.response.HasResponse? ==>
      e.message == ErrorText(t.message) && e.details == t.response.response.data
      && e.statusCode == (if t.response.response.status != 0 then t.response.response.status else 500)
    ensures t.ObjectThrown? && t.response.ResponseUndefined? ==> e == ApiError(ErrorText(t.message), 500, Undefined)
    ensures t.Primitive? || (t.ObjectThrown? && t.response.NoResponseKey?) || (t.Typed? && t.error.PlainError?) ==>
      e == ApiError(UnexpectedMessage, 500, Undefined)
  {
    if t.Typed? && !t.error.PlainError? then t.error
    else if t.ObjectThrown? && t.response.HasResponse? then
      var r := t.response.response;
      ApiError(ErrorText(t.message), if r.status != 0 then r.status else 500, r.data)
    else if t.ObjectThrown? && t.response.ResponseUndefined? then ApiError(ErrorText(t.message), 500, Undefined)
    else ApiError(UnexpectedMessage, 500, Undefined)
  }

  /** The rejection the shipped transport's response interceptor produces for a failed HTTP
      call: the catch-all text, the response's status (500 when missing or zero) and the
      `message` of the response data as details. */
  function Intercepted(response: ResponseField): (t: Thrown)
    ensures t.Typed? && t.error.ApiError? && t.error.message == UnexpectedMessage
    ensures response.HasResponse? && response.response.status != 0 ==> t.error.statusCode == response.response.status
    ensures !(response.HasResponse? && response.response.status != 0) ==> t.error.statusCode == 500
    ensures response.HasResponse? ==> t.error.details == GetProp(response.response.data, "message")
    ensures !response.HasResponse? ==> t.error.details == Undefined
  {
    var status := if response.HasResponse? && response.response.status != 0 then response.response.status else 500;
    Typed(ApiError(UnexpectedMessage, status, if response.HasResponse? then GetProp(response.response.data, "message") else Undefined))
  }

  /** `callApi(apiKey, params)`. An unknown key fails on the missing config entry with a
      `TypeError`, which the catch block turns into the catch-all `ApiError`. A request goes
      out only for a known key and, on a parameterised endpoint, a truthy `id`; the transport's
      answer is then classified or parsed by the response schema. */
  function CallApi(key: string, params: JsValue, validate: Validator, client: Client): (o: Outcome)
    ensures key !in Configs ==> o == Outcome(Err(ApiError(UnexpectedMessage, 500, Undefined)), None)
    ensures o.sent.None? ==> o.result.Err?
    ensures o.sent.Some? ==>
      key in Configs && key in Endpoints
      && (Endpoints[key].UserById? ==> Truthy(GetProp(params, "id")))
      && o.sent.value.httpMethod == Configs[key].httpMethod
      && o.sent.value.url == EndpointUrl(Endpoints[key], params)
    ensures o.sent.Some? && Truthy(params) ==> validate(Configs[key].schema, params).Valid?
    ensures o.sent.Some? && client(o.sent.value).Threw? ==> o.result == Err(Classify(client(o.sent.value).thrown))
    ensures o.sent.Some? && client(o.sent.value).Responded? ==>
      var data := client(o.sent.value).response.data;
      match validate(Configs[key].responseSchema, data)
      case Valid(v) => o.result == Ok(v)
      case Invalid(z) => o.result == Err(ResponseValidationError(key, z, data))
  {
    if key !in Configs || key !in Endpoints then Outcome(Err(ApiError(UnexpectedMessage, 500, Undefined)), None)
    else
      var config := Configs[key];
      var endpoint := Endpoints[key];
      if endpoint.UserById? && !Truthy(GetProp(params, "id")) then Outcome(Err(MissingPathParamError("id")), None)
      else if Truthy(params) && validate(config.schema, params).Invalid? then
        Outcome(Err(RequestValidationError(validate(config.schema, params).error)), None)
      else
        var isGet := config.httpMethod == "GET";
        var req := Request(config.httpMethod, EndpointUrl(endpoint, params),
          if isGet then Undefined else params,
          if isGet then params else Undefined);
        match client(req)
        case Threw(t) => Outcome(Err(Classify(t)), Some(req))
        case Responded(resp) =>
          match validate(config.responseSchema, resp.data)
          case Valid(v) => Outcome(Ok(v), Some(req))
          case Invalid(z) => Outcome(Err(ResponseValidationError(key, z, resp.data)), Some(req))
  }

  /** The two tables describe the same APIs. */
  lemma TablesAgree()
    ensures forall k :: k in Configs <==> k in Endpoints
  {
  }

  /** An unknown key yields the catch-all error and sends nothing. */
  lemma UnknownKey(key: string, params: JsValue, validate: Validator, client: Client)
    requires key !in Configs
    ensures CallApi(key, params, validate, client) == Outcome(Err(ApiError(UnexpectedMessage, 500, Undefined)), None)
  {
  }

  /** A parameterised endpoint without a truthy `id` (absent, 0, "", …) fails with
      `MissingPathParamError('id')` before validation and sends nothing. */
  lemma FalsyIdRejected(key: string, params: JsValue, validate: Validator, client: Client)
    requires key in Endpoints && Endpoints[key] == UserById
    requires !Truthy(GetProp(params, "id"))
    ensures var o := CallApi(key, params, validate, client);
      o.sent.None? && o.result == Err(MissingPathParamError("id"))
      && Message(o.result.error) == "필수 경로 파라미터가 누락되었습니다: id"
  {
  }

  /** Truthy parameters that the request schema rejects fail with `RequestValidationError`
      carrying the schema's error, and nothing is sent. */
  lemma RequestRejected(key: string, params: JsValue, validate: Validator, client: Client)
    requires key in Configs
    requires Endpoints[key].UserById? ==> Truthy(GetProp(params, "id"))
    requires Truthy(params) && validate(Configs[key].schema, params).Invalid?
    ensures var o := CallApi(key, params, validate, client);
      o.sent.None? && o.result == Err(RequestValidationError(validate(Configs[key].schema, params).error))
  {
  }

  /** Falsy parameters are never validated: a fixed endpoint is then always called. */
  lemma FalsyParamsSkipValidation(key: string, params: JsValue, validate: Validator, client: Client)
    requires key in Endpoints && Endpoints[key].Fixed?
    requires !Truthy(params)
    ensures CallApi(key, params, validate, client).sent
      == Some(Request(Configs[key].httpMethod, Endpoints[key].path, if Configs[key].httpMethod == "GET" then Undefined else params,
          if Configs[key].httpMethod == "GET" then params else Undefined))
  {
  }

  /** Whatever is sent carries the caller's parameters unchanged: as the query for GET and
      as the body otherwise; the id endpoints embed the id in the path. */
  lemma SentRequest(key: string, params: JsValue, validate: Validator, client: Client)
    requires CallApi(key, params, validate, client).sent.Some?
    ensures var req := CallApi(key, params, validate, client).sent.value;
      key in Configs && key in Endpoints
      && req.httpMethod == Configs[key].httpMethod
      && (req.httpMethod == "GET" ==> req.params == params && req.data == Undefined)
      && (req.httpMethod != "GET" ==> req.data == params && req.params == Undefined)
      && (Endpoints[key].UserById? ==> Truthy(GetProp(params, "id")) && req.url == "/users/" + ToJsString(GetProp(params, "id")))
  {
  }

  /** After sending: the parsed response, or a `ResponseValidationError` with the raw data,
      or the classified transport error. */
  lemma AfterSending(key: string, params: JsValue, validate: Validator, client: Client)
    requires CallApi(key, params, validate, client).sent.Some?
    ensures var o := CallApi(key, params, validate, client);
      match client(o.sent.value)
      case Threw(t) => o.result == Err(Classify(t))
      case Responded(resp) =>
        match validate(Configs[key].responseSchema, resp.data)
        case Valid(v) => o.result == Ok(v)
        case Invalid(z) => o.result == Err(ResponseValidationError(key, z, resp.data))
  {
  }

  /** The path-parameter test: `getUser` with `{id: 1}` sends a GET to `/users/1` with the
      parameters as the query. */
  lemma GetUserExample(validate: Validator, client: Client)
    requires validate(Schema("id"), Obj([("id", Num(1))])).Valid?
    ensures CallApi("getUser", Obj([("id", Num(1))]), validate, client).sent
      == Some(Request("GET", "/users/1", Undefined, Obj([("id", Num(1))])))
  {
    assert GetProp(Obj([("id", Num(1))]), "id") == Num(1);
    assert ToJsString(Num(1)) == "1";
    assert "/users/" + "1" == "/users/1";
  }

  /** The HTTP error test: a plain object with a 404 response becomes an `ApiError` with
      status 404. */
  lemma NotFoundExample()
    ensures Classify(ObjectThrown(false, false, Str("Request failed with status code 404"),
        HasResponse(Response(404, Obj([("message", Str("Not Found"))]))))).statusCode == 404
  {
  }

  /** A core error the transport rejects with reaches the caller unchanged. */
  lemma TypedRejectionPassesThrough(key: string, params: JsValue, validate: Validator, client: Client)
    requires CallApi(key, params, validate, client).sent.Some?
    requires var c := client(CallApi(key, params, validate, client).sent.value);
      c.Threw? && c.thrown.Typed? && !c.thrown.error.PlainError?
    ensures CallApi(key, params, validate, client).result
      == Err(client(CallApi(key, params, validate, client).sent.value).thrown.error)
  {
    AfterSending(key, params, validate, client);
  }

  /** Through the shipped transport, a failed call reaches the caller as the interceptor's
      `ApiError`, so a 404 keeps its status. */
  lemma InterceptedNotFound()
    ensures Classify(Intercepted(HasResponse(Response(404, Obj([("message", Str("Not Found"))])))))
      == ApiError(UnexpectedMessage, 404, Str("Not Found"))
  {
    assert GetProp(Obj([("message", Str("Not Found"))]), "message") == Str("Not Found");
  }
}

=== FILE: methodchain.dfy ===
/** The tagged-state URL chain (`src/builders/url/MethodChainImpl.ts`): select a resource, then
    a method, then parameters and query, then build. A step that throws is `Err`; a step that
    succeeds is `Ok(state)`, which is the state of the chain it returns and equally the
    receiver's own state afterwards, since the receiver updates its state before copying it. */
module MethodChain {
  import opened Wrappers
  import opened Js
  import Strs
  import HttpMethods
  import UrlValidators
  import UrlBuilder
  import PathParams

  type Resource = UrlValidators.ResourceDefinition

  /** `ResourceMap`: resource names to definitions, in entry order. */
  type ResourceMap = Entries<Resource>

  /** `ChainState`: every part is optional until its step has run. */
  datatype ChainState = ChainState(
    resource: Option<string>,
    httpMethod: Option<HttpMethods.HttpMethod>,
    params: Option<Entries<JsValue>>,
    query: Option<Entries<JsValue>>)

  /** What a step throws: the message of an `Error`, or the `TypeError` of reading a field of
      the undefined definition of a resource name the map does not hold. */
  datatype ChainError = Thrown(message: string) | UndefinedResource

  const Fresh: ChainState := ChainState(None, None, None, None)

  /** `this.state.resource` is truthy: set, and not the empty name. */
  predicate HasResource(s: ChainState)
  {
    s.resource.Some? && s.resource.value != ""
  }

  /** Both resource and method are selected. */
  predicate Ready(s: ChainState)
  {
    HasResource(s) && s.httpMethod.Some?
  }

  /** The selected resource names an entry of the map. Every step keeps this. */
  predicate Consistent(s: ChainState, resources: ResourceMap)
  {
    s.resource.Some? ==> s.resource.value in Keys(resources)
  }

  function Definition(s: ChainState, resources: ResourceMap): Option<Resource>
    requires s.resource.Some?
  {
    Get(resources, s.resource.value)
  }

  // ---------------------------------------------------------------- steps

  /** `resource(name)`. */
  function SelectResource(s: ChainState, resources: ResourceMap, name: string): (r: Result<ChainState, ChainError>)
    ensures r.Ok? <==> name in Keys(resources)
    ensures r.Ok? ==> r.value == s.(resource := Some(name))
    ensures r.Err? ==> r.error == Thrown("Resource \"" + name + "\" not found")
  {
    if Get(resources, name).None? then Err(Thrown("Resource \"" + name + "\" not found"))
    else Ok(s.(resource := Some(name)))
  }

  /** `get()`, `post()`, `put()`, `delete()` and `patch()`. */
  function SelectMethod(s: ChainState, resources: ResourceMap, m: HttpMethods.HttpMethod): (r: Result<ChainState, ChainError>)
    ensures r.Ok? <==> HasResource(s) && Definition(s, resources).Some? &&
                       HttpMethods.Name(m) in Definition(s, resources).value.methods
    ensures r.Ok? ==> r.value == s.(httpMethod := Some(m))
    ensures !HasResource(s) ==> r == Err(Thrown("Resource must be selected before setting HTTP method"))
  {
    if !HasResource(s) then Err(Thrown("Resource must be selected before setting HTTP method"))
    else
      HttpMethods.ParseName(m);
      match Definition(s, resources)
      case None => Err(UndefinedResource)
      case Some(def) =>
        match UrlValidators.ValidateMethod(HttpMethods.Name(m), def)
        case Rejected(msg) => Err(Thrown(msg))
        case Accepted => Ok(s.(httpMethod := Some(m)))
  }

  /** `withParams(params)`: the parameters replace any set before. */
  function WithParams(s: ChainState, resources: ResourceMap, params: Entries<JsValue>): (r: Result<ChainState, ChainError>)
    ensures r.Ok? <==> Ready(s) && Definition(s, resources).Some? &&
                       UrlValidators.ValidateParams(params, Definition(s, resources).value).Accepted?
    ensures r.Ok? ==> r.value == s.(params := Some(params))
    ensures !Ready(s) ==> r == Err(Thrown("Resource and HTTP method must be selected before setting parameters"))
  {
    if !Ready(s) then Err(Thrown("Resource and HTTP method must be selected before setting parameters"))
    else
      match Definition(s, resources)
      case None => Err(UndefinedResource)
      case Some(def) =>
        match UrlValidators.ValidateParams(params, def)
        case Rejected(msg) => Err(Thrown(msg))
        case Accepted => Ok(s.(params := Some(params)))
  }

  /** `withQuery(query)`: only the new keys are validated, then they are spread over the
      accumulated query. */
  function WithQuery(s: ChainState, resources: ResourceMap, query: Entries<JsValue>): (r: Result<ChainState, ChainError>)
    ensures r.Ok? <==> Ready(s) && Definition(s, resources).Some? &&
                       UrlValidators.ValidateQuery(query, Definition(s, resources).value).Accepted?
    ensures r.Ok? ==> r.value.resource == s.resource && r.value.httpMethod == s.httpMethod &&
                      r.value.params == s.params && r.value.query.Some?
    ensures r.Ok? ==> forall k :: k !in Keys(query) ==> Get(r.value.query.value, k) == Get(s.query.GetOr([]), k)
    ensures !Ready(s) ==> r == Err(Thrown("Resource and HTTP method must be selected before setting query parameters"))
  {
    if !Ready(s) then Err(Thrown("Resource and HTTP method must be selected before setting query parameters"))
    else
      match Definition(s, resources)
      case None => Err(UndefinedResource)
      case Some(def) =>
        match UrlValidators.ValidateQuery(query, def)
        case Rejected(msg) => Err(Thrown(msg))
        case Accepted => Ok(s.(query := Some(Assign(s.query.GetOr([]), query))))
  }

  // ---------------------------------------------------------------- building

  /** `path.split('/').filter(Boolean)`: the non-empty pieces between slashes. */
  function NonEmpty(parts: seq<string>): (r: seq<string>)
    ensures forall i :: 0 <= i < |r| ==> r[i] != "" && r[i] in parts
    ensures forall p :: p in parts && p != "" ==> p in r
  {
    if |parts| == 0 then []
    else if parts[0] == "" then NonEmpty(parts[1..])
    else [parts[0]] + NonEmpty(parts[1..])
  }

  function Segments(path: string): seq<JsValue>
  {
    var parts := NonEmpty(Strs.Split(path, '/'));
    seq(|parts|, i requires 0 <= i < |parts| => Str(parts[i]))
  }

  /** The shared `UrlBuilder` as `build` leaves it before calling its `build`: reset, then the
      path's segments, then the parameters and the query, when set. */
  function Prepared(s: ChainState, def: Resource, b: UrlBuilder.Builder): (p: UrlBuilder.Builder)
    ensures p.config == b.config
    ensures p.segments == Segments(def.path)
    ensures s.params.None? ==> p.params == []
    ensures s.query.None? ==> p.query == []
  {
    var b1 := UrlBuilder.AddSegments(UrlBuilder.Reset(b), Segments(def.path));
    var b2 := if s.params.Some? then UrlBuilder.SetParams(b1, s.params.value) else b1;
    if s.query.Some? then UrlBuilder.Queries(b2, s.query.value) else b2
  }

  /** The final check: all three validators, but only when parameters or a query were set. */
  function FinalCheck(s: ChainState, def: Resource): UrlValidators.Verdict
    requires s.httpMethod.Some?
  {
    if s.params.Some? || s.query.Some? then
      UrlValidators.ValidateAll(HttpMethods.Name(s.httpMethod.value), s.params.GetOr([]), s.query.GetOr([]), def)
    else UrlValidators.Accepted
  }

  /** `build()`, with the builder's default options. */
  function Build(s: ChainState, resources: ResourceMap, b: UrlBuilder.Builder, encode: string -> string): (r: Result<string, ChainError>)
    ensures r.Ok? <==> Ready(s) && Definition(s, resources).Some? &&
                       FinalCheck(s, Definition(s, resources).value).Accepted?
    ensures !Ready(s) ==> r == Err(Thrown("Resource and HTTP method must be selected before building URL"))
    ensures r.Ok? ==> r.value == UrlBuilder.Build(Prepared(s, Definition(s, resources).value, b), UrlBuilder.Defaults, encode)
  {
    if !Ready(s) then Err(Thrown("Resource and HTTP method must be selected before building URL"))
    else
      match Definition(s, resources)
      case None => Err(UndefinedResource)
      case Some(def) =>
        match FinalCheck(s, def)
        case Rejected(msg) => Err(Thrown(msg))
        case Accepted => Ok(UrlBuilder.Build(Prepared(s, def, b), UrlBuilder.Defaults, encode))
  }

  // ---------------------------------------------------------------- properties

  /** A state reached from a fresh chain never names a resource the map lacks, so the
      `TypeError` path is dead. */
  lemma StepsKeepConsistent(s: ChainState, resources: ResourceMap, name: string, m: HttpMethods.HttpMethod,
                            q: Entries<JsValue>)
    requires Consistent(s, resources)
    ensures Consistent(Fresh, resources)
    ensures SelectResource(s, resources, name).Ok? ==> Consistent(SelectResource(s, resources, name).value, resources)
    ensures SelectMethod(s, resources, m).Ok? ==> Consistent(SelectMethod(s, resources, m).value, resources)
    ensures WithParams(s, resources, q).Ok? ==> Consistent(WithParams(s, resources, q).value, resources)
    ensures WithQuery(s, resources, q).Ok? ==> Consistent(WithQuery(s, resources, q).value, resources)
  {
  }

  /** From a consistent state no step reaches the `TypeError` of a missing definition. */
  lemma ConsistentNeverUndefined(s: ChainState, resources: ResourceMap, name: string, m: HttpMethods.HttpMethod,
                                 q: Entries<JsValue>, b: UrlBuilder.Builder, encode: string -> string)
    requires Consistent(s, resources)
    ensures SelectMethod(s, resources, m) != Err(UndefinedResource)
    ensures WithParams(s, resources, q) != Err(UndefinedResource)
    ensures WithQuery(s, resources, q) != Err(UndefinedResource)
    ensures Build(s, resources, b, encode) != Err(UndefinedResource)
  {
    if s.resource.Some? {
      ConsistentDefined(s, resources);
    }
    QueryNeverUndefined(s, resources, q);
    BuildNeverUndefined(s, resources, b, encode);
  }

  /** A consistent state's resource has a definition. */
  lemma ConsistentDefined(s: ChainState, resources: ResourceMap)
    requires Consistent(s, resources) && s.resource.Some?
    ensures Definition(s, resources).Some?
  {
  }

  lemma QueryNeverUndefined(s: ChainState, resources: ResourceMap, q: Entries<JsValue>)
    requires Consistent(s, resources)
    ensures WithQuery(s, resources, q) != Err(UndefinedResource)
  {
    if Ready(s) {
      ConsistentDefined(s, resources);
    }
  }

  lemma BuildNeverUndefined(s: ChainState, resources: ResourceMap, b: UrlBuilder.Builder, encode: string -> string)
    requires Consistent(s, resources)
    ensures Build(s, resources, b, encode) != Err(UndefinedResource)
  {
    if Ready(s) {
      ConsistentDefined(s, resources);
    }
  }

  /** Later `withQuery` calls override earlier values key by key. */
  lemma LaterQueryWins(s: ChainState, resources: ResourceMap, query: Entries<JsValue>, k: string)
    requires UniqueKeys(query) && k in Keys(query)
    requires WithQuery(s, resources, query).Ok?
    ensures Get(WithQuery(s, resources, query).value.query.value, k) == Get(query, k)
  {
    AssignOverrides(s.query.GetOr([]), query, k);
  }

  /** A build starts from a reset builder: whatever an earlier build left behind in it, only
      its configuration matters. */
  lemma BuildForgetsEarlierBuilds(s: ChainState, resources: ResourceMap, b1: UrlBuilder.Builder,
                                  b2: UrlBuilder.Builder, encode: string -> string)
    requires b1.config == b2.config
    ensures Build(s, resources, b1, encode) == Build(s, resources, b2, encode)
  {
    if Ready(s) && Definition(s, resources).Some? {
      var def := Definition(s, resources).value;
      assert Prepared(s, def, b1) == Prepared(s, def, b2);
    }
  }

  /** Without parameters or query nothing is validated at build time, so a path with a
      placeholder builds, placeholder and all. */
  lemma UncheckedWithoutParams(s: ChainState, resources: ResourceMap, b: UrlBuilder.Builder, encode: string -> string)
    requires Ready(s) && Definition(s, resources).Some?
    requires s.params.None? && s.query.None?
    ensures Build(s, resources, b, encode).Ok?
  {
  }

  // ---------------------------------------------------------------- the documented chains

  /** Three resources: `/users`, `/users/:id` and `/users/:userId/posts/:postId?`. */
  const Sample: ResourceMap := [
    ("users", UrlValidators.ResourceDefinition("/users", ["GET", "POST"], None, Some(["fields", "include"]))),
    ("user", UrlValidators.ResourceDefinition("/users/:id", ["GET", "PUT", "DELETE"], Some(["id"]), Some(["fields"]))),
    ("userPosts", UrlValidators.ResourceDefinition("/users/:userId/posts/:postId?", ["GET"],
                                                   Some(["userId", "postId"]), Some(["include"])))]

  /** The builder of the preset `https://api.example.com`, version 1, prefix `api`. */
  function SampleBuilder(): UrlBuilder.Builder
  {
    UrlBuilder.New(UrlBuilder.PresetConfig("https://api.example.com", Str("1"), Some("api")))
  }

  lemma SampleRejections()
    ensures SelectResource(Fresh, Sample, "invalid").Err?
    ensures SelectMethod(Fresh.(resource := Some("users")), Sample, HttpMethods.PUT).Err?
    ensures SelectMethod(Fresh.(resource := Some("users")), Sample, HttpMethods.DELETE).Err?
    ensures SelectMethod(Fresh, Sample, HttpMethods.GET).Err?
    ensures WithParams(Fresh.(resource := Some("user")), Sample, [("id", Str("123"))]).Err?
    ensures WithQuery(Fresh.(resource := Some("users")), Sample, [("fields", Str("name"))]).Err?
    ensures forall b, encode :: Build(Fresh, Sample, b, encode).Err?
    ensures forall b, encode :: Build(Fresh.(resource := Some("users")), Sample, b, encode).Err?
  {
    SampleSelectRejections();
    SampleOrderRejections();
  }

  /** Selection fails for an unknown resource, a method `users` does not allow, and a method
      before any resource. */
  lemma SampleSelectRejections()
    ensures SelectResource(Fresh, Sample, "invalid").Err?
    ensures SelectMethod(Fresh.(resource := Some("users")), Sample, HttpMethods.PUT).Err?
    ensures SelectMethod(Fresh.(resource := Some("users")), Sample, HttpMethods.DELETE).Err?
    ensures SelectMethod(Fresh, Sample, HttpMethods.GET).Err?
  {
  }

  /** Parameters, query and build fail before a method is selected. */
  lemma SampleOrderRejections()
    ensures WithParams(Fresh.(resource := Some("user")), Sample, [("id", Str("123"))]).Err?
    ensures WithQuery(Fresh.(resource := Some("users")), Sample, [("fields", Str("name"))]).Err?
    ensures forall b, encode :: Build(Fresh, Sample, b, encode).Err?
    ensures forall b, encode :: Build(Fresh.(resource := Some("users")), Sample, b, encode).Err?
  {
  }

  /** `/users` split on '/' leaves the one segment `users`. */
  lemma UsersSegments()
    ensures Segments("/users") == [Str("users")]
  {
    Strs.SplitFirst("", "users", '/');
    assert "" + ['/'] + "users" == "/users";
    assert Strs.Split("users", '/') == ["users"];
    assert NonEmpty(["", "users"]) == ["users"];
  }

  lemma SampleHead()
    ensures UrlBuilder.Head("https://api.example.com", Str("1"), "api", [Str("users")]) ==
            "https://api.example.com/v1/api/users"
  {
    assert ToJsString(Str("1")) == "1";
    assert UrlBuilder.JoinSegments([Str("users")]) == "users";
  }

  /** The `users` resource and its two query steps. */
  lemma UsersSteps()
    ensures SelectResource(Fresh, Sample, "users") == Ok(Fresh.(resource := Some("users")))
    ensures SelectMethod(Fresh.(resource := Some("users")), Sample, HttpMethods.GET) ==
            Ok(ChainState(Some("users"), Some(HttpMethods.GET), None, None))
  {
    assert Get(Sample, "users") == Some(Sample[0].1);
  }

  lemma UsersFirstQuery()
    ensures WithQuery(ChainState(Some("users"), Some(HttpMethods.GET), None, None), Sample, [("fields", Str("name"))]) ==
            Ok(ChainState(Some("users"), Some(HttpMethods.GET), None, Some([("fields", Str("name"))])))
  {
    UsersWithQuery(None, "fields", "name");
    assert [("fields", Str("name"))][1..] == [];
    assert Set([], "fields", Str("name")) == [("fields", Str("name"))];
  }

  /** `withQuery` on `users` with GET selected, for one declared key with a string value. */
  lemma UsersWithQuery(q0: Option<Entries<JsValue>>, k: string, v: string)
    requires k == "fields" || k == "include"
    ensures WithQuery(ChainState(Some("users"), Some(HttpMethods.GET), None, q0), Sample, [(k, Str(v))]) ==
            Ok(ChainState(Some("users"), Some(HttpMethods.GET), None, Some(Assign(q0.GetOr([]), [(k, Str(v))]))))
  {
    var s := ChainState(Some("users"), Some(HttpMethods.GET), None, q0);
    assert Ready(s);
    assert Definition(s, Sample) == Some(Sample[0].1) by {
      assert Get(Sample, "users") == Some(Sample[0].1);
    }
    UsersQueryAccepted(k, v);
    assert WithQuery(s, Sample, [(k, Str(v))]) == Ok(s.(query := Some(Assign(q0.GetOr([]), [(k, Str(v))]))));
  }

  /** One declared key of `users` with a string value passes the query check. */
  lemma UsersQueryAccepted(k: string, v: string)
    requires k == "fields" || k == "include"
    ensures UrlValidators.ValidateQuery([(k, Str(v))], Sample[0].1) == UrlValidators.Accepted
  {
    assert Keys([(k, Str(v))]) == [k];
    assert UrlValidators.Outside([k], ["fields", "include"]) == [];
    assert [(k, Str(v))][1..] == [];
    assert UrlValidators.BadQueryValue([(k, Str(v))]) == None;
  }

  lemma UsersSecondQuery()
    ensures WithQuery(ChainState(Some("users"), Some(HttpMethods.GET), None, Some([("fields", Str("name"))])),
                      Sample, [("include", Str("profile"))]) ==
            Ok(ChainState(Some("users"), Some(HttpMethods.GET), None,
                          Some([("fields", Str("name")), ("include", Str("profile"))])))
  {
    UsersWithQuery(Some([("fields", Str("name"))]), "include", "profile");
    UsersSetInclude();
    assert [("include", Str("profile"))][1..] == [];
  }

  /** The accumulated query passes the final check. */
  lemma UsersFinalCheck(s4: ChainState)
    requires s4 == ChainState(Some("users"), Some(HttpMethods.GET), None,
                              Some([("fields", Str("name")), ("include", Str("profile"))]))
    ensures FinalCheck(s4, Sample[0].1).Accepted?
  {
    var users := Sample[0].1;
    assert Keys(s4.query.value) == ["fields", "include"];
    PathParams.TemplateNames(PathParams.LetterAlnum);
    assert UrlValidators.RequiredParams("/users") == [];
    assert UrlValidators.ValidateMethod("GET", users).Accepted?;
    assert UrlValidators.ValidateParams([], users).Accepted?;
    assert UrlValidators.Outside(["fields", "include"], ["fields", "include"]) == [];
    assert UrlValidators.ValidateQuery(s4.query.value, users).Accepted?;
  }

  /** The chain builds `https://api.example.com/v1/api/users?fields=name&include=profile`. */
  lemma UsersChainExample(encode: string -> string)
    requires forall w :: w in ["fields", "name", "include", "profile"] ==> encode(w) == w
    ensures var s4 := ChainState(Some("users"), Some(HttpMethods.GET), None,
                                 Some([("fields", Str("name")), ("include", Str("profile"))]));
            Build(s4, Sample, SampleBuilder(), encode) ==
            Ok("https://api.example.com/v1/api/users?fields=name&include=profile")
  {
    var s4 := ChainState(Some("users"), Some(HttpMethods.GET), None,
                         Some([("fields", Str("name")), ("include", Str("profile"))]));
    var p := Prepared(s4, Sample[0].1, SampleBuilder());
    UsersBuildsPrepared(s4, encode);
    UsersPrepared(s4, p);
    QueryExample(encode);
    UsersUrl(s4.query.value, encode);
  }

  lemma UsersBuildsPrepared(s4: ChainState, encode: string -> string)
    requires s4 == ChainState(Some("users"), Some(HttpMethods.GET), None,
                              Some([("fields", Str("name")), ("include", Str("profile"))]))
    ensures Build(s4, Sample, SampleBuilder(), encode) ==
            Ok(UrlBuilder.Build(Prepared(s4, Sample[0].1, SampleBuilder()), UrlBuilder.Defaults, encode))
  {
    assert Definition(s4, Sample) == Some(Sample[0].1);
    UsersFinalCheck(s4);
    assert Ready(s4);
    assert Build(s4, Sample, SampleBuilder(), encode).Ok?;
  }

  lemma UsersUrl(q: Entries<JsValue>, encode: string -> string)
    requires UrlBuilder.QueryString(q, true, encode) == "fields=name&include=profile"
    ensures UrlBuilder.Build(UrlBuilder.Builder([Str("users")], [], q, SampleConfig), UrlBuilder.Defaults, encode) ==
            "https://api.example.com/v1/api/users?fields=name&include=profile"
  {
    var b := UrlBuilder.Builder([Str("users")], [], q, SampleConfig);
    var head := "https://api.example.com/v1/api/users";
    SampleHead();
    assert UrlBuilder.ApplyParams(head, [], true, encode) == head;
    assert Strs.TrimTrailing(head, '?') == head by {
      assert !Strs.EndsWith(head, '?');
    }
    assert UrlBuilder.Build(b, UrlBuilder.Defaults, encode) == head + "?" + "fields=name&include=profile";
    UsersUrlText();
  }

  lemma UsersUrlText()
    ensures "https://api.example.com/v1/api/users" + "?" + "fields=name&include=profile" ==
            "https://api.example.com/v1/api/users?fields=name&include=profile"
  {
  }

  lemma UsersPrepared(s4: ChainState, p: UrlBuilder.Builder)
    requires s4 == ChainState(Some("users"), Some(HttpMethods.GET), None,
                              Some([("fields", Str("name")), ("include", Str("profile"))]))
    requires p == Prepared(s4, Sample[0].1, SampleBuilder())
    ensures p == UrlBuilder.Builder([Str("users")], [], s4.query.value, SampleConfig)
  {
    var b1 := UrlBuilder.Builder([Str("users")], [], [], SampleConfig);
    UsersBase();
    assert Sample[0].1.path == "/users";
    assert p == UrlBuilder.Queries(b1, s4.query.value);
    UsersQueryAssign();
  }

  /** Resetting the sample builder and adding the `/users` segments. */
  lemma UsersBase()
    ensures UrlBuilder.AddSegments(UrlBuilder.Reset(SampleBuilder()), Segments("/users")) ==
            UrlBuilder.Builder([Str("users")], [], [], SampleConfig)
  {
    UsersSegments();
    SampleBuilderConfig();
  }

  /** Assigning the two-key query onto an empty one copies it. */
  lemma UsersQueryAssign()
    ensures Assign([], [("fields", Str("name")), ("include", Str("profile"))]) ==
            [("fields", Str("name")), ("include", Str("profile"))]
  {
    var q := [("fields", Str("name")), ("include", Str("profile"))];
    assert q[1..] == [("include", Str("profile"))];
    assert [("include", Str("profile"))][1..] == [];
    assert Set([], "fields", Str("name")) == [("fields", Str("name"))];
    UsersSetInclude();
  }

  lemma UsersSetInclude()
    ensures Set([("fields", Str("name"))], "include", Str("profile")) ==
            [("fields", Str("name")), ("include", Str("profile"))]
  {
    assert [("fields", Str("name"))][1..] == [];
    assert Set([], "include", Str("profile")) == [("include", Str("profile"))];
  }

  const SampleConfig: UrlBuilder.Config := UrlBuilder.Config("https://api.example.com", Str("1"), "api")

  lemma SampleBuilderConfig()
    ensures SampleBuilder().config == SampleConfig
  {
    assert !Strs.EndsWith("https://api.example.com", '/');
  }

  lemma QueryExample(encode: string -> string)
    requires forall w :: w in ["fields", "name", "include", "profile"] ==> encode(w) == w
    ensures UrlBuilder.QueryString([("fields", Str("name")), ("include", Str("profile"))], true, encode) ==
            "fields=name&include=profile"
  {
    var q := [("fields", Str("name")), ("include", Str("profile"))];
    QueryExampleParts(encode);
    assert q[1..] == [("include", Str("profile"))];
    assert [("include", Str("profile"))][1..] == [];
    assert UrlBuilder.QueryParts(q, true, encode) == ["fields=name", "include=profile"];
    assert ["fields=name", "include=profile"][1..] == ["include=profile"];
    assert Strs.Join(["fields=name", "include=profile"], "&") == "fields=name" + "&" + "include=profile";
  }

  /** The two entries render as `fields=name` and `include=profile`. */
  lemma QueryExampleParts(encode: string -> string)
    requires forall w :: w in ["fields", "name", "include", "profile"] ==> encode(w) == w
    ensures UrlBuilder.Part("fields", Str("name"), true, encode) == "fields=name"
    ensures UrlBuilder.Part("include", Str("profile"), true, encode) == "include=profile"
  {
    assert encode("fields") == "fields" && encode("name") == "name";
    assert encode("include") == "include" && encode("profile") == "profile";
  }
}

=== FILE: pagination.dfy ===
/** Mock pagination arithmetic (`src/mocks/utils/generateMockData.ts`). The schema-driven mock
    generator is random and foreign, so it is a parameter `gen` giving the item at each
    position; numbers are whole. */
module MockData {
  import opened Wrappers

  const DefaultCount := 3
  const DefaultPage := 1
  const DefaultPerPage := 10
  const DefaultTotalItems := 100

  datatype Pagination = Pagination(page: int, perPage: int, totalItems: int, totalPages: int)

  datatype Page<T> = Page(items: seq<T>, pagination: Pagination)

  function Min(a: int, b: int): int { if a <= b then a else b }
  function Max(a: int, b: int): int { if a >= b then a else b }

  /** `Math.ceil(a / b)` for a positive divisor: the least `q` with `a <= q * b`. */
  function CeilDiv(a: int, b: int): (q: int)
    requires b > 0
    ensures (q - 1) * b < a <= q * b
  {
    -((-a) / b)
  }

  /** `generateMockArray(schema, count)`: `Array.from({ length: count }, ...)`, where a negative
      length counts as zero. */
  function MockArray<T>(gen: nat -> T, count: Option<int>): (xs: seq<T>)
    ensures |xs| == Max(0, count.GetOr(DefaultCount))
    ensures forall i :: 0 <= i < |xs| ==> xs[i] == gen(i)
  {
    var n := Max(0, count.GetOr(DefaultCount));
    seq(n, i requires 0 <= i < n => gen(i))
  }

  /** The reported page: the request clamped below by 1 and then above by the page count. */
  function CurrentPage(page: int, totalPages: int): (p: int)
    ensures p <= totalPages
    ensures totalPages >= 1 ==> 1 <= p
    ensures 1 <= page <= totalPages ==> p == page
  {
    Min(Max(1, page), totalPages)
  }

  /** `itemsToGenerate`: what is left after the earlier pages, at most a page. */
  function ItemsToGenerate(currentPage: int, perPage: int, totalItems: int): (n: int)
    ensures n <= perPage
    ensures n <= totalItems - (currentPage - 1) * perPage
    ensures n == perPage || n == totalItems - (currentPage - 1) * perPage
  {
    Min(perPage, totalItems - (currentPage - 1) * perPage)
  }

  /** `generateMockPagination(schema, page, perPage, totalItems)` as written. A page count of
      zero (no items) clamps the page to 0, which leaves a full page of items. */
  function Paginate<T>(gen: nat -> T, page: Option<int>, perPage: Option<int>, totalItems: Option<int>): (r: Page<T>)
    requires perPage.GetOr(DefaultPerPage) > 0
    ensures r.pagination.perPage == perPage.GetOr(DefaultPerPage)
    ensures r.pagination.totalItems == totalItems.GetOr(DefaultTotalItems)
    ensures (r.pagination.totalPages - 1) * r.pagination.perPage < r.pagination.totalItems
              <= r.pagination.totalPages * r.pagination.perPage
    ensures r.pagination.page == CurrentPage(page.GetOr(DefaultPage), r.pagination.totalPages)
    ensures |r.items| == Max(0, ItemsToGenerate(r.pagination.page, r.pagination.perPage, r.pagination.totalItems))
  {
    var pp := perPage.GetOr(DefaultPerPage);
    var total := totalItems.GetOr(DefaultTotalItems);
    var totalPages := CeilDiv(total, pp);
    var current := CurrentPage(page.GetOr(DefaultPage), totalPages);
    Page(MockArray(gen, Some(ItemsToGenerate(current, pp, total))), Pagination(current, pp, total, totalPages))
  }

  /** The same with the page clamped to at least 1 after the page count is applied, so an
      empty collection yields page 1 with no items. */
  function PaginateCorrected<T>(gen: nat -> T, page: Option<int>, perPage: Option<int>, totalItems: Option<int>): (r: Page<T>)
    requires perPage.GetOr(DefaultPerPage) > 0
    ensures r.pagination.page >= 1
    ensures |r.items| <= Max(0, r.pagination.totalItems)
    ensures |r.items| <= r.pagination.perPage
  {
    var pp := perPage.GetOr(DefaultPerPage);
    var total := totalItems.GetOr(DefaultTotalItems);
    var totalPages := CeilDiv(total, pp);
    var current := Max(1, CurrentPage(page.GetOr(DefaultPage), totalPages));
    Page(MockArray(gen, Some(ItemsToGenerate(current, pp, total))), Pagination(current, pp, total, totalPages))
  }

  // ---------------------------------------------------------------- properties

  /** With items to show, the reported page is a real page and holds between 1 and `perPage`
      items. */
  lemma NonEmptyPageBounds<T>(gen: nat -> T, page: Option<int>, perPage: Option<int>, totalItems: Option<int>)
    requires perPage.GetOr(DefaultPerPage) > 0 && totalItems.GetOr(DefaultTotalItems) > 0
    ensures var r := Paginate(gen, page, perPage, totalItems);
            1 <= r.pagination.page <= r.pagination.totalPages &&
            1 <= |r.items| <= r.pagination.perPage
  {
    var r := Paginate(gen, page, perPage, totalItems);
    var pp := r.pagination.perPage;
    var p := r.pagination.page;
    assert r.pagination.totalPages >= 1 by {
      assert 0 < r.pagination.totalItems <= r.pagination.totalPages * pp;
    }
    assert (p - 1) * pp <= (r.pagination.totalPages - 1) * pp by {
      MulMonotone(p - 1, r.pagination.totalPages - 1, pp);
    }
  }

  lemma MulMonotone(a: int, b: int, c: int)
    requires a <= b && c >= 0
    ensures a * c <= b * c
  {
  }

  /** The number of items on page `page` when every page from 1 is requested. */
  function PageSize(page: int, perPage: int, totalItems: int): int
    requires perPage > 0
  {
    Max(0, ItemsToGenerate(CurrentPage(page, CeilDiv(totalItems, perPage)), perPage, totalItems))
  }

  /** The items of pages 1 to `k`. */
  function ItemsUpTo(k: nat, perPage: int, totalItems: int): int
    requires perPage > 0
  {
    if k == 0 then 0 else ItemsUpTo(k - 1, perPage, totalItems) + PageSize(k, perPage, totalItems)
  }

  /** Before the last page every page is full. */
  lemma {:induction false} FullPagesBeforeLast(k: nat, perPage: int, totalItems: int)
    requires perPage > 0 && totalItems > 0
    requires k < CeilDiv(totalItems, perPage)
    ensures ItemsUpTo(k, perPage, totalItems) == k * perPage
  {
    if k > 0 {
      FullPagesBeforeLast(k - 1, perPage, totalItems);
      var tp := CeilDiv(totalItems, perPage);
      assert (k - 1) * perPage + perPage == k * perPage;
      assert k * perPage <= (tp - 1) * perPage by {
        MulMonotone(k, tp - 1, perPage);
      }
    }
  }

  /** Walking the pages from 1 to `totalPages` generates exactly `totalItems` items. */
  lemma PagesCoverTotal(perPage: int, totalItems: int)
    requires perPage > 0 && totalItems > 0
    ensures ItemsUpTo(CeilDiv(totalItems, perPage), perPage, totalItems) == totalItems
  {
    var tp := CeilDiv(totalItems, perPage);
    assert tp >= 1;
    FullPagesBeforeLast(tp - 1, perPage, totalItems);
    assert PageSize(tp, perPage, totalItems) == totalItems - (tp - 1) * perPage;
  }

  /** 13 items at 5 per page make 3 pages: page 2 holds 5 items, page 3 the last 3, and a
      request beyond the end is clamped to page 3. */
  lemma ThirteenItemsExample<T>(gen: nat -> T)
    ensures Paginate(gen, Some(2), Some(5), Some(13)).pagination == Pagination(2, 5, 13, 3)
    ensures |Paginate(gen, Some(2), Some(5), Some(13)).items| == 5
    ensures Paginate(gen, Some(3), Some(5), Some(13)).pagination == Pagination(3, 5, 13, 3)
    ensures |Paginate(gen, Some(3), Some(5), Some(13)).items| == 3
    ensures Paginate(gen, Some(9), Some(5), Some(13)).pagination.page == 3
  {
  }

  /** With nothing given: page 1 of 10 pages holding 10 items; a mock array has 3 items. */
  lemma DefaultsExample<T>(gen: nat -> T)
    ensures Paginate(gen, None, None, None).pagination == Pagination(1, 10, 100, 10)
    ensures |Paginate(gen, None, None, None).items| == 10
    ensures |MockArray(gen, None)| == 3
  {
  }

  /** As written, an empty collection reports page 0 and still generates a full page. */
  lemma EmptyCollectionAsWritten<T>(gen: nat -> T)
    ensures Paginate(gen, Some(1), Some(10), Some(0)).pagination == Pagination(0, 10, 0, 0)
    ensures |Paginate(gen, Some(1), Some(10), Some(0)).items| == 10
  {
  }

  /** The corrected pagination generates nothing for an empty collection and agrees with the
      written one whenever there are items. */
  lemma CorrectedAgrees<T>(gen: nat -> T, page: Option<int>, perPage: Option<int>, totalItems: Option<int>)
    requires perPage.GetOr(DefaultPerPage) > 0
    ensures totalItems.GetOr(DefaultTotalItems) == 0 ==> |PaginateCorrected(gen, page, perPage, totalItems).items| == 0
    ensures totalItems.GetOr(DefaultTotalItems) > 0 ==>
              PaginateCorrected(gen, page, perPage, totalItems) == Paginate(gen, page, perPage, totalItems)
  {
    if totalItems.GetOr(DefaultTotalItems) > 0 {
      NonEmptyPageBounds(gen, page, perPage, totalItems);
    }
  }
}

=== FILE: pathparams.dfy ===
/** Path templates (`src/core/api/utils.ts`): scanning `:name` placeholders,
    substituting them, and splitting a flat parameter object into path, query and
    body parts. */
module PathParams {
  import opened Wrappers
  import opened Js

  predicate IsLetter(c: char)
  {
    'a' <= c <= 'z' || 'A' <= c <= 'Z'
  }

  predicate IsAlnum(c: char)
  {
    IsLetter(c) || '0' <= c <= '9'
  }

  /** The three placeholder regular expressions that occur in the source. */
  datatype Pattern =
    | LetterAlnum  // /:[a-zA-Z][a-zA-Z0-9]*/g
    | LettersOnly  // /:([a-zA-Z]+)/g
    | NonSlash     // /:[^/]+/g

  predicate StartsName(p: Pattern, c: char)
  {
    match p
    case LetterAlnum => IsLetter(c)
    case LettersOnly => IsLetter(c)
    case NonSlash => c != '/'
  }

  predicate ContinuesName(p: Pattern, c: char)
  {
    match p
    case LetterAlnum => IsAlnum(c)
    case LettersOnly => IsLetter(c)
    case NonSlash => c != '/'
  }

  /** A name the pattern can match after the colon. */
  predicate ValidName(p: Pattern, n: string)
  {
    |n| > 0 && StartsName(p, n[0]) && forall i :: 1 <= i < |n| ==> ContinuesName(p, n[i])
  }

  /** Length of the longest prefix of `s` made of name-continuing characters. */
  function RunLength(p: Pattern, s: string): (n: nat)
    ensures n <= |s|
    ensures forall i :: 0 <= i < n ==> ContinuesName(p, s[i])
    ensures n == |s| || !ContinuesName(p, s[n])
  {
    if |s| == 0 || !ContinuesName(p, s[0]) then 0 else 1 + RunLength(p, s[1..])
  }

  /** The regular expression matches at the start of `s`. */
  predicate HoleAt(p: Pattern, s: string)
  {
    |s| > 1 && s[0] == ':' && StartsName(p, s[1])
  }

  /** Length of the (greedy) name matched at the start of `s`, colon excluded. */
  function NameLen(p: Pattern, s: string): (n: nat)
    requires HoleAt(p, s)
    ensures 1 <= n < |s|
    ensures ValidName(p, s[1..1 + n])
    ensures 1 + n == |s| || !ContinuesName(p, s[1 + n])
  {
    var n := 1 + RunLength(p, s[2..]);
    assert s[1..1 + n] == [s[1]] + s[2..][..n - 1];
    n
  }

  /** The placeholder names of a template, left to right, as `path.match(re).map(m => m.slice(1))`. */
  function Names(p: Pattern, s: string): seq<string>
    decreases |s|
  {
    if |s| == 0 then []
    else if HoleAt(p, s) then
      var n := NameLen(p, s);
      [s[1..1 + n]] + Names(p, s[1 + n..])
    else Names(p, s[1..])
  }

  /** Every name found is one the pattern matches. */
  lemma {:induction false} NamesAreValid(p: Pattern, s: string)
    ensures forall i :: 0 <= i < |Names(p, s)| ==> ValidName(p, Names(p, s)[i])
    decreases |s|
  {
    if |s| > 0 {
      if HoleAt(p, s) {
        var n := NameLen(p, s);
        NamesAreValid(p, s[1 + n..]);
        assert Names(p, s) == [s[1..1 + n]] + Names(p, s[1 + n..]);
      } else {
        NamesAreValid(p, s[1..]);
      }
    }
  }

  /** `extractPathParams`: letters-only names. */
  function ExtractPathParams(path: string): seq<string>
  {
    Names(LettersOnly, path)
  }

  /** `extractPathParamNames`: a letter followed by letters and digits. */
  function ExtractPathParamNames(path: string): seq<string>
  {
    Names(LetterAlnum, path)
  }

  /** `params[name] !== undefined` for an own property. */
  predicate Defined(params: Entries<JsValue>, name: string)
  {
    Get(params, name).Some? && !Get(params, name).value.Undefined?
  }

  /** `path.replace(re, m => ...)` where the callback throws on an undefined value and
      otherwise yields `String(value)`; the error names the offending placeholder. */
  function Substitute(p: Pattern, s: string, params: Entries<JsValue>): Result<string, string>
    decreases |s|
  {
    if |s| == 0 then Ok("")
    else if HoleAt(p, s) then
      var n := NameLen(p, s);
      var v := Get(params, s[1..1 + n]).GetOr(Undefined);
      if v.Undefined? then Err(s[1..1 + n])
      else Prepend(ToJsString(v), Substitute(p, s[1 + n..], params))
    else Prepend([s[0]], Substitute(p, s[1..], params))
  }

  /** `x` in front of a successful result; a failure passes through. */
  function Prepend(x: string, r: Result<string, string>): Result<string, string>
  {
    match r
    case Ok(v) => Ok(x + v)
    case Err(e) => Err(e)
  }

  /** One step of the scan at a placeholder: its name heads the list, and the substitution
      fails on it or puts its value in front of the rest. */
  lemma HoleStep(p: Pattern, s: string, params: Entries<JsValue>)
    requires HoleAt(p, s)
    ensures Names(p, s) == [s[1..1 + NameLen(p, s)]] + Names(p, s[1 + NameLen(p, s)..])
    ensures !Defined(params, s[1..1 + NameLen(p, s)]) ==> Substitute(p, s, params) == Err(s[1..1 + NameLen(p, s)])
    ensures Defined(params, s[1..1 + NameLen(p, s)]) ==>
      Substitute(p, s, params) ==
        Prepend(ToJsString(Get(params, s[1..1 + NameLen(p, s)]).value), Substitute(p, s[1 + NameLen(p, s)..], params))
  {
  }

  /** One step of the scan at any other character: it is copied through. */
  lemma PlainStep(p: Pattern, s: string, params: Entries<JsValue>)
    requires |s| > 0 && !HoleAt(p, s)
    ensures Names(p, s) == Names(p, s[1..])
    ensures Substitute(p, s, params) == Prepend([s[0]], Substitute(p, s[1..], params))
  {
  }

  /** Every name of `ns` has a defined value. */
  predicate AllDefined(params: Entries<JsValue>, ns: seq<string>)
  {
    forall i :: 0 <= i < |ns| ==> Defined(params, ns[i])
  }

  /** `e` is the first name of `ns` without a defined value. */
  predicate FirstUndefined(params: Entries<JsValue>, ns: seq<string>, e: string)
  {
    exists i :: 0 <= i < |ns| && ns[i] == e && !Defined(params, ns[i])
      && forall j :: 0 <= j < i ==> Defined(params, ns[j])
  }

  lemma AllDefinedCons(params: Entries<JsValue>, x: string, ns: seq<string>)
    ensures AllDefined(params, [x] + ns) <==> Defined(params, x) && AllDefined(params, ns)
  {
    var xs := [x] + ns;
    assert xs[0] == x;
    assert forall i :: 0 <= i < |ns| ==> xs[i + 1] == ns[i];
    if Defined(params, x) && AllDefined(params, ns) {
      forall i | 0 <= i < |xs|
        ensures Defined(params, xs[i])
      {
        if i > 0 {
          assert xs[i] == ns[i - 1];
        }
      }
    }
  }

  lemma FirstUndefinedHead(params: Entries<JsValue>, x: string, ns: seq<string>)
    requires !Defined(params, x)
    ensures FirstUndefined(params, [x] + ns, x)
  {
    assert ([x] + ns)[0] == x;
  }

  lemma FirstUndefinedCons(params: Entries<JsValue>, x: string, ns: seq<string>, e: string)
    requires Defined(params, x) && FirstUndefined(params, ns, e)
    ensures FirstUndefined(params, [x] + ns, e)
  {
    var i :| 0 <= i < |ns| && ns[i] == e && !Defined(params, ns[i])
      && forall j :: 0 <= j < i ==> Defined(params, ns[j]);
    var xs := [x] + ns;
    assert xs[i + 1] == e;
    forall j | 0 <= j < i + 1
      ensures Defined(params, xs[j])
    {
      if j > 0 {
        assert xs[j] == ns[j - 1];
      } else {
        assert xs[j] == x;
      }
    }
  }

  /** Substitution succeeds exactly when every placeholder is defined; otherwise it
      reports the leftmost placeholder that is not. */
  lemma {:induction false} SubstituteOutcome(p: Pattern, s: string, params: Entries<JsValue>)
    ensures Substitute(p, s, params).Ok? <==>
      forall i :: 0 <= i < |Names(p, s)| ==> Defined(params, Names(p, s)[i])
    ensures Substitute(p, s, params).Err? ==>
      exists i :: 0 <= i < |Names(p, s)| && Names(p, s)[i] == Substitute(p, s, params).error
        && !Defined(params, Names(p, s)[i])
        && forall j :: 0 <= j < i ==> Defined(params, Names(p, s)[j])
    decreases |s|
  {
    SubstituteFirstUndefined(p, s, params);
  }

  lemma {:induction false} SubstituteFirstUndefined(p: Pattern, s: string, params: Entries<JsValue>)
    ensures Substitute(p, s, params).Ok? <==> AllDefined(params, Names(p, s))
    ensures Substitute(p, s, params).Err? ==> FirstUndefined(params, Names(p, s), Substitute(p, s, params).error)
    decreases |s|
  {
    if |s| == 0 {
    } else if HoleAt(p, s) {
      var n := NameLen(p, s);
      var name := s[1..1 + n];
      var rest := s[1 + n..];
      HoleStep(p, s, params);
      SubstituteFirstUndefined(p, rest, params);
      AllDefinedCons(params, name, Names(p, rest));
      if !Defined(params, name) {
        FirstUndefinedHead(params, name, Names(p, rest));
      } else if Substitute(p, rest, params).Err? {
        FirstUndefinedCons(params, name, Names(p, rest), Substitute(p, rest, params).error);
      }
    } else {
      PlainStep(p, s, params);
      SubstituteFirstUndefined(p, s[1..], params);
    }
  }

  /** `replacePathParams`. */
  function ReplacePathParams(path: string, params: Entries<JsValue>): Result<string, string>
  {
    Substitute(LetterAlnum, path, params)
  }

  /** Each of `ns` is bound to its own placeholder text `:name`. */
  predicate SelfValued(params: Entries<JsValue>, ns: seq<string>)
  {
    forall i :: 0 <= i < |ns| ==> Get(params, ns[i]) == Some(Str(":" + ns[i]))
  }

  lemma SelfValuedCons(params: Entries<JsValue>, x: string, ns: seq<string>)
    requires SelfValued(params, [x] + ns)
    ensures Get(params, x) == Some(Str(":" + x)) && SelfValued(params, ns)
  {
    var xs := [x] + ns;
    assert xs[0] == x;
    forall i | 0 <= i < |ns|
      ensures Get(params, ns[i]) == Some(Str(":" + ns[i]))
    {
      assert xs[i + 1] == ns[i];
    }
  }

  /** Text outside placeholders is copied unchanged: substituting every placeholder by its
      own text gives the template back. */
  lemma {:induction false} SubstituteKeepsText(p: Pattern, s: string, params: Entries<JsValue>)
    requires SelfValued(params, Names(p, s))
    ensures Substitute(p, s, params) == Ok(s)
    decreases |s|, 1
  {
    if |s| > 0 {
      if HoleAt(p, s) {
        KeepsTextAtHole(p, s, params);
      } else {
        PlainStep(p, s, params);
        SubstituteKeepsText(p, s[1..], params);
        assert s == [s[0]] + s[1..];
      }
    }
  }

  /** The placeholder case of `SubstituteKeepsText`. */
  lemma {:induction false} KeepsTextAtHole(p: Pattern, s: string, params: Entries<JsValue>)
    requires HoleAt(p, s)
    requires SelfValued(params, Names(p, s))
    ensures Substitute(p, s, params) == Ok(s)
    decreases |s|, 0
  {
    var n := NameLen(p, s);
    var name := s[1..1 + n];
    var rest := s[1 + n..];
    assert Get(params, name) == Some(Str(":" + name)) && SelfValued(params, Names(p, rest)) by {
      HoleStep(p, s, params);
      SelfValuedCons(params, name, Names(p, rest));
    }
    assert Substitute(p, rest, params) == Ok(rest) by {
      SubstituteKeepsText(p, rest, params);
    }
    assert Substitute(p, s, params) == Ok(":" + name + rest) by {
      HoleStep(p, s, params);
    }
    HoleSplit(s, n);
  }

  /** A template is its colon, the name after it and the text after the name. */
  lemma HoleSplit(s: string, n: nat)
    requires 1 + n <= |s| && s[0] == ':'
    ensures s == ":" + s[1..1 + n] + s[1 + n..]
  {
    assert s == [s[0]] + s[1..1 + n] + s[1 + n..];
  }

  /** A template without placeholders is returned as it is, whatever the parameters. */
  lemma {:induction false} SubstituteNoPlaceholders(p: Pattern, s: string, params: Entries<JsValue>)
    requires Names(p, s) == []
    ensures Substitute(p, s, params) == Ok(s)
  {
    SubstituteKeepsText(p, s, params);
  }

  /** A run of name characters ends where a character that cannot continue it starts. */
  lemma {:induction false} RunLengthOf(p: Pattern, u: string, rest: string)
    requires forall i :: 0 <= i < |u| ==> ContinuesName(p, u[i])
    requires |rest| == 0 || !ContinuesName(p, rest[0])
    ensures RunLength(p, u + rest) == |u|
    decreases |u|
  {
    if |u| > 0 {
      assert (u + rest)[0] == u[0];
      assert (u + rest)[1..] == u[1..] + rest;
      RunLengthOf(p, u[1..], rest);
    } else {
      assert u + rest == rest;
    }
  }

  /** A valid name after a colon, followed by text that cannot continue it, is matched whole. */
  lemma HoleName(p: Pattern, name: string, rest: string)
    requires ValidName(p, name)
    requires |rest| == 0 || !ContinuesName(p, rest[0])
    ensures HoleAt(p, ":" + name + rest)
    ensures NameLen(p, ":" + name + rest) == |name|
    ensures (":" + name + rest)[1..1 + |name|] == name
    ensures (":" + name + rest)[1 + |name|..] == rest
  {
    var s := ":" + name + rest;
    assert s[1] == name[0];
    assert s[2..] == name[1..] + rest;
    forall i | 0 <= i < |name| - 1
      ensures ContinuesName(p, name[1..][i])
    {
      assert name[1..][i] == name[i + 1];
    }
    RunLengthOf(p, name[1..], rest);
    assert s[1..1 + |name|] == name;
    assert s[1 + |name|..] == rest;
  }

  /** The names of `:name` followed by more text. */
  lemma NamesAtHole(p: Pattern, name: string, rest: string)
    requires ValidName(p, name)
    requires |rest| == 0 || !ContinuesName(p, rest[0])
    ensures Names(p, ":" + name + rest) == [name] + Names(p, rest)
  {
    HoleName(p, name, rest);
    HoleStep(p, ":" + name + rest, []);
  }

  /** Substituting `:name` followed by more text. */
  lemma SubstituteAtHole(p: Pattern, name: string, rest: string, params: Entries<JsValue>)
    requires ValidName(p, name)
    requires |rest| == 0 || !ContinuesName(p, rest[0])
    ensures !Defined(params, name) ==> Substitute(p, ":" + name + rest, params) == Err(name)
    ensures Defined(params, name) ==>
      Substitute(p, ":" + name + rest, params) ==
        Prepend(ToJsString(Get(params, name).value), Substitute(p, rest, params))
  {
    HoleName(p, name, rest);
    HoleStep(p, ":" + name + rest, params);
  }

  /** Text without colons adds no names in front of a template. */
  lemma NamesLiteralPrefix(p: Pattern, u: string, t: string)
    requires ':' !in u
    ensures Names(p, u + t) == Names(p, t)
  {
    forall i | 0 <= i < |u|
      ensures (u + t)[i] != ':'
    {
      assert (u + t)[i] == u[i];
    }
    NamesSkipNoColon(p, u + t, |u|);
    assert (u + t)[|u|..] == t;
  }

  /** The example of the doc comment: `/users/:id` with id 1 gives `/users/1`. */
  lemma ReplaceUsersId()
    ensures ReplacePathParams("/users/:id", [("id", Num(1))]) == Ok("/users/1")
  {
    var ps := [("id", Num(1))];
    assert ValidName(LetterAlnum, "id");
    SubstituteAtHole(LetterAlnum, "id", "", ps);
    assert Get(ps, "id") == Some(Num(1));
    assert ToJsString(Num(1)) == "1";
    assert Substitute(LetterAlnum, "", ps) == Ok("");
    assert "1" + "" == "1";
    assert Substitute(LetterAlnum, ":" + "id" + "", ps) == Ok("1");
    assert ":" + "id" + "" == ":id";
    assert ':' !in "/users/";
    SubstituteLiteralPrefix(LetterAlnum, "/users/", ":id", ps);
    assert "/users/" + ":id" == "/users/:id";
    assert "/users/" + "1" == "/users/1";
  }

  /** Text without colons in front of the template is copied in front of the result. */
  lemma {:induction false} SubstituteLiteralPrefix(p: Pattern, u: string, t: string, params: Entries<JsValue>)
    requires forall i :: 0 <= i < |u| ==> u[i] != ':'
    ensures Substitute(p, t, params).Err? ==> Substitute(p, u + t, params) == Substitute(p, t, params)
    ensures Substitute(p, t, params).Ok? ==> Substitute(p, u + t, params) == Ok(u + Substitute(p, t, params).value)
    decreases |u|
  {
    if |u| == 0 {
      assert u + t == t;
      if Substitute(p, t, params).Ok? {
        assert u + Substitute(p, t, params).value == Substitute(p, t, params).value;
      }
    } else {
      LiteralHeadStep(p, u, t, params);
      SubstituteLiteralPrefix(p, u[1..], t, params);
      if Substitute(p, t, params).Ok? {
        HeadConcat(u, Substitute(p, t, params).value);
      }
    }
  }

  /** A leading character other than ':' is copied and the scan goes on after it. */
  lemma LiteralHeadStep(p: Pattern, u: string, t: string, params: Entries<JsValue>)
    requires |u| > 0 && u[0] != ':'
    ensures Substitute(p, u + t, params) == Prepend([u[0]], Substitute(p, u[1..] + t, params))
  {
    assert (u + t)[1..] == u[1..] + t;
    assert (u + t)[0] == u[0];
    PlainStep(p, u + t, params);
  }

  lemma HeadConcat(u: string, r: string)
    requires |u| > 0
    ensures [u[0]] + (u[1..] + r) == u + r
  {
  }

  /** `:id2` is read as `id` by the letters-only pattern and as `id2` by the other. */
  lemma LettersOnlyStopsAtDigit()
    ensures ExtractPathParams(":id2") == ["id"]
    ensures ExtractPathParamNames(":id2") == ["id2"]
  {
    assert ValidName(LettersOnly, "id") && !ContinuesName(LettersOnly, "2"[0]);
    NamesAtHole(LettersOnly, "id", "2");
    assert ':' !in "2";
    NamesLiteralPrefix(LettersOnly, "2", "");
    assert "2" + "" == "2";
    assert ":" + "id" + "2" == ":id2";
    assert ValidName(LetterAlnum, "id2");
    NamesAtHole(LetterAlnum, "id2", "");
    assert ":" + "id2" + "" == ":id2";
  }

  /** A stretch of text without colons contributes no placeholder. */
  lemma {:induction false} NamesSkipNoColon(p: Pattern, s: string, k: nat)
    requires k <= |s|
    requires forall i :: 0 <= i < k ==> s[i] != ':'
    ensures Names(p, s) == Names(p, s[k..])
    decreases k
  {
    if k > 0 {
      assert !HoleAt(p, s);
      NamesSkipNoColon(p, s[1..], k - 1);
      assert s[1..][k - 1..] == s[k..];
    }
  }

  /** The two letter-initial patterns find the same placeholders; the letters-only
      name is always a prefix of the letter-and-digit name. */
  lemma {:induction false} LettersOnlyIsPrefix(s: string)
    ensures |ExtractPathParams(s)| == |ExtractPathParamNames(s)|
    ensures forall i :: 0 <= i < |ExtractPathParams(s)| ==>
      ExtractPathParams(s)[i] <= ExtractPathParamNames(s)[i]
    decreases |s|, 1
  {
    if |s| > 0 {
      if HoleAt(LetterAlnum, s) {
        LettersOnlyIsPrefixAtHole(s);
      } else {
        assert !HoleAt(LettersOnly, s);
        PlainStep(LetterAlnum, s, []);
        PlainStep(LettersOnly, s, []);
        LettersOnlyIsPrefix(s[1..]);
      }
    }
  }

  /** The placeholder case of `LettersOnlyIsPrefix`: both patterns match here, the
      letters-only match stops no later, and the text between the two ends has no colon. */
  lemma {:induction false} LettersOnlyIsPrefixAtHole(s: string)
    requires HoleAt(LetterAlnum, s)
    ensures |ExtractPathParams(s)| == |ExtractPathParamNames(s)|
    ensures forall i :: 0 <= i < |ExtractPathParams(s)| ==>
      ExtractPathParams(s)[i] <= ExtractPathParamNames(s)[i]
    decreases |s|, 0
  {
    assert HoleAt(LettersOnly, s);
    var n := NameLen(LetterAlnum, s);
    var m := NameLen(LettersOnly, s);
    var short := s[1..1 + m];
    var long := s[1..1 + n];
    assert m <= n;
    assert short <= long;
    assert Names(LettersOnly, s[1 + m..]) == Names(LettersOnly, s[1 + n..]) by {
      forall i | 1 + m <= i < 1 + n
        ensures s[i] != ':'
      {
        assert s[i] == s[1..1 + n][i - 1];
      }
      NamesSkipNoColon(LettersOnly, s[1 + m..], n - m);
      assert s[1 + m..][n - m..] == s[1 + n..];
    }
    HoleStep(LetterAlnum, s, []);
    HoleStep(LettersOnly, s, []);
    LettersOnlyIsPrefix(s[1 + n..]);
    PrefixCons(short, long, Names(LettersOnly, s[1 + n..]), Names(LetterAlnum, s[1 + n..]));
  }

  /** Elementwise prefixes survive putting a prefix pair in front. */
  lemma PrefixCons(a: string, b: string, xs: seq<string>, ys: seq<string>)
    requires a <= b && |xs| == |ys|
    requires forall i :: 0 <= i < |xs| ==> xs[i] <= ys[i]
    ensures |[a] + xs| == |[b] + ys|
    ensures forall i :: 0 <= i < |[a] + xs| ==> ([a] + xs)[i] <= ([b] + ys)[i]
  {
    forall i | 0 <= i < |[a] + xs|
      ensures ([a] + xs)[i] <= ([b] + ys)[i]
    {
      if i > 0 {
        assert ([a] + xs)[i] == xs[i - 1] && ([b] + ys)[i] == ys[i - 1];
      }
    }
  }

  // ---------------------------------------------------------------------------
  // separateParams

  /** The three parts `separateParams` returns. */
  datatype Separated = Separated(
    pathParams: Entries<JsValue>,
    queryParams: Entries<JsValue>,
    bodyParams: Entries<JsValue>)

  /** An entry that names a placeholder but holds `undefined`: the loop throws on it. */
  predicate BadEntry(names: seq<string>, e: (string, JsValue))
  {
    e.0 in names && e.1.Undefined?
  }

  /** The routing loop over `Object.entries(params)`: placeholder keys, then `query`,
      then `body`, then everything else into the query part. */
  function Route(names: seq<string>, entries: Entries<JsValue>, acc: Separated): Result<Separated, string>
    decreases |entries|
  {
    if |entries| == 0 then Ok(acc)
    else if BadEntry(names, entries[0]) then Err(entries[0].0)
    else Route(names, entries[1..], Step(names, acc, entries[0].0, entries[0].1))
  }

  /** One iteration of the loop on an entry that does not throw. */
  function Step(names: seq<string>, acc: Separated, k: string, v: JsValue): Separated
  {
    if k in names then acc.(pathParams := Set(acc.pathParams, k, v))
    else if k == "query" then acc.(queryParams := Assign(acc.queryParams, EntriesOf(v)))
    else if k == "body" then acc.(bodyParams := Assign(acc.bodyParams, EntriesOf(v)))
    else acc.(queryParams := Set(acc.queryParams, k, v))
  }

  /** The first name (in template order) that is not a key of `present`. */
  function FirstMissing(names: seq<string>, present: Entries<JsValue>): (r: Option<string>)
    ensures r.None? <==> forall i :: 0 <= i < |names| ==> names[i] in Keys(present)
    ensures r.Some? ==>
      exists i :: 0 <= i < |names| && names[i] == r.value && r.value !in Keys(present)
        && forall j :: 0 <= j < i ==> names[j] in Keys(present)
  {
    if |names| == 0 then None
    else if names[0] !in Keys(present) then Some(names[0])
    else
      match FirstMissing(names[1..], present)
      case None => None
      case Some(n) =>
        ghost var i :| 0 <= i < |names[1..]| && names[1..][i] == n && n !in Keys(present)
          && forall j :: 0 <= j < i ==> names[1..][j] in Keys(present);
        assert names[i + 1] == n;
        Some(n)
  }

  /** `separateParams(path, params)`; the error is the placeholder the thrown
      "Missing required path parameter" message names. */
  function SeparateParams(path: string, params: Entries<JsValue>): Result<Separated, string>
  {
    var names := ExtractPathParamNames(path);
    match Route(names, params, Separated([], [], []))
    case Err(k) => Err(k)
    case Ok(s) =>
      match FirstMissing(names, s.pathParams)
      case Some(n) => Err(n)
      case None => Ok(s)
  }

  /** The loop fails exactly when some entry is bad, and then on the first bad entry. */
  lemma {:induction false} RouteFailsOnFirstBad(names: seq<string>, entries: Entries<JsValue>, acc: Separated)
    ensures Route(names, entries, acc).Ok? <==> forall i :: 0 <= i < |entries| ==> !BadEntry(names, entries[i])
    ensures Route(names, entries, acc).Err? ==>
      exists i :: 0 <= i < |entries| && BadEntry(names, entries[i])
        && entries[i].0 == Route(names, entries, acc).error
        && forall j :: 0 <= j < i ==> !BadEntry(names, entries[j])
    decreases |entries|
  {
    if |entries| > 0 {
      var (k, v) := entries[0];
      var acc' := Step(names, acc, k, v);
      if !BadEntry(names, entries[0]) {
        assert Route(names, entries, acc) == Route(names, entries[1..], acc');
        RouteFailsOnFirstBad(names, entries[1..], acc');
        forall i | 0 < i < |entries|
          ensures entries[i] == entries[1..][i - 1]
        {
        }
        if Route(names, entries[1..], acc').Err? {
          var e := Route(names, entries[1..], acc').error;
          ghost var i :| 0 <= i < |entries[1..]| && BadEntry(names, entries[1..][i])
            && entries[1..][i].0 == e
            && forall j :: 0 <= j < i ==> !BadEntry(names, entries[1..][j]);
          assert entries[i + 1] == entries[1..][i];
        }
      }
    }
  }

  /** What the path part holds after the loop: every placeholder-named key met,
      with the value of the entry that carries it (keys are unique in an object). */
  lemma {:induction false} RoutePathParams(names: seq<string>, entries: Entries<JsValue>, acc: Separated, n: string)
    requires UniqueKeys(entries)
    requires n in names
    requires Route(names, entries, acc).Ok?
    ensures Get(Route(names, entries, acc).value.pathParams, n)
      == if n in Keys(entries) then Get(entries, n) else Get(acc.pathParams, n)
    decreases |entries|
  {
    if |entries| > 0 {
      var (k, v) := entries[0];
      var acc' := Step(names, acc, k, v);
      assert Route(names, entries, acc) == Route(names, entries[1..], acc');
      RoutePathParams(names, entries[1..], acc', n);
      assert Keys(entries) == [k] + Keys(entries[1..]);
    }
  }

  /** Every key the path part ends up with is a placeholder name or was there before,
      and no value in it is undefined. */
  lemma {:induction false} RoutePathKeys(names: seq<string>, entries: Entries<JsValue>, acc: Separated)
    requires Route(names, entries, acc).Ok?
    requires forall k :: k in Keys(acc.pathParams) ==> k in names && Defined(acc.pathParams, k)
    ensures forall k :: k in Keys(Route(names, entries, acc).value.pathParams) ==>
      k in names && Defined(Route(names, entries, acc).value.pathParams, k)
    decreases |entries|
  {
    if |entries| > 0 {
      var (k, v) := entries[0];
      var acc' := Step(names, acc, k, v);
      assert Route(names, entries, acc) == Route(names, entries[1..], acc');
      RoutePathKeys(names, entries[1..], acc');
    }
  }

  /** `separateParams` succeeds exactly when no placeholder-named entry is undefined and
      every placeholder has an entry. */
  lemma SeparateParamsOkIff(path: string, params: Entries<JsValue>)
    ensures SeparateParams(path, params).Ok? <==>
      (forall i :: 0 <= i < |params| ==> !BadEntry(ExtractPathParamNames(path), params[i]))
      && (forall n :: n in ExtractPathParamNames(path) ==> n in Keys(params))
  {
    var names := ExtractPathParamNames(path);
    var acc := Separated([], [], []);
    RouteFailsOnFirstBad(names, params, acc);
    if Route(names, params, acc).Ok? {
      var s := Route(names, params, acc).value;
      forall n | n in names
        ensures n in Keys(s.pathParams) <==> n in Keys(params)
      {
        PathKeyIffEntry(names, params, acc, n);
      }
      assert SeparateParams(path, params).Ok? <==> FirstMissing(names, s.pathParams).None?;
      if forall n :: n in names ==> n in Keys(params) {
        assert forall i :: 0 <= i < |names| ==> names[i] in Keys(s.pathParams);
      } else {
        var n :| n in names && n !in Keys(params);
        var i :| 0 <= i < |names| && names[i] == n;
        assert names[i] !in Keys(s.pathParams);
      }
    }
  }

  /** A placeholder name is a key of the path part exactly when the parameters carry it. */
  lemma {:induction false} PathKeyIffEntry(names: seq<string>, entries: Entries<JsValue>, acc: Separated, n: string)
    requires n in names
    requires Route(names, entries, acc).Ok?
    ensures n in Keys(Route(names, entries, acc).value.pathParams) <==> (n in Keys(entries) || n in Keys(acc.pathParams))
    decreases |entries|
  {
    if |entries| > 0 {
      var (k, v) := entries[0];
      var acc' := Step(names, acc, k, v);
      assert Route(names, entries, acc) == Route(names, entries[1..], acc');
      PathKeyIffEntry(names, entries[1..], acc', n);
      assert Keys(entries) == [k] + Keys(entries[1..]);
    }
  }

  /** On failure the reported name is the key of the first undefined placeholder entry
      or, when there is none, the first placeholder (template order) without an entry. */
  lemma SeparateParamsError(path: string, params: Entries<JsValue>)
    requires SeparateParams(path, params).Err?
    ensures var names := ExtractPathParamNames(path);
      var e := SeparateParams(path, params).error;
      e in names &&
      if exists i :: 0 <= i < |params| && BadEntry(names, params[i]) then
        exists i :: 0 <= i < |params| && BadEntry(names, params[i]) && params[i].0 == e
          && forall j :: 0 <= j < i ==> !BadEntry(names, params[j])
      else
        e !in Keys(params) &&
        exists i :: 0 <= i < |names| && names[i] == e
          && forall j :: 0 <= j < i ==> names[j] in Keys(params)
  {
    var names := ExtractPathParamNames(path);
    var acc := Separated([], [], []);
    RouteFailsOnFirstBad(names, params, acc);
    if Route(names, params, acc).Ok? {
      var s := Route(names, params, acc).value;
      forall n | n in names
        ensures n in Keys(s.pathParams) <==> n in Keys(params)
      {
        PathKeyIffEntry(names, params, acc, n);
      }
    }
  }

  /** On success the keys of the path part are exactly the placeholder names, each with
      the caller's value. */
  lemma SeparateParamsPathPart(path: string, params: Entries<JsValue>)
    requires UniqueKeys(params)
    requires SeparateParams(path, params).Ok?
    ensures var s := SeparateParams(path, params).value;
      (forall n :: n in Keys(s.pathParams) <==> n in ExtractPathParamNames(path))
      && forall n :: n in ExtractPathParamNames(path) ==> Get(s.pathParams, n) == Get(params, n)
  {
    var names := ExtractPathParamNames(path);
    var acc := Separated([], [], []);
    var s := Route(names, params, acc).value;
    RoutePathKeys(names, params, acc);
    forall n | n in names
      ensures Get(s.pathParams, n) == Get(params, n)
    {
      RoutePathParams(names, params, acc, n);
    }
  }

  /** Partitioning and substitution agree on the placeholder pattern: once
      `separateParams` succeeds, `replacePathParams` on its path part cannot fail. */
  lemma SeparateThenReplace(path: string, params: Entries<JsValue>)
    requires SeparateParams(path, params).Ok?
    ensures ReplacePathParams(path, SeparateParams(path, params).value.pathParams).Ok?
  {
    var names := ExtractPathParamNames(path);
    var acc := Separated([], [], []);
    var s := Route(names, params, acc).value;
    RoutePathKeys(names, params, acc);
    SubstituteOutcome(LetterAlnum, path, s.pathParams);
  }

  /** The entries whose key is not a placeholder name, in order. */
  function NonPlaceholder(names: seq<string>, entries: Entries<JsValue>): Entries<JsValue>
  {
    if |entries| == 0 then []
    else if entries[0].0 in names then NonPlaceholder(names, entries[1..])
    else [entries[0]] + NonPlaceholder(names, entries[1..])
  }

  /** Without `query`/`body` keys the loop appends every other entry to the query part in
      order and leaves the body part alone. */
  lemma {:induction false} RouteFlat(names: seq<string>, entries: Entries<JsValue>, acc: Separated)
    requires UniqueKeys(entries)
    requires "query" !in Keys(entries) && "body" !in Keys(entries)
    requires forall k :: k in Keys(entries) ==> k !in Keys(acc.queryParams)
    requires Route(names, entries, acc).Ok?
    ensures Route(names, entries, acc).value.queryParams == acc.queryParams + NonPlaceholder(names, entries)
    ensures Route(names, entries, acc).value.bodyParams == acc.bodyParams
    decreases |entries|, 1
  {
    if |entries| > 0 {
      if entries[0].0 in names {
        RouteFlatPath(names, entries, acc);
      } else {
        RouteFlatQuery(names, entries, acc);
      }
    }
  }

  lemma {:induction false} RouteFlatPath(names: seq<string>, entries: Entries<JsValue>, acc: Separated)
    requires |entries| > 0 && entries[0].0 in names
    requires UniqueKeys(entries)
    requires "query" !in Keys(entries) && "body" !in Keys(entries)
    requires forall k :: k in Keys(entries) ==> k !in Keys(acc.queryParams)
    requires Route(names, entries, acc).Ok?
    ensures Route(names, entries, acc).value.queryParams == acc.queryParams + NonPlaceholder(names, entries)
    ensures Route(names, entries, acc).value.bodyParams == acc.bodyParams
    decreases |entries|, 0
  {
    var k := entries[0].0;
    var rest := entries[1..];
    assert Keys(entries) == [k] + Keys(rest);
    var acc' := Step(names, acc, k, entries[0].1);
    RouteFlat(names, rest, acc');
  }

  lemma {:induction false} RouteFlatQuery(names: seq<string>, entries: Entries<JsValue>, acc: Separated)
    requires |entries| > 0 && entries[0].0 !in names
    requires UniqueKeys(entries)
    requires "query" !in Keys(entries) && "body" !in Keys(entries)
    requires forall k :: k in Keys(entries) ==> k !in Keys(acc.queryParams)
    requires Route(names, entries, acc).Ok?
    ensures Route(names, entries, acc).value.queryParams == acc.queryParams + NonPlaceholder(names, entries)
    ensures Route(names, entries, acc).value.bodyParams == acc.bodyParams
    decreases |entries|, 0
  {
    var acc' := acc.(queryParams := acc.queryParams + [entries[0]]);
    QueryStepFacts(names, entries, acc);
    RouteFlat(names, entries[1..], acc');
    NonPlaceholderCons(names, entries, acc.queryParams);
  }

  /** What the non-placeholder step leaves for the rest of the loop. */
  lemma QueryStepFacts(names: seq<string>, entries: Entries<JsValue>, acc: Separated)
    requires |entries| > 0 && entries[0].0 !in names
    requires UniqueKeys(entries)
    requires "query" !in Keys(entries) && "body" !in Keys(entries)
    requires forall k :: k in Keys(entries) ==> k !in Keys(acc.queryParams)
    ensures Route(names, entries, acc) == Route(names, entries[1..], acc.(queryParams := acc.queryParams + [entries[0]]))
    ensures UniqueKeys(entries[1..])
    ensures "query" !in Keys(entries[1..]) && "body" !in Keys(entries[1..])
    ensures forall x :: x in Keys(entries[1..]) ==> x !in Keys(acc.queryParams + [entries[0]])
  {
    var k := entries[0].0;
    var v := entries[0].1;
    var rest := entries[1..];
    assert Keys(entries) == [k] + Keys(rest);
    assert k !in Keys(rest) && k !in Keys(acc.queryParams);
    RouteFlatStep(names, entries, acc);
    assert entries[0] == (k, v);
    FreshAfterAppend(acc.queryParams, k, v, Keys(rest));
  }

  /** A non-placeholder head entry heads the non-placeholder entries. */
  lemma NonPlaceholderCons(names: seq<string>, entries: Entries<JsValue>, q: Entries<JsValue>)
    requires |entries| > 0 && entries[0].0 !in names
    ensures q + [entries[0]] + NonPlaceholder(names, entries[1..]) == q + NonPlaceholder(names, entries)
  {
    assert NonPlaceholder(names, entries) == [entries[0]] + NonPlaceholder(names, entries[1..]);
  }

  /** One step of the loop on a fresh, flat, non-placeholder key: the entry is appended. */
  lemma RouteFlatStep(names: seq<string>, entries: Entries<JsValue>, acc: Separated)
    requires |entries| > 0
    requires entries[0].0 !in names && entries[0].0 != "query" && entries[0].0 != "body"
    requires entries[0].0 !in Keys(acc.queryParams)
    ensures Step(names, acc, entries[0].0, entries[0].1) == acc.(queryParams := acc.queryParams + [entries[0]])
  {
    SetAppends(acc.queryParams, entries[0].0, entries[0].1);
  }

  /** Appending a key keeps every other key absent. */
  lemma FreshAfterAppend(q: Entries<JsValue>, k: string, v: JsValue, ks: seq<string>)
    requires k !in ks
    requires forall x :: x in ks ==> x !in Keys(q)
    ensures forall x :: x in ks ==> x !in Keys(q + [(k, v)])
  {
    KeysAppend(q, [(k, v)]);
    assert Keys([(k, v)]) == [k];
  }

  /** `separateParams` on an object without `query` or `body` keys: the query part is the
      non-placeholder entries in their original order and the body part is empty. */
  lemma SeparateParamsFlat(path: string, params: Entries<JsValue>)
    requires UniqueKeys(params)
    requires "query" !in Keys(params) && "body" !in Keys(params)
    requires SeparateParams(path, params).Ok?
    ensures SeparateParams(path, params).value.queryParams == NonPlaceholder(ExtractPathParamNames(path), params)
    ensures SeparateParams(path, params).value.bodyParams == []
  {
    RouteFlat(ExtractPathParamNames(path), params, Separated([], [], []));
  }

  /** A `query` entry is merged into the query part and overrides an earlier flat key. */
  lemma QueryEntryMerges()
    ensures SeparateParams("/users", [("a", Num(1)), ("query", Obj([("a", Num(2)), ("b", Num(3))]))])
      == Ok(Separated([], [("a", Num(2)), ("b", Num(3))], []))
  {
    TemplateNames(LetterAlnum);
    MergeFlatStep();
    MergeQueryStep();
  }

  /** The flat key `a` goes to the query part. */
  lemma MergeFlatStep()
    ensures Route([], [("a", Num(1)), ("query", Obj([("a", Num(2)), ("b", Num(3))]))], Separated([], [], []))
      == Route([], [("query", Obj([("a", Num(2)), ("b", Num(3))]))], Separated([], [("a", Num(1))], []))
  {
    var e := [("a", Num(1)), ("query", Obj([("a", Num(2)), ("b", Num(3))]))];
    assert e[1..] == [("query", Obj([("a", Num(2)), ("b", Num(3))]))];
    assert Set([], "a", Num(1)) == [("a", Num(1))];
  }

  /** The `query` object is assigned over it. */
  lemma MergeQueryStep()
    ensures Route([], [("query", Obj([("a", Num(2)), ("b", Num(3))]))], Separated([], [("a", Num(1))], []))
      == Ok(Separated([], [("a", Num(2)), ("b", Num(3))], []))
  {
    MergeAssign();
    assert [("query", Obj([("a", Num(2)), ("b", Num(3))]))][1..] == [];
  }

  lemma MergeAssign()
    ensures Assign([("a", Num(1))], [("a", Num(2)), ("b", Num(3))]) == [("a", Num(2)), ("b", Num(3))]
  {
    var source := [("a", Num(2)), ("b", Num(3))];
    MergeSetA();
    MergeSetB();
    assert source[1..] == [("b", Num(3))];
    assert [("b", Num(3))][1..] == [];
  }

  lemma MergeSetA()
    ensures Set([("a", Num(1))], "a", Num(2)) == [("a", Num(2))]
  {
    assert [("a", Num(1))][1..] == [];
  }

  lemma MergeSetB()
    ensures Set([("a", Num(2))], "b", Num(3)) == [("a", Num(2)), ("b", Num(3))]
  {
    assert [("a", Num(2))][1..] == [];
    assert Set([], "b", Num(3)) == [("b", Num(3))];
  }

  /** The placeholders of the templates the API map uses, under every pattern. */
  lemma TemplateNames(p: Pattern)
    ensures Names(p, "/users") == []
    ensures Names(p, "/users/:id") == ["id"]
  {
    assert ':' !in "/users" && ':' !in "/users/";
    NamesLiteralPrefix(p, "/users", "");
    assert "/users" + "" == "/users";
    assert ValidName(p, "id");
    NamesAtHole(p, "id", "");
    assert ":" + "id" + "" == ":id";
    NamesLiteralPrefix(p, "/users/", ":id");
    assert "/users/" + ":id" == "/users/:id";
  }

  /** `/:id.json`: the letter-and-digit pattern finds `id`, the non-slash pattern `id.json`. */
  lemma DottedNames()
    ensures ExtractPathParamNames("/:id.json") == ["id"]
    ensures Names(NonSlash, "/:id.json") == ["id.json"]
  {
    DottedLetterAlnum();
    DottedNonSlash();
    assert ':' !in "/";
    DottedText();
    NamesLiteralPrefix(LetterAlnum, "/", ":id.json");
    NamesLiteralPrefix(NonSlash, "/", ":id.json");
  }

  /** The letter-and-digit name stops at the dot. */
  lemma DottedLetterAlnum()
    ensures Names(LetterAlnum, ":id.json") == ["id"]
  {
    assert ':' !in ".json";
    assert ValidName(LetterAlnum, "id") && !ContinuesName(LetterAlnum, ".json"[0]);
    NamesAtHole(LetterAlnum, "id", ".json");
    NamesLiteralPrefix(LetterAlnum, ".json", "");
    DottedText();
  }

  /** The non-slash name runs to the end. */
  lemma DottedNonSlash()
    ensures Names(NonSlash, ":id.json") == ["id.json"]
  {
    assert ValidName(NonSlash, "id.json");
    NamesAtHole(NonSlash, "id.json", "");
    DottedText();
  }

  lemma DottedText()
    ensures ".json" + "" == ".json"
    ensures ":" + "id" + ".json" == ":id.json"
    ensures ":" + "id.json" + "" == ":id.json"
    ensures "/" + ":id.json" == "/:id.json"
  {
  }
}

=== FILE: preseturl.dfy ===
/** The preset-driven path chain (`src/builders/url/PresetUrlBuilder.ts`). A preset is a tree
    whose leaves are placeholder strings or terminals; calling a key of the current node pushes
    onto the builder's shared path stack, records placeholder arguments, and either stays on
    the node or descends into a child. */
module PresetUrl {
  import opened Wrappers
  import opened Js
  import Strs
  import UrlBuilder

  /** `UrlPresetNode`: keys in declaration order, each a placeholder like `:userId`, `null`,
      or a nested node. */
  datatype Node = Node(entries: seq<(string, Child)>)
  datatype Child = Placeholder(name: string) | Terminal | Nested(node: Node)

  /** The builder's `pathStack` and `paramMap`. */
  datatype Trail = Trail(stack: seq<JsValue>, params: Entries<JsValue>)

  const Cleared: Trail := Trail([], [])

  /** `ChainResult`: the path and a copy of the parameter map. */
  datatype ChainResult = ChainResult(path: string, params: Entries<JsValue>)

  /** `value.replace(':', '')`: the placeholder's name without its first ':'. */
  function ParamName(placeholder: string): (n: string)
    ensures Strs.IndexOf(placeholder, ":").None? ==> n == placeholder
  {
    Strs.ReplaceFirst(placeholder, ":", "")
  }

  /** Calling the chain method `key` of the chain object for `n`, with `arg` (`Undefined` when
      the call passes no argument). `None` when the node has no such key: the call is then a
      `TypeError`. A terminal pushes only its key; a placeholder or a nested node pushes the
      key and, when given, the argument; only a placeholder records the argument, and only a
      nested node moves the chain to its child. */
  function Call(t: Trail, n: Node, key: string, arg: JsValue): (r: Option<(Trail, Node)>)
    ensures r.None? <==> key !in Keys(n.entries)
    ensures r.Some? ==> |r.value.0.stack| > |t.stack| && r.value.0.stack[..|t.stack|] == t.stack &&
                        r.value.0.stack[|t.stack|] == Str(key)
    ensures r.Some? ==> (r.value.1 == n <==> !Get(n.entries, key).value.Nested? || Get(n.entries, key).value.node == n)
    ensures r.Some? && r.value.0.params != t.params ==>
              Get(n.entries, key).value.Placeholder? && !arg.Undefined?
    ensures r.Some? ==>
      var child := Get(n.entries, key).value;
      r.value.0.stack == t.stack + (if child.Terminal? || arg.Undefined? then [Str(key)] else [Str(key), arg])
      && r.value.0.params == (if child.Placeholder? && !arg.Undefined? then Set(t.params, ParamName(child.name), arg) else t.params)
      && r.value.1 == (if child.Nested? then child.node else n)
  {
    var found: Option<Child> := Get(n.entries, key);
    if found.None? then None
    else
      match found.value
      case Placeholder(p) =>
        if arg.Undefined? then Some((t.(stack := t.stack + [Str(key)]), n))
        else Some((Trail(t.stack + [Str(key), arg], Set(t.params, ParamName(p), arg)), n))
      case Terminal => Some((t.(stack := t.stack + [Str(key)]), n))
      case Nested(child) =>
        Some((t.(stack := t.stack + if arg.Undefined? then [Str(key)] else [Str(key), arg]), child))
  }

  /** A sequence of calls starting from the chain object for `n`. */
  function Run(t: Trail, n: Node, calls: seq<(string, JsValue)>): (r: Option<(Trail, Node)>)
    decreases |calls|
  {
    if |calls| == 0 then Some((t, n))
    else
      match Call(t, n, calls[0].0, calls[0].1)
      case None => None
      case Some((t', n')) => Run(t', n', calls[1..])
  }

  /** `build()` on any chain object of the builder. */
  function Build(t: Trail): (r: ChainResult)
    ensures |r.path| > 0 && r.path[0] == '/'
    ensures r.params == t.params
  {
    ChainResult("/" + UrlBuilder.JoinSegments(t.stack), t.params)
  }

  /** `reset()`: the stack and the map emptied, so a `build()` straight after it yields the
      root path and no parameters. */
  function Reset(t: Trail): (r: Trail)
    ensures r.stack == [] && r.params == []
    ensures Build(r) == ChainResult("/", [])
  {
    Cleared
  }

  /** `chain()` on a builder whose stack and map an earlier chain left as `earlier`: both are
      reset, the calls run from the preset's root, and `build()` reads the result; `None` when
      a call names a key its node lacks. */
  function Chain(earlier: Trail, preset: Node, calls: seq<(string, JsValue)>): (r: Option<ChainResult>)
    ensures r.Some? <==> Run(Cleared, preset, calls).Some?
    ensures r.Some? ==> r.value == Build(Run(Cleared, preset, calls).value.0)
    ensures r.Some? ==> r.value.params == Run(Cleared, preset, calls).value.0.params
  {
    match Run(Reset(earlier), preset, calls)
    case None => None
    case Some((t, _)) => Some(Build(t))
  }

  /** One call, then the rest. */
  lemma RunStep(t: Trail, n: Node, calls: seq<(string, JsValue)>, t': Trail, n': Node)
    requires |calls| > 0 && Call(t, n, calls[0].0, calls[0].1) == Some((t', n'))
    ensures Run(t, n, calls) == Run(t', n', calls[1..])
  {
  }

  // ---------------------------------------------------------------- properties

  /** What an earlier chain left in the builder does not reach a new chain: `chain()` resets
      before it runs. */
  lemma ChainForgetsEarlier(earlier: Trail, preset: Node, calls: seq<(string, JsValue)>)
    ensures Chain(earlier, preset, calls) == Chain(Cleared, preset, calls)
    ensures Chain(Reset(earlier), preset, calls) == Chain(earlier, preset, calls)
  {
  }

  /** Running two call sequences one after the other is running their concatenation. */
  lemma {:induction false} RunAppend(t: Trail, n: Node, a: seq<(string, JsValue)>, b: seq<(string, JsValue)>)
    ensures Run(t, n, a + b) ==
            match Run(t, n, a)
            case None => None
            case Some((t', n')) => Run(t', n', b)
    decreases |a|
  {
    if |a| == 0 {
      assert a + b == b;
    } else {
      assert (a + b)[0] == a[0];
      assert (a + b)[1..] == a[1..] + b;
      match Call(t, n, a[0].0, a[0].1)
      case None =>
      case Some((t', n')) => RunAppend(t', n', a[1..], b);
    }
  }

  /** The stack only grows: each call's pushes stay below the later ones. */
  lemma {:induction false} RunExtendsStack(t: Trail, n: Node, calls: seq<(string, JsValue)>)
    requires Run(t, n, calls).Some?
    ensures t.stack <= Run(t, n, calls).value.0.stack
    ensures |Run(t, n, calls).value.0.stack| >= |t.stack| + |calls|
    decreases |calls|
  {
    if |calls| > 0 {
      var (t', n') := Call(t, n, calls[0].0, calls[0].1).value;
      RunExtendsStack(t', n', calls[1..]);
    }
  }

  /** A placeholder called with an argument records it under the name without ':', and a
      later read of the map sees it until another placeholder of the same name overwrites it. */
  lemma PlaceholderRecords(t: Trail, n: Node, key: string, p: string, arg: JsValue)
    requires Get(n.entries, key) == Some(Placeholder(p)) && !arg.Undefined?
    ensures Call(t, n, key, arg) == Some((Trail(t.stack + [Str(key), arg], Set(t.params, ParamName(p), arg)), n))
    ensures Get(Call(t, n, key, arg).value.0.params, ParamName(p)) == Some(arg)
  {
  }

  /** A terminal ignores its argument and keeps the node, so its siblings stay callable. */
  lemma TerminalIgnoresArgument(t: Trail, n: Node, key: string, arg: JsValue)
    requires Get(n.entries, key) == Some(Terminal)
    ensures Call(t, n, key, arg) == Call(t, n, key, Undefined) == Some((t.(stack := t.stack + [Str(key)]), n))
  {
  }

  /** When no stack entry renders with a '/', splitting the path after its leading '/' gives
      back the rendered entries: the path is the stack, joined. */
  lemma PathSplitsIntoStack(t: Trail)
    requires |t.stack| > 0
    requires forall i :: 0 <= i < |t.stack| ==> '/' !in UrlBuilder.Element(t.stack[i])
    ensures Strs.Split(Build(t).path[1..], '/') == UrlBuilder.Rendering(t.stack)
  {
    var xs := UrlBuilder.Rendering(t.stack);
    assert Build(t).path[1..] == Strs.Join(xs, "/");
    assert "/" == ['/'];
    Strs.SplitJoin(xs, '/');
  }

  // ---------------------------------------------------------------- the default preset

  const PostsNode: Node := Node([("byId", Placeholder(":postId")), ("comments", Terminal)])
  const UserNode: Node := Node([("byId", Placeholder(":userId")), ("posts", Nested(PostsNode))])
  const AuthNode: Node := Node([("login", Terminal), ("logout", Terminal)])

  /** `urlPreset`: `user` (with `byId` and `posts`) and `auth` (with `login` and `logout`). */
  const UrlPreset: Node := Node([("user", Nested(UserNode)), ("auth", Nested(AuthNode))])

  lemma ParamNames()
    ensures ParamName(":userId") == "userId" && ParamName(":postId") == "postId"
  {
    assert ":" <= ":userId" && ":" <= ":postId";
  }

  /** The root's `user` and `auth`, and `byId` under `user`. */
  lemma RootCalls(t: Trail)
    ensures Call(t, UrlPreset, "user", Undefined) == Some((t.(stack := t.stack + [Str("user")]), UserNode))
    ensures Call(t, UrlPreset, "auth", Undefined) == Some((t.(stack := t.stack + [Str("auth")]), AuthNode))
  {
    assert Get(UrlPreset.entries, "user") == Some(Nested(UserNode));
    assert Get(UrlPreset.entries, "auth") == Some(Nested(AuthNode));
  }

  lemma UserCalls(t: Trail, v: JsValue)
    requires !v.Undefined?
    ensures Call(t, UserNode, "byId", v) == Some((Trail(t.stack + [Str("byId"), v], Set(t.params, "userId", v)), UserNode))
    ensures Call(t, UserNode, "posts", Undefined) == Some((t.(stack := t.stack + [Str("posts")]), PostsNode))
  {
    ParamNames();
    assert Get(UserNode.entries, "byId") == Some(Placeholder(":userId"));
    assert Get(UserNode.entries, "posts") == Some(Nested(PostsNode));
  }

  lemma PostsCalls(t: Trail, v: JsValue)
    requires !v.Undefined?
    ensures Call(t, PostsNode, "byId", v) == Some((Trail(t.stack + [Str("byId"), v], Set(t.params, "postId", v)), PostsNode))
    ensures Call(t, PostsNode, "comments", Undefined) == Some((t.(stack := t.stack + [Str("comments")]), PostsNode))
  {
    ParamNames();
    assert Get(PostsNode.entries, "byId") == Some(Placeholder(":postId"));
    assert Get(PostsNode.entries, "comments") == Some(Terminal);
  }

  lemma AuthCalls(t: Trail)
    ensures Call(t, AuthNode, "login", Undefined) == Some((t.(stack := t.stack + [Str("login")]), AuthNode))
    ensures Call(t, AuthNode, "logout", Undefined) == Some((t.(stack := t.stack + [Str("logout")]), AuthNode))
  {
    assert Get(AuthNode.entries, "login") == Some(Terminal);
    assert Get(AuthNode.entries, "logout") == Some(Terminal);
  }

  /** Running `[c] + rest`: the first call, then the rest. */
  lemma RunCons(t: Trail, n: Node, c: (string, JsValue), rest: seq<(string, JsValue)>, t': Trail, n': Node)
    requires Call(t, n, c.0, c.1) == Some((t', n'))
    ensures Run(t, n, [c] + rest) == Run(t', n', rest)
  {
    assert ([c] + rest)[0] == c && ([c] + rest)[1..] == rest;
  }

  lemma RunNone(t: Trail, n: Node)
    ensures Run(t, n, []) == Some((t, n))
  {
  }

  // The trails of `.user().byId(1).posts().byId(2).comments()`, call by call.
  const UserTrail: Trail := Trail([Str("user")], [])
  const UserIdTrail: Trail := Trail([Str("user"), Str("byId"), Num(1)], [("userId", Num(1))])
  const PostsTrail: Trail := Trail([Str("user"), Str("byId"), Num(1), Str("posts")], [("userId", Num(1))])
  const PostIdTrail: Trail :=
    Trail([Str("user"), Str("byId"), Num(1), Str("posts"), Str("byId"), Num(2)], [("userId", Num(1)), ("postId", Num(2))])
  const CommentsTrail: Trail :=
    Trail([Str("user"), Str("byId"), Num(1), Str("posts"), Str("byId"), Num(2), Str("comments")],
          [("userId", Num(1)), ("postId", Num(2))])

  // Each call of `.user().byId(1).posts().byId(2).comments()` on its own.
  lemma UserCall()
    ensures Call(Cleared, UrlPreset, "user", Undefined) == Some((UserTrail, UserNode))
  {
    RootCalls(Cleared);
  }

  lemma UserIdCall()
    ensures Call(UserTrail, UserNode, "byId", Num(1)) == Some((UserIdTrail, UserNode))
  {
    assert UserTrail.stack + [Str("byId"), Num(1)] == UserIdTrail.stack;
    assert Set(UserTrail.params, "userId", Num(1)) == UserIdTrail.params;
    UserCalls(UserTrail, Num(1));
  }

  lemma PostsCall()
    ensures Call(UserIdTrail, UserNode, "posts", Undefined) == Some((PostsTrail, PostsNode))
  {
    assert UserIdTrail.stack + [Str("posts")] == PostsTrail.stack;
    UserCalls(UserIdTrail, Num(1));
  }

  lemma PostIdCall()
    ensures Call(PostsTrail, PostsNode, "byId", Num(2)) == Some((PostIdTrail, PostsNode))
  {
    assert PostsTrail.stack + [Str("byId"), Num(2)] == PostIdTrail.stack;
    assert Set(PostsTrail.params, "postId", Num(2)) == PostIdTrail.params;
    PostsCalls(PostsTrail, Num(2));
  }

  lemma CommentsCall()
    ensures Call(PostIdTrail, PostsNode, "comments", Undefined) == Some((CommentsTrail, PostsNode))
  {
    assert PostIdTrail.stack + [Str("comments")] == CommentsTrail.stack;
    PostsCalls(PostIdTrail, Num(2));
  }

  /** A two-element list is its head before its tail. */
  lemma PairSplitsAtHead<T>(a: T, b: T)
    ensures [a, b] == [a] + [b] && [b] == [b] + []
  {
  }

  /** A three-element list is its head before its tail. */
  lemma TripleSplitsAtHead<T>(a: T, b: T, c: T)
    ensures [a, b, c] == [a] + [b, c]
  {
  }

  /** A four-element list is its head before its tail. */
  lemma FourSplitsAtHead<T>(a: T, b: T, c: T, d: T)
    ensures [a, b, c, d] == [a] + [b, c, d]
  {
  }

  /** A five-element list is its head before its tail. */
  lemma FiveSplitsAtHead<T>(a: T, b: T, c: T, d: T, e: T)
    ensures [a, b, c, d, e] == [a] + [b, c, d, e]
  {
  }

  lemma UserIdStep()
    ensures Run(UserTrail, UserNode, [("byId", Num(1))]) == Some((UserIdTrail, UserNode))
  {
    UserIdCall();
    RunCons(UserTrail, UserNode, ("byId", Num(1)), [], UserIdTrail, UserNode);
    PairSplitsAtHead(("byId", Num(1)), ("byId", Num(1)));
  }

  lemma CommentsStep()
    ensures Run(PostIdTrail, PostsNode, [("comments", Undefined)]) == Some((CommentsTrail, PostsNode))
  {
    CommentsCall();
    RunCons(PostIdTrail, PostsNode, ("comments", Undefined), [], CommentsTrail, PostsNode);
    PairSplitsAtHead(("comments", Undefined), ("comments", Undefined));
  }

  lemma PostIdStep()
    ensures Run(PostsTrail, PostsNode, [("byId", Num(2)), ("comments", Undefined)]) == Some((CommentsTrail, PostsNode))
  {
    CommentsStep();
    PostIdCall();
    RunCons(PostsTrail, PostsNode, ("byId", Num(2)), [("comments", Undefined)], PostIdTrail, PostsNode);
    PairSplitsAtHead(("byId", Num(2)), ("comments", Undefined));
  }

  lemma PostsStep()
    ensures Run(UserIdTrail, UserNode, [("posts", Undefined), ("byId", Num(2)), ("comments", Undefined)]) ==
            Some((CommentsTrail, PostsNode))
  {
    PostIdStep();
    PostsCall();
    RunCons(UserIdTrail, UserNode, ("posts", Undefined), [("byId", Num(2)), ("comments", Undefined)], PostsTrail, PostsNode);
    TripleSplitsAtHead(("posts", Undefined), ("byId", Num(2)), ("comments", Undefined));
  }

  lemma NestedIdStep()
    ensures Run(UserTrail, UserNode, [("byId", Num(1)), ("posts", Undefined), ("byId", Num(2)), ("comments", Undefined)]) ==
            Some((CommentsTrail, PostsNode))
  {
    PostsStep();
    UserIdCall();
    RunCons(UserTrail, UserNode, ("byId", Num(1)), [("posts", Undefined), ("byId", Num(2)), ("comments", Undefined)],
            UserIdTrail, UserNode);
    FourSplitsAtHead(("byId", Num(1)), ("posts", Undefined), ("byId", Num(2)), ("comments", Undefined));
  }

  lemma NestedRun()
    ensures Run(Cleared, UrlPreset, [("user", Undefined), ("byId", Num(1)), ("posts", Undefined),
                                     ("byId", Num(2)), ("comments", Undefined)]) == Some((CommentsTrail, PostsNode))
  {
    NestedIdStep();
    UserCall();
    RunCons(Cleared, UrlPreset, ("user", Undefined), [("byId", Num(1)), ("posts", Undefined), ("byId", Num(2)), ("comments", Undefined)],
            UserTrail, UserNode);
    FiveSplitsAtHead(("user", Undefined), ("byId", Num(1)), ("posts", Undefined), ("byId", Num(2)), ("comments", Undefined));
  }

  /** `.user().byId(1)` builds `/user/byId/1` with `{ userId: 1 }`. */
  lemma UserByIdExample()
    ensures Chain(Cleared, UrlPreset, [("user", Undefined), ("byId", Num(1))]) ==
            Some(ChainResult("/user/byId/1", [("userId", Num(1))]))
  {
    UserCall();
    UserIdStep();
    RunCons(Cleared, UrlPreset, ("user", Undefined), [("byId", Num(1))], UserTrail, UserNode);
    PairSplitsAtHead(("user", Undefined), ("byId", Num(1)));
    UserIdPath();
  }


  /** `.user().byId(1).posts().byId(2).comments()` builds `/user/byId/1/posts/byId/2/comments`
      with `{ userId: 1, postId: 2 }`. */
  lemma NestedExample()
    ensures Chain(Cleared, UrlPreset, [("user", Undefined), ("byId", Num(1)), ("posts", Undefined),
                                       ("byId", Num(2)), ("comments", Undefined)]) ==
            Some(ChainResult("/user/byId/1/posts/byId/2/comments", [("userId", Num(1)), ("postId", Num(2))]))
  {
    NestedRun();
    CommentsPath();
  }

  lemma CommentsPath()
    ensures Build(CommentsTrail).path == "/user/byId/1/posts/byId/2/comments"
  {
    CommentsSegments();
    SlashComments();
    BuildPath(CommentsTrail, "user/byId/1/posts/byId/2/comments", "/user/byId/1/posts/byId/2/comments");
  }

  lemma SlashComments()
    ensures "/" + "user/byId/1/posts/byId/2/comments" == "/user/byId/1/posts/byId/2/comments"
  {
  }

  lemma BuildPath(t: Trail, joined: string, path: string)
    requires UrlBuilder.JoinSegments(t.stack) == joined && path == "/" + joined
    ensures Build(t).path == path
  {
  }

  lemma CommentsSegments()
    ensures UrlBuilder.JoinSegments(CommentsTrail.stack) == "user/byId/1/posts/byId/2/comments"
  {
    CommentsRendering();
    Join7();
  }

  /** Numbers render in decimal and strings as themselves. */
  lemma SmallElements()
    ensures UrlBuilder.Element(Num(1)) == "1" && UrlBuilder.Element(Num(2)) == "2"
    ensures forall s :: UrlBuilder.Element(Str(s)) == s
  {
  }

  lemma CommentsRendering()
    ensures UrlBuilder.Rendering(CommentsTrail.stack) == ["user", "byId", "1", "posts", "byId", "2", "comments"]
  {
    SmallElements();
    var r := UrlBuilder.Rendering(CommentsTrail.stack);
    assert r[0] == "user" && r[1] == "byId" && r[2] == "1" && r[3] == "posts";
    assert r[4] == "byId" && r[5] == "2" && r[6] == "comments";
  }

  lemma UserIdPath()
    ensures Build(UserIdTrail).path == "/user/byId/1"
  {
    SmallElements();
    var r := UrlBuilder.Rendering(UserIdTrail.stack);
    assert r[0] == "user" && r[1] == "byId" && r[2] == "1";
    assert r == ["user", "byId", "1"];
    Strs.JoinThree("user", "byId", "1", "/");
  }

  const AuthTrail: Trail := Trail([Str("auth")], [])

  /** `.auth().login()` builds `/auth/login` with an empty map. */
  lemma LoginExample()
    ensures Chain(Cleared, UrlPreset, [("auth", Undefined), ("login", Undefined)]) == Some(ChainResult("/auth/login", []))
  {
    RootCalls(Cleared);
    AuthCalls(AuthTrail);
    TwoCalls("auth", AuthNode, "login", AuthNode);
    TwoPath("auth", "login");
    assert "/" + "auth" + "/" + "login" == "/auth/login";
  }

  /** `.auth().logout()` builds `/auth/logout` with an empty map. */
  lemma LogoutExample()
    ensures Chain(Cleared, UrlPreset, [("auth", Undefined), ("logout", Undefined)]) == Some(ChainResult("/auth/logout", []))
  {
    RootCalls(Cleared);
    AuthCalls(AuthTrail);
    TwoCalls("auth", AuthNode, "logout", AuthNode);
    TwoPath("auth", "logout");
    assert "/" + "auth" + "/" + "logout" == "/auth/logout";
  }

  /** `.user().posts()` builds `/user/posts`: descending into a nested node pushes only its key. */
  lemma UserPostsExample()
    ensures Chain(Cleared, UrlPreset, [("user", Undefined), ("posts", Undefined)]) == Some(ChainResult("/user/posts", []))
  {
    RootCalls(Cleared);
    UserPostsCall();
    TwoCalls("user", UserNode, "posts", PostsNode);
    TwoPath("user", "posts");
    assert "/" + "user" + "/" + "posts" == "/user/posts";
  }

  lemma UserPostsCall()
    ensures Call(UserTrail, UserNode, "posts", Undefined) == Some((Trail([Str("user")] + [Str("posts")], []), PostsNode))
  {
    UserCalls(UserTrail, Num(0));
  }

  lemma TwoCalls(a: string, first: Node, b: string, last: Node)
    requires Call(Cleared, UrlPreset, a, Undefined) == Some((Trail([Str(a)], []), first))
    requires Call(Trail([Str(a)], []), first, b, Undefined) == Some((Trail([Str(a)] + [Str(b)], []), last))
    ensures Run(Cleared, UrlPreset, [(a, Undefined), (b, Undefined)]) == Some((Trail([Str(a), Str(b)], []), last))
  {
    assert [Str(a)] + [Str(b)] == [Str(a), Str(b)];
    RunCons(Cleared, UrlPreset, (a, Undefined), [(b, Undefined)], Trail([Str(a)], []), first);
    RunCons(Trail([Str(a)], []), first, (b, Undefined), [], Trail([Str(a), Str(b)], []), last);
    PairSplitsAtHead((a, Undefined), (b, Undefined));
  }

  lemma TwoPath(a: string, b: string)
    ensures Build(Trail([Str(a), Str(b)], [])).path == "/" + a + "/" + b
  {
    SmallElements();
    var r := UrlBuilder.Rendering([Str(a), Str(b)]);
    assert r[0] == a && r[1] == b;
    assert r == [a, b];
    Strs.JoinCons(a, [b], "/");
    assert [a, b] == [a] + [b];
  }

  /** A key the current node lacks is not callable: `.auth().byId(1)` throws. */
  lemma MissingKeyExample()
    ensures Chain(Cleared, UrlPreset, [("auth", Undefined), ("byId", Num(1))]).None?
  {
    RootCalls(Cleared);
    RunCons(Cleared, UrlPreset, ("auth", Undefined), [("byId", Num(1))], Trail([Str("auth")], []), AuthNode);
    assert [("auth", Undefined), ("byId", Num(1))] == [("auth", Undefined)] + [("byId", Num(1))];
    assert Keys(AuthNode.entries) == ["login", "logout"];
  }

  // The seven-part join, one part at a time.
  lemma Join3()
    ensures Strs.Join(["byId", "2", "comments"], "/") == "byId/2/comments"
  {
    Strs.JoinThree("byId", "2", "comments", "/");
  }

  lemma Join4()
    ensures Strs.Join(["posts", "byId", "2", "comments"], "/") == "posts/byId/2/comments"
  {
    Join3();
    Strs.JoinCons("posts", ["byId", "2", "comments"], "/");
    assert ["posts"] + ["byId", "2", "comments"] == ["posts", "byId", "2", "comments"];
    PostsPathPrefixed();
  }

  /** `"posts"` and a '/' in front of the joined `byId/2/comments`. */
  lemma PostsPathPrefixed()
    ensures "posts" + "/" + "byId/2/comments" == "posts/byId/2/comments"
  {
  }

  lemma Join5()
    ensures Strs.Join(["1", "posts", "byId", "2", "comments"], "/") == "1/posts/byId/2/comments"
  {
    Join4();
    Strs.JoinCons("1", ["posts", "byId", "2", "comments"], "/");
    assert ["1"] + ["posts", "byId", "2", "comments"] == ["1", "posts", "byId", "2", "comments"];
    UserIdPathPrefixed();
  }

  /** The user id and a '/' in front of the joined `posts/byId/2/comments`. */
  lemma UserIdPathPrefixed()
    ensures "1" + "/" + "posts/byId/2/comments" == "1/posts/byId/2/comments"
  {
  }

  lemma Join6()
    ensures Strs.Join(["byId", "1", "posts", "byId", "2", "comments"], "/") == "byId/1/posts/byId/2/comments"
  {
    Join5();
    Strs.JoinCons("byId", ["1", "posts", "byId", "2", "comments"], "/");
    assert ["byId"] + ["1", "posts", "byId", "2", "comments"] == ["byId", "1", "posts", "byId", "2", "comments"];
    ByIdPathPrefixed();
  }

  /** `"byId"` and a '/' in front of the joined `1/posts/byId/2/comments`. */
  lemma ByIdPathPrefixed()
    ensures "byId" + "/" + "1/posts/byId/2/comments" == "byId/1/posts/byId/2/comments"
  {
  }

  lemma Join7()
    ensures Strs.Join(["user", "byId", "1", "posts", "byId", "2", "comments"], "/") == "user/byId/1/posts/byId/2/comments"
  {
    Join6();
    Strs.JoinCons("user", ["byId", "1", "posts", "byId", "2", "comments"], "/");
    assert ["user"] + ["byId", "1", "posts", "byId", "2", "comments"] == ["user", "byId", "1", "posts", "byId", "2", "comments"];
    UserPathPrefixed();
  }

  /** `"user"` and a '/' in front of the joined `byId/1/posts/byId/2/comments`. */
  lemma UserPathPrefixed()
    ensures "user" + "/" + "byId/1/posts/byId/2/comments" == "user/byId/1/posts/byId/2/comments"
  {
  }
}

=== FILE: resourcebuilder.dfy ===
/** The fluent resource-definition builder (`src/builders/url/ResourceBuilder.ts`). The
    builder's private fields are a `Draft`; each setter returns the updated draft. */
module ResourceBuilder {
  import opened Wrappers
  import UrlValidators

  datatype Draft = Draft(path: string, methods: seq<string>, params: seq<string>, queryParams: seq<string>)

  /** A new builder: empty path and lists. */
  const Blank: Draft := Draft("", [], [], [])

  predicate NoDuplicates(xs: seq<string>)
  {
    forall i, j :: 0 <= i < j < |xs| ==> xs[i] != xs[j]
  }

  /** Position of the first `x` in `xs`. */
  function FirstIndex(xs: seq<string>, x: string): (i: nat)
    requires x in xs
    ensures i < |xs| && xs[i] == x && x !in xs[..i]
  {
    if xs[0] == x then 0
    else
      var i := FirstIndex(xs[1..], x) + 1;
      assert xs[..i] == [xs[0]] + xs[1..][..i - 1];
      i
  }

  /** `[...new Set(xs)]`: the distinct elements, each where it first occurs. */
  function Dedup(xs: seq<string>): (ys: seq<string>)
    ensures forall x :: x in ys <==> x in xs
    ensures NoDuplicates(ys)
    ensures |ys| <= |xs|
  {
    if |xs| == 0 then []
    else
      var r := Dedup(xs[..|xs| - 1]);
      var last := xs[|xs| - 1];
      assert forall x :: x in xs <==> x in xs[..|xs| - 1] || x == last by {
        assert xs == xs[..|xs| - 1] + [last];
      }
      if last in r then r else r + [last]
  }

  /** A prefix of `xs` has the same first occurrences for the elements it holds. */
  lemma FirstIndexPrefix(xs: seq<string>, n: nat, x: string)
    requires n <= |xs| && x in xs[..n]
    ensures FirstIndex(xs[..n], x) == FirstIndex(xs, x)
  {
    var i := FirstIndex(xs[..n], x);
    var k := FirstIndex(xs, x);
    assert xs[..n][..i] == xs[..i];
  }

  /** The deduplicated list keeps first-occurrence order. */
  lemma {:induction false} DedupKeepsOrder(xs: seq<string>)
    ensures forall i, j :: 0 <= i < j < |Dedup(xs)| ==>
              FirstIndex(xs, Dedup(xs)[i]) < FirstIndex(xs, Dedup(xs)[j])
    decreases |xs|
  {
    if |xs| > 0 {
      var init := xs[..|xs| - 1];
      var last := xs[|xs| - 1];
      var r := Dedup(init);
      DedupKeepsOrder(init);
      assert xs == init + [last];
      assert forall y :: y in r ==> y in xs;
      forall y | y in r
        ensures FirstIndex(xs, y) == FirstIndex(init, y) < |xs| - 1
      {
        FirstIndexPrefix(xs, |xs| - 1, y);
      }
      if last !in r {
        assert last !in init;
        assert FirstIndex(xs, last) == |xs| - 1;
        var ys := r + [last];
        forall i, j | 0 <= i < j < |ys|
          ensures FirstIndex(xs, ys[i]) < FirstIndex(xs, ys[j])
        {
          assert ys[i] == r[i] && ys[i] in r;
          if j < |r| {
            assert ys[j] == r[j] && ys[j] in r;
          }
        }
      } else {
        forall i, j | 0 <= i < j < |r|
          ensures FirstIndex(xs, r[i]) < FirstIndex(xs, r[j])
        {
          assert r[i] in r && r[j] in r;
        }
      }
    }
  }

  /** A list without duplicates comes back unchanged, and only such a list does. */
  lemma {:induction false} DedupIdentity(xs: seq<string>)
    ensures Dedup(xs) == xs <==> NoDuplicates(xs)
    decreases |xs|
  {
    if |xs| > 0 {
      var init := xs[..|xs| - 1];
      var last := xs[|xs| - 1];
      DedupIdentity(init);
      if NoDuplicates(xs) {
        assert NoDuplicates(init) by {
          forall i, j | 0 <= i < j < |init|
            ensures init[i] != init[j]
          {
            assert init[i] == xs[i] && init[j] == xs[j];
          }
        }
        assert last !in init by {
          forall i | 0 <= i < |init|
            ensures init[i] != last
          {
            assert init[i] == xs[i];
          }
        }
        assert xs == init + [last];
      }
    }
  }

  // ---------------------------------------------------------------- setters

  /** `path(p)`: a leading '/' is added when missing. */
  function Normalise(p: string): (q: string)
    ensures |q| > 0 && q[0] == '/'
    ensures q == p || q == "/" + p
    ensures |p| > 0 && p[0] == '/' ==> q == p
  {
    if |p| > 0 && p[0] == '/' then p else "/" + p
  }

  function SetPath(d: Draft, p: string): (r: Draft)
    ensures r == d.(path := Normalise(p))
  {
    d.(path := Normalise(p))
  }

  /** `methods(...ms)`: replaces the list with its distinct elements. */
  function SetMethods(d: Draft, ms: seq<string>): (r: Draft)
    ensures r == d.(methods := Dedup(ms))
  {
    d.(methods := Dedup(ms))
  }

  function SetParams(d: Draft, ps: seq<string>): (r: Draft)
    ensures r == d.(params := Dedup(ps))
  {
    d.(params := Dedup(ps))
  }

  function SetQueryParams(d: Draft, ps: seq<string>): (r: Draft)
    ensures r == d.(queryParams := Dedup(ps))
  {
    d.(queryParams := Dedup(ps))
  }

  /** `build()`: a path is checked first, then at least one method; empty name lists are
      left undeclared. */
  function Build(d: Draft): (r: Result<UrlValidators.ResourceDefinition, string>)
    ensures d.path == "" ==> r == Err("Path is required for resource definition")
    ensures d.path != "" && |d.methods| == 0 ==> r == Err("At least one HTTP method is required")
    ensures r.Ok? <==> d.path != "" && |d.methods| > 0
    ensures r.Ok? ==> r.value.path == d.path && r.value.methods == d.methods
    ensures r.Ok? ==> (r.value.params.Some? <==> |d.params| > 0) && (r.value.queryParams.Some? <==> |d.queryParams| > 0)
    ensures r.Ok? && r.value.params.Some? ==> r.value.params.value == d.params
    ensures r.Ok? && r.value.queryParams.Some? ==> r.value.queryParams.value == d.queryParams
  {
    if d.path == "" then Err("Path is required for resource definition")
    else if |d.methods| == 0 then Err("At least one HTTP method is required")
    else Ok(UrlValidators.ResourceDefinition(
      d.path, d.methods,
      if |d.params| > 0 then Some(d.params) else None,
      if |d.queryParams| > 0 then Some(d.queryParams) else None))
  }

  // ---------------------------------------------------------------- helpers

  function DefineGet(p: string): Draft
  {
    SetMethods(SetPath(Blank, p), ["GET"])
  }

  function DefinePost(p: string): Draft
  {
    SetMethods(SetPath(Blank, p), ["POST"])
  }

  function DefineCrud(p: string): Draft
  {
    SetMethods(SetPath(Blank, p), ["GET", "POST", "PUT", "DELETE"])
  }

  // ---------------------------------------------------------------- properties

  /** Normalising a normalised path changes nothing, and `path('')` is `/`. */
  lemma NormaliseIdempotent(p: string)
    ensures Normalise(Normalise(p)) == Normalise(p)
    ensures Normalise("") == "/"
  {
  }

  /** Once `path` has been called the path check passes, whatever was given. */
  lemma PathCallSatisfiesCheck(d: Draft, p: string)
    ensures SetPath(d, p).path != ""
    ensures Build(SetPath(d, p)).Ok? <==> |d.methods| > 0
  {
  }

  /** A setter called twice keeps only the second list. */
  lemma SettersReplace(d: Draft, a: seq<string>, b: seq<string>)
    ensures SetMethods(SetMethods(d, a), b) == SetMethods(d, b)
    ensures SetParams(SetParams(d, a), b) == SetParams(d, b)
    ensures SetQueryParams(SetQueryParams(d, a), b) == SetQueryParams(d, b)
  {
  }

  /** Repeated names collapse: `methods('GET', 'GET', 'POST')` keeps `GET, POST`. */
  lemma RepeatedMethodsCollapse()
    ensures Dedup(["GET", "GET", "POST"]) == ["GET", "POST"]
  {
    assert ["GET", "GET", "POST"][..2] == ["GET", "GET"];
    assert ["GET", "GET"][..1] == ["GET"];
    assert ["GET"][..0] == [];
  }

  /** The helpers build a definition with their preset methods and nothing declared. */
  lemma HelpersBuild(p: string)
    ensures Build(DefineGet(p)) == Ok(UrlValidators.ResourceDefinition(Normalise(p), ["GET"], None, None))
    ensures Build(DefinePost(p)) == Ok(UrlValidators.ResourceDefinition(Normalise(p), ["POST"], None, None))
    ensures Build(DefineCrud(p)) ==
            Ok(UrlValidators.ResourceDefinition(Normalise(p), ["GET", "POST", "PUT", "DELETE"], None, None))
  {
    KeptMethods(["GET"]);
    KeptMethods(["POST"]);
    CrudMethodsKept();
  }

  /** A one-element method list is kept as it is. */
  lemma KeptMethods(ms: seq<string>)
    requires |ms| == 1
    ensures Dedup(ms) == ms
  {
    DedupIdentity(ms);
  }

  /** The four CRUD methods are distinct and so kept as they are. */
  lemma CrudMethodsKept()
    ensures Dedup(["GET", "POST", "PUT", "DELETE"]) == ["GET", "POST", "PUT", "DELETE"]
  {
    assert NoDuplicates(["GET", "POST", "PUT", "DELETE"]);
    DedupIdentity(["GET", "POST", "PUT", "DELETE"]);
  }

  /** A built definition allows exactly the methods given to `methods`. */
  lemma BuiltAllowsGivenMethods(d: Draft, ms: seq<string>, m: string)
    requires Build(SetMethods(d, ms)).Ok?
    ensures UrlValidators.MethodAllowed(m, Build(SetMethods(d, ms)).value).Accepted? <==> m in ms
  {
  }
}

=== FILE: strs.dfy ===
/** The handful of JavaScript string operations the core relies on:
    `Array.prototype.join`, `String.prototype.split` on one character,
    `indexOf`, a first-occurrence `replace` and trailing-character trimming. */
module Strs {
  import opened Wrappers

  /** The elements of `xs` separated by `sep`, as `xs.join(sep)`. */
  function Join(xs: seq<string>, sep: string): string
  {
    if |xs| == 0 then ""
    else if |xs| == 1 then xs[0]
    else xs[0] + sep + Join(xs[1..], sep)
  }

  /** Index of the first `c` in `s`. */
  function IndexOfChar(s: string, c: char): (r: Option<nat>)
    ensures r.Some? ==> r.value < |s| && s[r.value] == c && c !in s[..r.value]
    ensures r.None? <==> c !in s
  {
    if |s| == 0 then None
    else if s[0] == c then Some(0)
    else
      match IndexOfChar(s[1..], c)
      case None => None
      case Some(i) =>
        assert s[..i + 1] == [s[0]] + s[1..][..i];
        Some(i + 1)
  }

  /** Joining a list with a head puts the separator after the head. */
  lemma JoinCons(a: string, rest: seq<string>, sep: string)
    requires |rest| > 0
    ensures Join([a] + rest, sep) == a + sep + Join(rest, sep)
  {
    assert ([a] + rest)[1..] == rest;
  }

  lemma JoinThree(a: string, b: string, c: string, sep: string)
    ensures Join([a, b, c], sep) == a + sep + b + sep + c
  {
    assert [a, b, c][1..] == [b, c];
    assert [b, c][1..] == [c];
    assert Join([b, c], sep) == b + sep + c;
    assert Join([a, b, c], sep) == a + sep + (b + sep + c);
  }

  /** `s.split(c)`: the maximal runs of `s` between occurrences of `c`. */
  function Split(s: string, c: char): (parts: seq<string>)
    ensures |parts| > 0
    ensures forall i :: 0 <= i < |parts| ==> c !in parts[i]
    decreases |s|
  {
    match IndexOfChar(s, c)
    case None => [s]
    case Some(i) => [s[..i]] + Split(s[i + 1..], c)
  }

  /** The first `c` in `s` is at `k` when `s[k]` is `c` and no earlier character is. */
  lemma IndexOfCharAt(s: string, c: char, k: nat)
    requires k < |s| && s[k] == c && c !in s[..k]
    ensures IndexOfChar(s, c) == Some(k)
  {
    assert s[k] in s;
    var i := IndexOfChar(s, c).value;
    assert forall j :: 0 <= j < k ==> s[..k][j] == s[j];
    assert forall j :: 0 <= j < i ==> s[..i][j] == s[j];
  }

  /** Splitting a joined list on a separator that occurs in no element gives the list back. */
  lemma {:induction false} SplitJoin(xs: seq<string>, c: char)
    requires |xs| > 0
    requires forall i :: 0 <= i < |xs| ==> c !in xs[i]
    ensures Split(Join(xs, [c]), c) == xs
    decreases |xs|
  {
    if |xs| > 1 {
      var s := Join(xs, [c]);
      var rest := Join(xs[1..], [c]);
      assert s == xs[0] + [c] + rest;
      var k := |xs[0]|;
      assert s[..k] == xs[0];
      IndexOfCharAt(s, c, k);
      assert s[k + 1..] == rest;
      SplitJoin(xs[1..], c);
      assert Split(s, c) == [xs[0]] + xs[1..];
    }
  }

  /** Text before the first separator becomes the first part. */
  lemma SplitFirst(a: string, b: string, c: char)
    requires c !in a
    ensures Split(a + [c] + b, c) == [a] + Split(b, c)
  {
    var s := a + [c] + b;
    assert s[..|a|] == a;
    IndexOfCharAt(s, c, |a|);
    assert s[|a| + 1..] == b;
  }

  /** Joining the parts of a split with the same character restores the string. */
  lemma {:induction false} JoinSplit(s: string, c: char)
    ensures Join(Split(s, c), [c]) == s
    decreases |s|
  {
    match IndexOfChar(s, c)
    case None =>
    case Some(i) =>
      JoinSplit(s[i + 1..], c);
      assert s == s[..i] + [c] + s[i + 1..];
  }

  /** `p` occurs in `s` at position `i`. */
  predicate OccursAt(s: string, p: string, i: nat)
  {
    i + |p| <= |s| && s[i..i + |p|] == p
  }

  /** Shifting the string by one character shifts every occurrence by one. */
  lemma OccursShift(s: string, p: string, j: nat)
    requires |s| > 0
    ensures OccursAt(s[1..], p, j) <==> OccursAt(s, p, j + 1)
  {
    if j + 1 + |p| <= |s| {
      assert s[1..][j..j + |p|] == s[j + 1..j + 1 + |p|];
    }
  }

  /** `s.indexOf(p)`: the first position at which `p` occurs. */
  function IndexOf(s: string, p: string): (r: Option<nat>)
    ensures r.Some? ==> OccursAt(s, p, r.value)
    ensures r.Some? ==> forall j :: 0 <= j < r.value ==> !OccursAt(s, p, j)
    ensures r.None? ==> forall j :: 0 <= j ==> !OccursAt(s, p, j)
    decreases |s|
  {
    if |s| < |p| then None
    else if p <= s then Some(0)
    else
      var tail := IndexOf(s[1..], p);
      assert forall j :: 0 < j ==> (OccursAt(s, p, j) <==> OccursAt(s[1..], p, j - 1)) by {
        forall j | 0 < j
          ensures OccursAt(s, p, j) <==> OccursAt(s[1..], p, j - 1)
        {
          OccursShift(s, p, j - 1);
        }
      }
      match tail
      case None => None
      case Some(i) =>
        OccursShift(s, p, i);
        Some(i + 1)
  }

  /** `s.replace(p, r)` with a string pattern: only the first occurrence is replaced. */
  function ReplaceFirst(s: string, p: string, r: string): (t: string)
    ensures (forall j :: 0 <= j ==> !OccursAt(s, p, j)) ==> t == s
    ensures forall i: nat :: OccursAt(s, p, i) && (forall j :: 0 <= j < i ==> !OccursAt(s, p, j)) ==>
      t == s[..i] + r + s[i + |p|..]
  {
    match IndexOf(s, p)
    case None => s
    case Some(i) => s[..i] + r + s[i + |p|..]
  }

  /** `p` first occurs where `r` starts in `a + m + r`, when it does not occur in `a`, cannot
      straddle from `a` into `m` (the first character of `m` is not in `p`) and cannot start
      inside `m` (the first character of `p` is not in `m`). */
  lemma FirstOccurrenceAfter(a: string, m: string, r: string, p: string)
    requires |p| > 0 && |m| > 0
    requires forall j :: 0 <= j ==> !OccursAt(a, p, j)
    requires m[0] !in p && p[0] !in m
    requires p <= r
    ensures IndexOf(a + m + r, p) == Some(|a| + |m|)
  {
    var s := a + m + r;
    var n := |a| + |m|;
    assert s[n..n + |p|] == p by {
      assert s[n..] == r;
    }
    assert OccursAt(s, p, n);
    forall j: nat | j < n
      ensures !OccursAt(s, p, j)
    {
      NoOccurrenceBefore(a, m, r, p, j);
    }
    var k := IndexOf(s, p);
    assert k.Some?;
    assert !(k.value < n);
    assert !(k.value > n);
  }

  lemma NoOccurrenceBefore(a: string, m: string, r: string, p: string, j: nat)
    requires |p| > 0 && |m| > 0
    requires forall j :: 0 <= j ==> !OccursAt(a, p, j)
    requires m[0] !in p && p[0] !in m
    requires j < |a| + |m|
    ensures !OccursAt(a + m + r, p, j)
  {
    var s := a + m + r;
    if j + |p| <= |a| {
      assert s[j..j + |p|] == a[j..j + |p|];
      assert !OccursAt(a, p, j);
    } else if j < |a| {
      if j + |p| <= |s| {
        assert s[j..j + |p|][|a| - j] == s[|a|] == m[0];
      }
    } else {
      assert s[j] == m[j - |a|];
      if j + |p| <= |s| {
        assert s[j..j + |p|][0] == s[j];
      }
    }
  }

  /** The replacement happens at the first occurrence. */
  lemma ReplaceFirstAt(s: string, p: string, r: string, i: nat)
    requires OccursAt(s, p, i)
    requires forall j :: 0 <= j < i ==> !OccursAt(s, p, j)
    ensures ReplaceFirst(s, p, r) == s[..i] + r + s[i + |p|..]
  {
  }

  /** `s` with every trailing `c` removed, as `s.replace(/c+$/, '')`. */
  function TrimTrailing(s: string, c: char): (r: string)
    ensures r <= s
    ensures |r| == 0 || r[|r| - 1] != c
    ensures forall i :: |r| <= i < |s| ==> s[i] == c
  {
    if |s| > 0 && s[|s| - 1] == c then TrimTrailing(s[..|s| - 1], c) else s
  }

  /** `s.endsWith(c)` for a one-character suffix. */
  predicate EndsWith(s: string, c: char)
  {
    |s| > 0 && s[|s| - 1] == c
  }
}

=== FILE: transport.dfy ===
/** What the dispatchers hand to the HTTP library and what comes back. The library itself
    is foreign code and enters the model as a function-valued parameter. */
module Transport {
  import opened Js
  import opened CoreErrors

  /** The request config passed to `apiClient.request`. */
  datatype Request = Request(httpMethod: string, url: string, data: JsValue, params: JsValue)

  datatype Response = Response(status: int, data: JsValue)

  /** The `response` property of a thrown value: absent, present but undefined, or a response. */
  datatype ResponseField = NoResponseKey | ResponseUndefined | HasResponse(response: Response)

  /** A value the transport throws. */
  datatype Thrown =
      /** An object: `isError` for an `Error` instance (an `AxiosError` is one), with the
          properties the handlers read. */
    | ObjectThrown(isError: bool, isAxiosError: bool, message: JsValue, response: ResponseField)
      /** Any value that is not a plain object (a string, a number, `null`, …). A thrown array
          is written as `Primitive(Arr(..))`, so that it renders as `String` renders an array. */
    | Primitive(value: JsValue)
      /** One of the core's own error classes, as a response interceptor throws it. */
    | Typed(error: CoreError)

  /** `apiClient.request(config)` either resolves or rejects. */
  datatype Transported = Responded(response: Response) | Threw(thrown: Thrown)

  type Client = Request -> Transported

  /** `v || fallback` where the result is used as an error message. */
  function MessageOr(v: JsValue, fallback: string): string
  {
    if Truthy(v) then ToJsString(v) else fallback
  }
}

=== FILE: urlbuilder.dfy ===
/** The segment-based URL builder (`src/builders/url/UrlBuilder.ts`): a base, an optional
    version and prefix, path segments, `:name` parameters and a query string.
    `encodeURIComponent` is the parameter `encode`. */
module UrlBuilder {
  import opened Wrappers
  import opened Js
  import Strs

  /** `UrlPresetConfig`: `version` is `Undefined` and `prefix` is `None` when not given. */
  datatype PresetConfig = PresetConfig(baseUrl: string, version: JsValue, prefix: Option<string>)

  /** The normalised configuration the builder keeps. */
  datatype Config = Config(baseUrl: string, version: JsValue, prefix: string)

  datatype Builder = Builder(segments: seq<JsValue>, params: Entries<JsValue>, query: Entries<JsValue>, config: Config)

  /** `UrlBuilderOptions` as `build` reads them; `None`/`Undefined` falls back to the configuration. */
  datatype BuildOptions = BuildOptions(
    baseUrl: Option<string>,
    version: JsValue,
    prefix: Option<string>,
    trailingSlash: bool,
    encodeParams: bool)

  const Defaults: BuildOptions := BuildOptions(None, Undefined, None, false, true)

  /** The constructor: one trailing '/' leaves the base; a missing version or prefix is "". */
  function New(preset: PresetConfig): (b: Builder)
    ensures Strs.EndsWith(preset.baseUrl, '/') ==> b.config.baseUrl + "/" == preset.baseUrl
    ensures !Strs.EndsWith(preset.baseUrl, '/') ==> b.config.baseUrl == preset.baseUrl
    ensures IsNullish(preset.version) ==> b.config.version == Str("")
    ensures !IsNullish(preset.version) ==> b.config.version == preset.version
    ensures b.config.prefix == preset.prefix.GetOr("")
    ensures b.segments == [] && b.params == [] && b.query == []
  {
    var base := if Strs.EndsWith(preset.baseUrl, '/') then preset.baseUrl[..|preset.baseUrl| - 1] else preset.baseUrl;
    Builder([], [], [], Config(base, if IsNullish(preset.version) then Str("") else preset.version, preset.prefix.GetOr("")))
  }

  function Segment(b: Builder, v: JsValue): (r: Builder)
    ensures r == b.(segments := b.segments + [v])
  {
    b.(segments := b.segments + [v])
  }

  function AddSegments(b: Builder, vs: seq<JsValue>): (r: Builder)
    ensures r == b.(segments := b.segments + vs)
  {
    b.(segments := b.segments + vs)
  }

  /** `param(key, value)`: the key takes the value, keeping its place when already set and
      going last otherwise. */
  function Param(b: Builder, k: string, v: JsValue): (r: Builder)
    ensures Get(r.params, k) == Some(v)
    ensures forall k' :: k' != k ==> Get(r.params, k') == Get(b.params, k')
    ensures Keys(r.params) == if k in Keys(b.params) then Keys(b.params) else Keys(b.params) + [k]
    ensures r.segments == b.segments && r.query == b.query && r.config == b.config
  {
    b.(params := Set(b.params, k, v))
  }

  /** `setParams` merges: keys it carries override, others keep their values. */
  function SetParams(b: Builder, params: Entries<JsValue>): (r: Builder)
    ensures forall k :: k !in Keys(params) ==> Get(r.params, k) == Get(b.params, k)
    ensures r.segments == b.segments && r.query == b.query && r.config == b.config
  {
    b.(params := Assign(b.params, params))
  }

  /** `query(key, value)`, with the same placement as `param`. */
  function Query(b: Builder, k: string, v: JsValue): (r: Builder)
    ensures Get(r.query, k) == Some(v)
    ensures forall k' :: k' != k ==> Get(r.query, k') == Get(b.query, k')
    ensures Keys(r.query) == if k in Keys(b.query) then Keys(b.query) else Keys(b.query) + [k]
    ensures r.segments == b.segments && r.params == b.params && r.config == b.config
  {
    b.(query := Set(b.query, k, v))
  }

  function Queries(b: Builder, query: Entries<JsValue>): (r: Builder)
    ensures forall k :: k !in Keys(query) ==> Get(r.query, k) == Get(b.query, k)
    ensures r.segments == b.segments && r.params == b.params && r.config == b.config
  {
    b.(query := Assign(b.query, query))
  }

  /** The later of two merged values wins. */
  lemma SetParamsOverrides(b: Builder, params: Entries<JsValue>, k: string)
    requires UniqueKeys(params) && k in Keys(params)
    ensures Get(SetParams(b, params).params, k) == Get(params, k)
  {
    AssignOverrides(b.params, params, k);
  }

  lemma QueriesOverride(b: Builder, query: Entries<JsValue>, k: string)
    requires UniqueKeys(query) && k in Keys(query)
    ensures Get(Queries(b, query).query, k) == Get(query, k)
  {
    AssignOverrides(b.query, query, k);
  }

  function Reset(b: Builder): (r: Builder)
    ensures r.segments == [] && r.params == [] && r.query == []
    ensures r.config == b.config
  {
    Builder([], [], [], b.config)
  }

  // ---------------------------------------------------------------- assembling

  /** `String(v)` for an element of `Array.prototype.join`: null and undefined are empty. */
  function Element(v: JsValue): string
  {
    if IsNullish(v) then "" else ToJsString(v)
  }

  /** Each segment as `Array.prototype.join` renders it. */
  function Rendering(segments: seq<JsValue>): (xs: seq<string>)
    ensures |xs| == |segments|
    ensures forall i :: 0 <= i < |segments| ==> xs[i] == Element(segments[i])
  {
    seq(|segments|, i requires 0 <= i < |segments| => Element(segments[i]))
  }

  function JoinSegments(segments: seq<JsValue>): string
  {
    Strs.Join(Rendering(segments), "/")
  }

  /** The base, then `/v<version>` for a truthy version, `/<prefix>` for a non-empty prefix,
      and `/` with the segments joined by '/' when there are segments. */
  function Head(base: string, version: JsValue, prefix: string, segments: seq<JsValue>): (url: string)
    ensures base <= url
  {
    base
    + (if Truthy(version) then "/v" + ToJsString(version) else "")
    + (if prefix != "" then "/" + prefix else "")
    + (if |segments| > 0 then "/" + JoinSegments(segments) else "")
  }

  /** `url.replace(new RegExp(':' + key + '\\??'), value)`: the first `:key`, together with a
      `?` right after it, becomes the value. */
  function ReplaceParam(url: string, key: string, value: string): (r: string)
    ensures Strs.IndexOf(url, ":" + key).None? ==> r == url
    ensures Strs.IndexOf(url, ":" + key).Some? &&
            !Strs.OccursAt(url, ":" + key + "?", Strs.IndexOf(url, ":" + key).value) ==>
      r == Strs.ReplaceFirst(url, ":" + key, value)
    ensures Strs.IndexOf(url, ":" + key).Some? &&
            Strs.OccursAt(url, ":" + key + "?", Strs.IndexOf(url, ":" + key).value) ==>
      r == Strs.ReplaceFirst(url, ":" + key + "?", value)
  {
    match Strs.IndexOf(url, ":" + key)
    case None => url
    case Some(i) =>
      ReplaceParamAt(url, key, value, i);
      Cut(url, key, value, i)
  }

  /** The value in place of the `:key` at `i` and of a '?' right after it. */
  function Cut(url: string, key: string, value: string, i: nat): string
    requires i + |key| + 1 <= |url|
  {
    var j := i + |key| + 1;
    var e := if j < |url| && url[j] == '?' then j + 1 else j;
    url[..i] + value + url[e..]
  }

  /** At the first `:key`, the cut is a string replace of `:key`, or of `:key?` when a '?'
      follows. */
  lemma ReplaceParamAt(url: string, key: string, value: string, i: nat)
    requires Strs.IndexOf(url, ":" + key) == Some(i)
    ensures i + |key| + 1 <= |url|
    ensures !Strs.OccursAt(url, ":" + key + "?", i) ==> Cut(url, key, value, i) == Strs.ReplaceFirst(url, ":" + key, value)
    ensures Strs.OccursAt(url, ":" + key + "?", i) ==> Cut(url, key, value, i) == Strs.ReplaceFirst(url, ":" + key + "?", value)
  {
    var p := ":" + key;
    FirstMarkedOccurrence(url, p, i);
    if Strs.OccursAt(url, p + "?", i) {
      CutMarked(url, key, value, i);
      Strs.ReplaceFirstAt(url, p + "?", value, i);
    } else {
      CutPlain(url, key, value, i);
      Strs.ReplaceFirstAt(url, p, value, i);
    }
  }

  lemma CutMarked(url: string, key: string, value: string, i: nat)
    requires i + |key| + 2 <= |url| && url[i + |key| + 1] == '?'
    ensures Cut(url, key, value, i) == url[..i] + value + url[i + |":" + key + "?"|..]
  {
  }

  lemma CutPlain(url: string, key: string, value: string, i: nat)
    requires i + |key| + 1 <= |url|
    requires !(i + |key| + 1 < |url| && url[i + |key| + 1] == '?')
    ensures Cut(url, key, value, i) == url[..i] + value + url[i + |":" + key|..]
  {
  }

  /** Where `p` first occurs at `i`, `p` followed by '?' occurs at `i` exactly when the
      character after it is '?', and never earlier. */
  lemma FirstMarkedOccurrence(url: string, p: string, i: nat)
    requires Strs.OccursAt(url, p, i)
    requires forall j :: 0 <= j < i ==> !Strs.OccursAt(url, p, j)
    ensures Strs.OccursAt(url, p + "?", i) <==> i + |p| < |url| && url[i + |p|] == '?'
    ensures forall j :: 0 <= j < i ==> !Strs.OccursAt(url, p + "?", j)
  {
    forall j | 0 <= j < i
      ensures !Strs.OccursAt(url, p + "?", j)
    {
      MarkedIsPlain(url, p, j);
    }
    if i + |p| < |url| && url[i + |p|] == '?' {
      assert url[i..i + |p| + 1] == url[i..i + |p|] + [url[i + |p|]];
    }
    if Strs.OccursAt(url, p + "?", i) {
      assert url[i..i + |p| + 1][|p|] == (p + "?")[|p|];
    }
  }

  /** An occurrence of `p` followed by '?' is an occurrence of `p`. */
  lemma MarkedIsPlain(url: string, p: string, j: nat)
    ensures Strs.OccursAt(url, p + "?", j) ==> Strs.OccursAt(url, p, j)
  {
    if Strs.OccursAt(url, p + "?", j) {
      assert url[j..j + |p|] == (p + "?")[..|p|];
    }
  }

  function Rendered(v: JsValue, encodeParams: bool, encode: string -> string): string
  {
    if encodeParams then encode(ToJsString(v)) else ToJsString(v)
  }

  function ApplyParams(url: string, params: Entries<JsValue>, encodeParams: bool, encode: string -> string): string
    decreases |params|
  {
    if |params| == 0 then url
    else ApplyParams(ReplaceParam(url, params[0].0, Rendered(params[0].1, encodeParams, encode)),
                     params[1..], encodeParams, encode)
  }

  /** One entry's part: `key[]=v` per array element joined by '&', or `key=value`. */
  function Part(k: string, v: JsValue, encodeParams: bool, encode: string -> string): string
  {
    var ek := if encodeParams then encode(k) else k;
    if v.Arr? then
      Strs.Join(seq(|v.items|, j requires 0 <= j < |v.items| => ek + "[]=" + Rendered(v.items[j], encodeParams, encode)), "&")
    else
      ek + "=" + Rendered(v, encodeParams, encode)
  }

  /** Null and undefined entries are dropped, and so are parts that come out empty. */
  function QueryParts(q: Entries<JsValue>, encodeParams: bool, encode: string -> string): (parts: seq<string>)
    ensures forall i :: 0 <= i < |parts| ==> parts[i] != ""
    ensures |parts| <= |q|
  {
    if |q| == 0 then []
    else
      var rest := QueryParts(q[1..], encodeParams, encode);
      if IsNullish(q[0].1) then rest
      else
        var part := Part(q[0].0, q[0].1, encodeParams, encode);
        if part == "" then rest else [part] + rest
  }

  function QueryString(q: Entries<JsValue>, encodeParams: bool, encode: string -> string): string
  {
    Strs.Join(QueryParts(q, encodeParams, encode), "&")
  }

  /** `build(options)`. */
  function Build(b: Builder, o: BuildOptions, encode: string -> string): (url: string)
    ensures o.trailingSlash ==> Strs.EndsWith(url, '/')
  {
    var base := o.baseUrl.GetOr(b.config.baseUrl);
    var version := if o.version.Undefined? then b.config.version else o.version;
    var prefix := o.prefix.GetOr(b.config.prefix);
    var withParams := ApplyParams(Head(base, version, prefix, b.segments), b.params, o.encodeParams, encode);
    var qs := QueryString(b.query, o.encodeParams, encode);
    var withQuery := if qs != "" then Strs.TrimTrailing(withParams, '?') + "?" + qs else withParams;
    if o.trailingSlash && !Strs.EndsWith(withQuery, '/') then withQuery + "/" else withQuery
  }

  // ---------------------------------------------------------------- properties

  lemma {:induction false} QueryPartsAppend(a: Entries<JsValue>, c: Entries<JsValue>, encodeParams: bool, encode: string -> string)
    ensures QueryParts(a + c, encodeParams, encode) == QueryParts(a, encodeParams, encode) + QueryParts(c, encodeParams, encode)
    decreases |a|
  {
    if |a| == 0 {
      assert a + c == c;
    } else {
      assert (a + c)[0] == a[0];
      assert (a + c)[1..] == a[1..] + c;
      QueryPartsAppend(a[1..], c, encodeParams, encode);
    }
  }

  /** Entries that render nothing: null, undefined, and the empty array. */
  predicate Silent(v: JsValue)
  {
    IsNullish(v) || v == Arr([])
  }

  /** A null, undefined or empty-array entry leaves the query string as if it were absent. */
  lemma SilentEntryIgnored(a: Entries<JsValue>, k: string, v: JsValue, c: Entries<JsValue>,
                           encodeParams: bool, encode: string -> string)
    requires Silent(v)
    ensures QueryString(a + [(k, v)] + c, encodeParams, encode) == QueryString(a + c, encodeParams, encode)
  {
    SilentPartsEmpty(k, v, encodeParams, encode);
    QueryPartsAppend(a + [(k, v)], c, encodeParams, encode);
    QueryPartsAppend(a, [(k, v)], encodeParams, encode);
    QueryPartsAppend(a, c, encodeParams, encode);
    assert QueryParts(a + [(k, v)] + c, encodeParams, encode) == QueryParts(a + c, encodeParams, encode);
  }

  lemma SilentPartsEmpty(k: string, v: JsValue, encodeParams: bool, encode: string -> string)
    requires Silent(v)
    ensures QueryParts([(k, v)], encodeParams, encode) == []
  {
    assert [(k, v)][1..] == [];
    assert QueryParts([], encodeParams, encode) == [];
    if v.Arr? {
      assert |v.items| == 0;
      assert Part(k, v, encodeParams, encode) == "";
    }
  }

  /** The query string is empty exactly when every entry is null, undefined or an empty array. */
  lemma {:induction false} QueryStringEmptyIff(q: Entries<JsValue>, encodeParams: bool, encode: string -> string)
    ensures QueryString(q, encodeParams, encode) == "" <==> forall i :: 0 <= i < |q| ==> Silent(q[i].1)
    decreases |q|
  {
    if |q| > 0 {
      QueryStringEmptyIff(q[1..], encodeParams, encode);
      var parts := QueryParts(q, encodeParams, encode);
      var rest := QueryParts(q[1..], encodeParams, encode);
      if !Silent(q[0].1) {
        var part := Part(q[0].0, q[0].1, encodeParams, encode);
        assert part != "" by {
          if q[0].1.Arr? {
            var items := q[0].1.items;
            var ek := if encodeParams then encode(q[0].0) else q[0].0;
            var xs := seq(|items|, j requires 0 <= j < |items| => ek + "[]=" + Rendered(items[j], encodeParams, encode));
            JoinNonEmpty(xs, "&");
          }
        }
        assert parts == [part] + rest;
        assert Strs.Join(parts, "&") != "" by {
          JoinNonEmpty(parts, "&");
        }
      } else {
        assert parts == rest;
      }
      if forall i :: 0 <= i < |q| ==> Silent(q[i].1) {
        assert forall i :: 0 <= i < |q| - 1 ==> q[1..][i] == q[i + 1];
      } else if Silent(q[0].1) {
        var i :| 0 <= i < |q| && !Silent(q[i].1);
        assert q[1..][i - 1] == q[i];
      }
    }
  }

  /** A join of a list whose first element is non-empty is non-empty. */
  lemma JoinNonEmpty(xs: seq<string>, sep: string)
    requires |xs| > 0 && xs[0] != ""
    ensures Strs.Join(xs, sep) != ""
  {
    if |xs| > 1 {
      assert Strs.Join(xs, sep) == xs[0] + sep + Strs.Join(xs[1..], sep);
      assert |Strs.Join(xs, sep)| >= |xs[0]|;
    }
  }

  /** A non-empty query string follows exactly one '?': trailing '?'s of the URL are dropped first. */
  lemma QueryFollowsOneMark(b: Builder, o: BuildOptions, encode: string -> string)
    requires !o.trailingSlash
    requires QueryString(b.query, o.encodeParams, encode) != ""
    ensures var url := Build(b, o, encode);
            var qs := QueryString(b.query, o.encodeParams, encode);
            |url| > |qs| && url[|url| - |qs|..] == qs && url[|url| - |qs| - 1] == '?' &&
            (|url| - |qs| - 1 == 0 || url[|url| - |qs| - 2] != '?')
  {
    var base := o.baseUrl.GetOr(b.config.baseUrl);
    var version := if o.version.Undefined? then b.config.version else o.version;
    var prefix := o.prefix.GetOr(b.config.prefix);
    var withParams := ApplyParams(Head(base, version, prefix, b.segments), b.params, o.encodeParams, encode);
    var qs := QueryString(b.query, o.encodeParams, encode);
    var t := Strs.TrimTrailing(withParams, '?');
    var url := t + "?" + qs;
    assert Build(b, o, encode) == url;
    assert url[|url| - |qs|..] == qs;
    assert url[|t|] == '?';
    if |t| > 0 {
      assert url[|t| - 1] == t[|t| - 1];
    }
  }

  /** `trailingSlash` adds a '/' only when the URL (query string included) does not end in one. */
  lemma TrailingSlashAfterQuery(b: Builder, o: BuildOptions, encode: string -> string)
    ensures var plain := Build(b, o.(trailingSlash := false), encode);
            Build(b, o.(trailingSlash := true), encode) == if Strs.EndsWith(plain, '/') then plain else plain + "/"
  {
  }

  /** A '?' marking an optional placeholder goes with it. */
  lemma OptionalMarkConsumed(a: string, key: string, value: string, rest: string)
    requires forall j :: 0 <= j ==> !Strs.OccursAt(a, ":" + key, j)
    requires |a| > 0 && a[|a| - 1] == '/' && '/' !in key
    ensures ReplaceParam(a + ":" + key + "?" + rest, key, value) == a + value + rest
  {
    var p := ":" + key;
    var a' := a[..|a| - 1];
    assert forall j :: 0 <= j ==> !Strs.OccursAt(a', p, j) by {
      forall j: nat
        ensures !Strs.OccursAt(a', p, j)
      {
        if j + |p| <= |a'| {
          assert a'[j..j + |p|] == a[j..j + |p|];
          assert !Strs.OccursAt(a, p, j);
        }
      }
    }
    assert '/' !in p by {
      assert p[0] == ':';
      assert forall i :: 1 <= i < |p| ==> p[i] == key[i - 1];
    }
    assert p[0] !in "/";
    assert a + ":" + key + "?" + rest == a' + "/" + (p + "?" + rest);
    Strs.FirstOccurrenceAfter(a', "/", p + "?" + rest, p);
    var url := a + ":" + key + "?" + rest;
    var i := |a|;
    assert url[i + |key| + 1] == '?';
    assert url[..i] == a;
    assert url[i + |key| + 2..] == rest;
  }

  /** The pieces `build` puts after the base, each behind a '/': `v<version>` for a truthy
      version, the prefix when non-empty, then every segment. */
  function HeadPieces(version: JsValue, prefix: string, segments: seq<JsValue>): seq<string>
  {
    (if Truthy(version) then ["v" + ToJsString(version)] else [])
    + (if prefix != "" then [prefix] else [])
    + Rendering(segments)
  }

  /** Each piece behind its own '/'. */
  function Slashed(xs: seq<string>): string
  {
    if |xs| == 0 then "" else "/" + Strs.Join(xs, "/")
  }

  lemma SlashedCons(a: string, xs: seq<string>)
    ensures "/" + a + Slashed(xs) == Slashed([a] + xs)
  {
    if |xs| > 0 {
      Strs.JoinCons(a, xs, "/");
    } else {
      assert [a] + xs == [a];
    }
  }

  /** The head of the URL is the base followed by the pieces, each behind a '/'. */
  lemma HeadJoinsPieces(base: string, version: JsValue, prefix: string, segments: seq<JsValue>)
    ensures Head(base, version, prefix, segments) == base + Slashed(HeadPieces(version, prefix, segments))
  {
    var v := "v" + ToJsString(version);
    var vs: seq<string> := if Truthy(version) then [v] else [];
    var ps: seq<string> := if prefix != "" then [prefix] else [];
    var ss := Rendering(segments);
    var tail := if |segments| > 0 then "/" + JoinSegments(segments) else "";
    var withPrefix := (if prefix != "" then "/" + prefix else "") + tail;
    var withVersion := (if Truthy(version) then "/" + v else "") + withPrefix;
    assert tail == Slashed(ss);
    assert withPrefix == Slashed(ps + ss) by {
      SlashedOpt(prefix != "", prefix, ss);
    }
    assert withVersion == Slashed(vs + (ps + ss)) by {
      SlashedOpt(Truthy(version), v, ps + ss);
    }
    var vpart := if Truthy(version) then "/v" + ToJsString(version) else "";
    var ppart := if prefix != "" then "/" + prefix else "";
    HeadParts(base, version, prefix, segments);
    assert vpart == (if Truthy(version) then "/" + v else "") by {
      VersionText(ToJsString(version));
    }
    ConcatFour(base, vpart, ppart, tail);
    var pieces := HeadPieces(version, prefix, segments);
    assert pieces == vs + ps + ss;
    PiecesAssociate(vs, ps, ss);
    assert Slashed(pieces) == withVersion;
  }

  lemma HeadParts(base: string, version: JsValue, prefix: string, segments: seq<JsValue>)
    ensures Head(base, version, prefix, segments) ==
      base + (if Truthy(version) then "/v" + ToJsString(version) else "")
      + (if prefix != "" then "/" + prefix else "")
      + (if |segments| > 0 then "/" + JoinSegments(segments) else "")
  {
  }

  lemma PiecesAssociate(a: seq<string>, b: seq<string>, c: seq<string>)
    ensures a + b + c == a + (b + c)
  {
  }

  lemma ConcatFour(a: string, b: string, c: string, d: string)
    ensures a + b + c + d == a + (b + (c + d))
  {
  }

  lemma VersionText(t: string)
    ensures "/v" + t == "/" + ("v" + t)
  {
  }

  /** An optional piece in front of others. */
  lemma SlashedOpt(present: bool, a: string, xs: seq<string>)
    ensures (if present then "/" + a else "") + Slashed(xs) == Slashed((if present then [a] else []) + xs)
  {
    if present {
      SlashedCons(a, xs);
    } else {
      assert [] + xs == xs;
    }
  }

  /** When no piece holds a '/', splitting what follows the base and its '/' gives back the
      version, the prefix and the rendered segments, in that order. */
  lemma HeadSplits(base: string, version: JsValue, prefix: string, segments: seq<JsValue>)
    requires Truthy(version) ==> '/' !in ToJsString(version)
    requires '/' !in prefix
    requires forall i :: 0 <= i < |segments| ==> '/' !in Element(segments[i])
    requires Truthy(version) || prefix != "" || |segments| > 0
    ensures Strs.Split(Head(base, version, prefix, segments)[|base| + 1..], '/') == HeadPieces(version, prefix, segments)
  {
    HeadJoinsPieces(base, version, prefix, segments);
    PiecesWithoutSlash(version, prefix, segments);
    SplitSlashed(base, HeadPieces(version, prefix, segments));
  }

  lemma PiecesWithoutSlash(version: JsValue, prefix: string, segments: seq<JsValue>)
    requires Truthy(version) ==> '/' !in ToJsString(version)
    requires '/' !in prefix
    requires forall i :: 0 <= i < |segments| ==> '/' !in Element(segments[i])
    requires Truthy(version) || prefix != "" || |segments| > 0
    ensures |HeadPieces(version, prefix, segments)| > 0
    ensures forall i :: 0 <= i < |HeadPieces(version, prefix, segments)| ==> '/' !in HeadPieces(version, prefix, segments)[i]
  {
    var xs := HeadPieces(version, prefix, segments);
    if Truthy(version) {
      assert '/' !in "v" + ToJsString(version);
    }
  }

  /** The pieces behind a base split back out of it. */
  lemma SplitSlashed(base: string, xs: seq<string>)
    requires |xs| > 0
    requires forall i :: 0 <= i < |xs| ==> '/' !in xs[i]
    ensures Strs.Split((base + Slashed(xs))[|base| + 1..], '/') == xs
  {
    assert (base + Slashed(xs))[|base| + 1..] == Strs.Join(xs, "/");
    assert "/" == ['/'];
    Strs.SplitJoin(xs, '/');
  }

  /** `build` in full: the parameters substituted, in insertion order, into the base and the
      pieces; then, when the query string is non-empty, trailing '?'s trimmed and '?' and the
      query string appended; then '/' when asked for and not already last. */
  lemma BuildAssembles(b: Builder, o: BuildOptions, encode: string -> string)
    ensures var version := if o.version.Undefined? then b.config.version else o.version;
      var withParams := ApplyParams(o.baseUrl.GetOr(b.config.baseUrl) + Slashed(HeadPieces(version, o.prefix.GetOr(b.config.prefix), b.segments)),
                                    b.params, o.encodeParams, encode);
      var qs := QueryString(b.query, o.encodeParams, encode);
      var withQuery := if qs != "" then Strs.TrimTrailing(withParams, '?') + "?" + qs else withParams;
      Build(b, o, encode) == if o.trailingSlash && !Strs.EndsWith(withQuery, '/') then withQuery + "/" else withQuery
  {
    var version := if o.version.Undefined? then b.config.version else o.version;
    HeadJoinsPieces(o.baseUrl.GetOr(b.config.baseUrl), version, o.prefix.GetOr(b.config.prefix), b.segments);
  }
}

=== FILE: validators.dfy ===
/** The resource validators of the URL builders (`src/builders/url/validators.ts`). A check
    either accepts or rejects with the message of the `Error` the source throws. */
module UrlValidators {
  import opened Wrappers
  import opened Js
  import Strs
  import HttpMethods
  import PathParams

  /** A resource: its path template, the methods it allows, and, when declared, the
      parameter and query names it accepts (an empty declared list is still a declaration). */
  datatype ResourceDefinition = ResourceDefinition(
    path: string,
    methods: seq<string>,
    params: Option<seq<string>>,
    queryParams: Option<seq<string>>)

  datatype Verdict = Accepted | Rejected(message: string)

  /** The elements of `xs` that are not in `allowed`, in order. */
  function Outside(xs: seq<string>, allowed: seq<string>): (ys: seq<string>)
    ensures forall y :: y in ys <==> y in xs && y !in allowed
    ensures |ys| <= |xs|
  {
    if |xs| == 0 then []
    else if xs[0] in allowed then Outside(xs[1..], allowed)
    else [xs[0]] + Outside(xs[1..], allowed)
  }

  // ---------------------------------------------------------------- methods

  function MethodAllowed(m: string, r: ResourceDefinition): (v: Verdict)
    ensures v.Accepted? <==> m in r.methods
  {
    if m in r.methods then Accepted
    else Rejected("Method \"" + m + "\" is not allowed for this resource. Allowed methods: "
                  + Strs.Join(r.methods, ", "))
  }

  function MethodExists(m: string): (v: Verdict)
    ensures v.Accepted? <==> HttpMethods.Parse(m).Some?
  {
    if m in HttpMethods.ValidMethods then Accepted
    else Rejected("Invalid HTTP method: " + m + ". Valid methods are: " + Strs.Join(HttpMethods.ValidMethods, ", "))
  }

  /** The list in the rejection reads "GET, POST, PUT, DELETE, PATCH". */
  lemma MethodExistsMessage(m: string)
    requires m !in HttpMethods.ValidMethods
    ensures MethodExists(m) ==
      Rejected("Invalid HTTP method: " + m + ". Valid methods are: GET, POST, PUT, DELETE, PATCH")
  {
    HttpMethods.ValidMethodsListed();
    MethodListText();
    var a := "Invalid HTTP method: " + m;
    assert a + ". Valid methods are: " + "GET, POST, PUT, DELETE, PATCH"
      == a + (". Valid methods are: " + "GET, POST, PUT, DELETE, PATCH");
  }

  lemma MethodListText()
    ensures ". Valid methods are: " + "GET, POST, PUT, DELETE, PATCH" == ". Valid methods are: GET, POST, PUT, DELETE, PATCH"
  {
  }

  /** The method must be a known one, and then one the resource allows. */
  function ValidateMethod(m: string, r: ResourceDefinition): (v: Verdict)
    ensures v.Accepted? <==> m in HttpMethods.ValidMethods && m in r.methods
    ensures m !in HttpMethods.ValidMethods ==> v == MethodExists(m)
  {
    match MethodExists(m)
    case Rejected(msg) => Rejected(msg)
    case Accepted => MethodAllowed(m, r)
  }

  // ---------------------------------------------------------------- path parameters

  /** `:name` placeholders, a letter then letters and digits: the same names the core extracts. */
  function RequiredParams(path: string): seq<string>
  {
    PathParams.ExtractPathParamNames(path)
  }

  /** The first parameter whose value is rejected, with the message for it. */
  function BadParamValue(params: Entries<JsValue>): (r: Option<string>)
    ensures r.None? <==> forall i :: 0 <= i < |params| ==> GoodParamValue(params[i].1)
  {
    if |params| == 0 then None
    else if IsNullish(params[0].1) then Some("Parameter \"" + params[0].0 + "\" cannot be null or undefined")
    else if params[0].1 == Str("") then Some("Parameter \"" + params[0].0 + "\" cannot be empty")
    else BadParamValue(params[1..])
  }

  predicate GoodParamValue(v: JsValue)
  {
    !IsNullish(v) && v != Str("")
  }

  /** Missing placeholders first, then undeclared names, then bad values. */
  function ValidateParams(params: Entries<JsValue>, r: ResourceDefinition): Verdict
  {
    var missing := Outside(RequiredParams(r.path), Keys(params));
    if |missing| > 0 then Rejected("Missing required parameters: " + Strs.Join(missing, ", "))
    else if r.params.Some? && |Outside(Keys(params), r.params.value)| > 0 then
      Rejected("Invalid parameters: " + Strs.Join(Outside(Keys(params), r.params.value), ", ")
               + ". Allowed parameters: " + Strs.Join(r.params.value, ", "))
    else
      match BadParamValue(params)
      case Some(msg) => Rejected(msg)
      case None => Accepted
  }

  /** Parameters pass exactly when every placeholder has a key, every key is declared (when
      names are declared), and no value is null, undefined or empty. */
  lemma ValidateParamsIff(params: Entries<JsValue>, r: ResourceDefinition)
    ensures ValidateParams(params, r).Accepted? <==>
      (forall n :: n in RequiredParams(r.path) ==> n in Keys(params)) &&
      (r.params.Some? ==> forall k :: k in Keys(params) ==> k in r.params.value) &&
      (forall i :: 0 <= i < |params| ==> GoodParamValue(params[i].1))
  {
    var missing := Outside(RequiredParams(r.path), Keys(params));
    if |missing| > 0 {
      assert missing[0] in missing;
    }
    if r.params.Some? && |Outside(Keys(params), r.params.value)| > 0 {
      assert Outside(Keys(params), r.params.value)[0] in Outside(Keys(params), r.params.value);
    }
  }

  /** A missing placeholder is reported ahead of any other problem, with every missing name. */
  lemma MissingReportedFirst(params: Entries<JsValue>, r: ResourceDefinition, n: string)
    requires n in RequiredParams(r.path) && n !in Keys(params)
    ensures ValidateParams(params, r).Rejected?
    ensures ValidateParams(params, r).message ==
      "Missing required parameters: " + Strs.Join(Outside(RequiredParams(r.path), Keys(params)), ", ")
  {
    assert n in Outside(RequiredParams(r.path), Keys(params));
  }

  // ---------------------------------------------------------------- query parameters

  function BadQueryValue(query: Entries<JsValue>): (r: Option<string>)
    ensures r.None? <==> forall i :: 0 <= i < |query| ==> GoodQueryValue(query[i].1)
  {
    if |query| == 0 then None
    else if query[0].1.Undefined? then Some("Query parameter \"" + query[0].0 + "\" cannot be undefined")
    else if query[0].1 == Arr([]) then Some("Query parameter \"" + query[0].0 + "\" array cannot be empty")
    else BadQueryValue(query[1..])
  }

  /** `null` is allowed; `undefined` and the empty array are not. */
  predicate GoodQueryValue(v: JsValue)
  {
    !v.Undefined? && v != Arr([])
  }

  function ValidateQuery(query: Entries<JsValue>, r: ResourceDefinition): Verdict
  {
    if r.queryParams.None? then
      if |query| > 0 then Rejected("Query parameters are not allowed for this resource") else Accepted
    else if |Outside(Keys(query), r.queryParams.value)| > 0 then
      Rejected("Invalid query parameters: " + Strs.Join(Outside(Keys(query), r.queryParams.value), ", ")
               + ". Allowed parameters: " + Strs.Join(r.queryParams.value, ", "))
    else
      match BadQueryValue(query)
      case Some(msg) => Rejected(msg)
      case None => Accepted
  }

  lemma {:induction false} KeysEmpty(query: Entries<JsValue>)
    ensures |Keys(query)| == |query|
    decreases |query|
  {
    if |query| > 0 {
      KeysEmpty(query[1..]);
    }
  }

  /** Without declared names only the empty query passes; with them every key must be declared
      and no value may be undefined or an empty array. */
  lemma ValidateQueryIff(query: Entries<JsValue>, r: ResourceDefinition)
    ensures r.queryParams.None? ==> (ValidateQuery(query, r).Accepted? <==> |query| == 0)
    ensures r.queryParams.Some? ==> (ValidateQuery(query, r).Accepted? <==>
      (forall k :: k in Keys(query) ==> k in r.queryParams.value) &&
      (forall i :: 0 <= i < |query| ==> GoodQueryValue(query[i].1)))
  {
    if r.queryParams.Some? && |Outside(Keys(query), r.queryParams.value)| > 0 {
      assert Outside(Keys(query), r.queryParams.value)[0] in Outside(Keys(query), r.queryParams.value);
    }
  }

  // ---------------------------------------------------------------- everything

  /** Method, then parameters, then query: the first rejection is the one reported. */
  function ValidateAll(m: string, params: Entries<JsValue>, query: Entries<JsValue>, r: ResourceDefinition): (v: Verdict)
    ensures v.Accepted? <==>
      ValidateMethod(m, r).Accepted? && ValidateParams(params, r).Accepted? && ValidateQuery(query, r).Accepted?
    ensures ValidateMethod(m, r).Rejected? ==> v == ValidateMethod(m, r)
    ensures ValidateMethod(m, r).Accepted? && ValidateParams(params, r).Rejected? ==> v == ValidateParams(params, r)
  {
    match ValidateMethod(m, r)
    case Rejected(msg) => Rejected(msg)
    case Accepted =>
      match ValidateParams(params, r)
      case Rejected(msg) => Rejected(msg)
      case Accepted => ValidateQuery(query, r)
  }

  /** The resource `/users/:id` allowing GET and PUT, parameter `id` and query `fields`. */
  const UserResource: ResourceDefinition :=
    ResourceDefinition("/users/:id", ["GET", "PUT"], Some(["id"]), Some(["fields"]))

  /** The four outcomes for that resource: a good request passes; POST, an undeclared
      parameter and an undeclared query key are each rejected. */
  lemma UserResourceExamples()
    ensures ValidateAll("GET", [("id", Str("123"))], [("fields", Str("name,email"))], UserResource) == Accepted
    ensures ValidateAll("POST", [("id", Str("123"))], [("fields", Str("name,email"))], UserResource).Rejected?
    ensures ValidateAll("GET", [("invalid", Str("123"))], [("fields", Str("name,email"))], UserResource) ==
      Rejected("Missing required parameters: id")
    ensures ValidateAll("GET", [("id", Str("123"))], [("invalid", Str("value"))], UserResource).Rejected?
  {
    PathParams.TemplateNames(PathParams.LetterAlnum);
    assert RequiredParams("/users/:id") == ["id"];
    assert Keys([("id", Str("123"))]) == ["id"];
    assert Keys([("invalid", Str("123"))]) == ["invalid"];
    assert Keys([("fields", Str("name,email"))]) == ["fields"];
    assert Keys([("invalid", Str("value"))]) == ["invalid"];
    assert Outside(["id"], ["invalid"]) == ["id"];
  }
}

=== FILE: wrappers.dfy ===
/** Failure-compatible wrappers: `Option` stands for a JavaScript value that may be
    `undefined`, `Result` for a computation that either returns or throws. */
module Wrappers {

  datatype Option<+T> = None | Some(value: T) {
    predicate IsFailure() {
      None?
    }

    function PropagateFailure<U>(): Option<U>
      requires None?
    {
      None
    }

    function Extract(): T
      requires Some?
    {
      value
    }

    function GetOr(default: T): T {
      match this
      case Some(v) => v
      case None => default
    }
  }

  datatype Result<+T, +E> = Ok(value: T) | Err(error: E) {
    predicate IsFailure() {
      Err?
    }

    function PropagateFailure<U>(): Result<U, E>
      requires Err?
    {
      Err(error)
    }

    function Extract(): T
      requires Ok?
    {
      value
    }
  }
}

=== FILE: zod.dfy ===
/** The schema library as the core sees it: an opaque schema, a parse outcome, and the
    error it reports. Validation itself is foreign code and enters the model as a
    function-valued parameter. */
module Zod {
  import opened Js

  /** One validation issue: where (object keys and array indices) and what. */
  datatype Issue = Issue(path: seq<JsValue>, message: string)

  /** A validation failure: the issues, and the library's own rendering of them. */
  datatype ZodError = ZodError(issues: seq<Issue>, message: string)

  /** A schema object, identified by what it describes. */
  datatype Schema = Schema(name: string)

  /** `schema.safeParse(value)`: the parsed value or the error; `schema.parse` throws the error. */
  datatype Parsed = Valid(value: JsValue) | Invalid(error: ZodError)

  type Validator = (Schema, JsValue) -> Parsed
}
